=== FILE: README.md ===
# llm-framework-showdown: the evaluation pipeline in Dafny

This project models the decision logic of the three-gate evaluation pipeline of
llm-framework-showdown, which asks language models to write small web apps in
five Python frameworks (Streamlit, Gradio, Shiny, Panel, Dash) and then grades
the results:

- **Gate 1** compiles `app.py`.
- **Gate 2** builds a virtual environment, starts the app, waits for an HTTP 200
  and captures a "before" and an "after" screenshot.
- **Gate 3** asks a grader model whether the screenshots meet the task.

Also modelled are the small parsers and builders around the gates:
- the framework policy table;
- the generation prompt;
- the cascade that turns a model's reply into an app spec;
- the command-line list parsing;
- the score extraction and sample assembly of the app-comparison script (`eval_apps.py`);
- the code-fence clean-up of the app generator (`generate_apps.py`).

Everything outside the program becomes a parameter:
- the file system, subprocesses and `py_compile`;
- HTTP requests, the clock, the browser;
- the chat models and the inspect-ai grader.

A run is a function of those parameters. Where the program changes state step
by step, the model is a method proved equal to a specification function, and
the properties are proved about that function. Those places are:
- the readiness loop;
- the Gate 2 lifecycle and the child process;
- the generation loop;
- the job fan-out and the Gate 3 bookkeeping of the run;
- the sample assembly.

One module per source file:

| module | file |
|---|---|
| `Wrappers` | `Option`, `Result` and the Python exceptions the pipeline reports |
| `Text`, `Paths` | the parts of `str` and `pathlib.PurePosixPath` the pipeline uses |
| `Specs` | `eval_pipeline/specs.py` |
| `Config` | `eval_pipeline/config.py` |
| `Challenges`, `Prompts` | `eval_pipeline/prompts.py` |
| `Gates` | `eval_pipeline/gates.py` |
| `Gate3Inspect` | `eval_pipeline/gate3_inspect.py` |
| `ChatGenerate` | `eval_pipeline/chat_generate.py` |
| `Runner` | `eval_pipeline/runner.py` |
| `Cli` | `eval_pipeline/__main__.py` |
| `EvalApps` | `eval_apps.py` |
| `GenerateApps` | `generate_apps.py` |

## Model

| member | source | states |
|---|---|---|
| `Wrappers.Describe` | eval_pipeline/gates.py:51 | `f"{type(e).__name__}: {e}"` is the type name, `": "`, then the message, each at its exact place |
| `Text.Strip` | eval_pipeline/__main__.py:11 | `str.strip()` is a slice of the text with only whitespace before and after it, and leaves no whitespace at either end |
| `Text.Split` | eval_pipeline/__main__.py:11 | `str.split(sep)` yields at least one piece, and no piece holds the separator |
| `Text.SplitJoin` | eval_pipeline/__main__.py:11 | splitting pieces that hold no separator, once joined with it, gives the pieces back |
| `Text.HexDigit` | eval_pipeline/specs.py:7-19 | the hex digit `repr` writes for a value below 16 reads back as that value |
| `Text.ReprChar` | eval_pipeline/specs.py:7-19 | `repr` writes a character as itself exactly when it is not the quote, a backslash, a tab, newline or carriage return, or a character below U+0100 that is not printable (a C0 control, DEL, a C1 control, U+00A0 or U+00AD); otherwise it writes a backslash escape, `\xhh` for those characters |
| `Text.ReprQuote` | eval_pipeline/specs.py:7-19 | `repr` uses double quotes exactly when the text holds `'` and no `"`, and single quotes otherwise |
| `Text.PyRepr` | eval_pipeline/specs.py:7-19 | `repr(s)` is the escaped text between two copies of the chosen quote |
| `Text.ReprRoundTrip` | eval_pipeline/specs.py:7-19 | undoing the escapes of `repr`'s body gives the text back |
| `Text.ReprInjective` | eval_pipeline/specs.py:7-19 | two texts with the same `repr` are equal, so the enum's message identifies the rejected value |
| `Text.NoBreakSpaceEscaped` | eval_pipeline/specs.py:7-19 | `repr` of a no-break space is `'\xa0'` |
| `Text.ReprSingleQuoted` | eval_pipeline/specs.py:7-19 | printable ASCII text without a backslash and without `'` is written as itself between single quotes |
| `Text.ReprDoubleQuoted` | eval_pipeline/specs.py:7-19 | printable ASCII text without a backslash, with `'` and without `"` is written as itself between double quotes |
| `Text.IntToString` | eval_pipeline/gates.py:134 | `str(port)` is the decimal digits of the port, after a `-` when it is negative |
| `Text.IntToStringInjective` | eval_pipeline/gates.py:134 | two integers are written alike only when they are equal |
| `Paths.Child` | eval_pipeline/gates.py:40 | `p / name` adds one component whose parent is `p` and whose name is `name`, keeping absoluteness and well-formedness |
| `Paths.StemSuffix` | eval_pipeline/gates.py:289 | `stem + suffix == name`; the suffix is empty or a dot followed by at least one non-dot character |
| `Paths.WithName` | eval_pipeline/gates.py:288-293 | `with_name` succeeds exactly when the path has a name and the new name is a component; the result keeps the parent and carries the new name |
| `Paths.Resolve` | eval_pipeline/gates.py:286-287 | on paths without `..` or symbolic links, `resolve()` yields an absolute path, keeps well-formed paths well formed, and gives an absolute path back as it is |
| `Paths.ResolveChild` | eval_pipeline/gates.py:294 | resolving and then naming a child equals naming the child and then resolving |
| `Paths.PathOf` | eval_pipeline/__main__.py:89 | `pathlib.Path(s)` is always well formed, and absolute exactly when `s` starts with `/` |
| `Paths.PathRoundTrip` | eval_pipeline/gates.py:124 | parsing `str(p)` gives back `p` for a well-formed path |
| `Specs.LevelValue` | eval_pipeline/specs.py:7-11 | every level's value is a non-empty lower-case word |
| `Specs.FrameworkValue` | eval_pipeline/specs.py:14-19 | every framework's value is a non-empty lower-case word |
| `Specs.ParseLevel` | eval_pipeline/specs.py:7-11 | `ChallengeLevel(v)` returns the member whose value is `v`, or raises the enum's `ValueError` with the message `repr(v)` followed by ` is not a valid ChallengeLevel` |
| `Specs.ParseFramework` | eval_pipeline/specs.py:14-19 | `Framework(v)` returns the member whose value is `v`, or raises the enum's `ValueError` with the message `repr(v)` followed by ` is not a valid Framework` |
| `Specs.QuotedValueRejected` | eval_pipeline/specs.py:7-19 | a value holding `'` and no `"`, with only printable ASCII and no backslash, is rejected by both enums with the value between double quotes |
| `Specs.LevelValues` | eval_pipeline/specs.py:7-11 | every level parses back from its value, and the list of the four levels is complete and free of repeats |
| `Specs.FrameworkValues` | eval_pipeline/specs.py:14-19 | every framework parses back from its value, and the list of the five frameworks is complete and free of repeats |
| `Specs.ParseFrameworkExactly` | eval_pipeline/specs.py:14-19 | a string names a framework exactly when it is one of streamlit, gradio, shiny, panel, dash |
| `Specs.ParseLevelExactly` | eval_pipeline/specs.py:7-11 | a string names a level exactly when it is one of beginner, intermediate, advanced, expert |
| `Config.GetFrameworkConfig` | eval_pipeline/config.py:27-69 | the entry's name is the framework's value; only Panel has the `/app` suffix, needs Bokeh and installs `panel` and `bokeh`; the timeouts are 60/90/120 and the delays 2000/3000 and 1200/2000; an unlisted value gets the defaults 60.0, 1500, 1000 |
| `Config.TableIsTotal` | eval_pipeline/config.py:27-61 | every member of the enumeration has an entry, so the lookup never falls back for one |
| `Challenges.ChallengeTextPlain` | eval_pipeline/prompts.py:6-36 | outside its placeholder no challenge text holds a `[` |
| `Prompts.PlaceholderOnce` | eval_pipeline/prompts.py:6-36 | each of the four challenge texts holds `[FRAMEWORK]` exactly once |
| `Prompts.TaskText` | eval_pipeline/prompts.py:46 | the task is the challenge text with the framework's value where the placeholder stood, and no placeholder is left |
| `Prompts.BuildGenerationPrompt` | eval_pipeline/prompts.py:79-97 | the prompt ends with a line break followed by the JSON-format instruction |
| `Prompts.PromptHasLine` | eval_pipeline/prompts.py:79-97 | every line of the fixed list occurs in the prompt |
| `Prompts.PromptLineSlots` | eval_pipeline/prompts.py:79-97 | the prompt has sixteen lines, with the address at line 7, the run notes at line 10 and the task at line 12 |
| `Prompts.PromptMentionsTask` | eval_pipeline/prompts.py:93 | the prompt contains the task text with the framework's value substituted |
| `Prompts.PromptMentionsAddress` | eval_pipeline/prompts.py:88 | the prompt contains `http://{host}:{port}` |
| `Prompts.PromptMentionsNotes` | eval_pipeline/prompts.py:91 | the prompt contains the framework's run notes |
| `Prompts.RunNotesMention` | eval_pipeline/prompts.py:53-76 | the Dash note holds `PORT = {port}` and the exact `app.run(host="{host}", port=PORT, debug=False)`; the Gradio note holds `server_name="{host}"` and `server_port={port}` |
| `Cli.CsvList` | eval_pipeline/__main__.py:10-11 | no item is empty, has whitespace at either end or holds a comma |
| `Cli.CsvListAround` | eval_pipeline/__main__.py:11 | the list of `a,b` is the list of `a` followed by the list of `b`, so the order of the input is kept |
| `Cli.CsvListOne` | eval_pipeline/__main__.py:11 | text without a comma gives itself stripped, or nothing when it is all whitespace |
| `Cli.CsvListEmpty` | eval_pipeline/__main__.py:11 | the empty string gives the empty list |
| `Cli.CsvListOfItems` | eval_pipeline/__main__.py:11 | clean items joined with commas parse back to the same items |
| `Cli.CsvListRoundTrip` | eval_pipeline/__main__.py:11 | joining the result with `","` and parsing it again gives the same list |
| `Cli.ParseEach` | eval_pipeline/__main__.py:84-85 | a list comprehension over a parser gives one result per value, each the parser's result for that value, or the error of the first value the parser rejects |
| `Cli.ParseFrameworks` | eval_pipeline/__main__.py:84 | the list comprehension gives one framework per value, each with that value, or the error of the first value that names none |
| `Cli.ParseLevels` | eval_pipeline/__main__.py:85 | the list comprehension gives one level per value, each with that value, or the error of the first value that names none |
| `Cli.ParseFrameworkValues` | eval_pipeline/__main__.py:84 | the values of any list of frameworks parse back to that list |
| `Cli.ParseLevelValues` | eval_pipeline/__main__.py:85 | the values of any list of levels parse back to that list |
| `Cli.DefaultFrameworkItems` | eval_pipeline/__main__.py:23 | the default `--frameworks` splits into the five framework values |
| `Cli.DefaultLevelItems` | eval_pipeline/__main__.py:31 | the default `--levels` splits into the four level values |
| `Cli.DefaultFrameworksAll` | eval_pipeline/__main__.py:23-84 | the default `--frameworks` names all five frameworks in declaration order |
| `Cli.DefaultLevelsAll` | eval_pipeline/__main__.py:31-85 | the default `--levels` names all four levels in declaration order |
| `Cli.MainCall` | eval_pipeline/__main__.py:82-107 | `main` calls the run exactly when every framework and level value parses; otherwise it raises the first framework error, or, when every framework parses, the first level error; the other flags are passed on unchanged |
| `Cli.Gate2Flag` | eval_pipeline/__main__.py:102 | Gate 2 is enabled exactly when `--no-gate2` is absent |
| `Cli.Gate3LogDirFlag` | eval_pipeline/__main__.py:88-90 | a log directory is passed exactly when `--gate3-log-dir` is given and non-empty, and it is the path of that text |
| `Cli.DefaultsCoverAll` | eval_pipeline/__main__.py:21-107 | with only `--models`, the run covers every framework and every level, with Gate 2 on and Gate 3 off |
| `Gates.VenvBin` | eval_pipeline/gates.py:38-40 | `<venv>/bin/<name>`: the parent is the venv's `bin` and the name is `name` |
| `Gates.Gate1Compile` | eval_pipeline/gates.py:43-51 | ok exactly when compiling did not raise; then there is no error, otherwise the error is `"<Type>: <message>"` |
| `Gates.Gate1NamesException` | eval_pipeline/gates.py:49-51 | a failed compilation's error starts with the exception's type name, e.g. `SyntaxError` |
| `Gates.BuildFrameworkCommand` | eval_pipeline/gates.py:111-173 | the command is `["true"]` exactly for a value outside the enumeration; every listed framework's command names the app file; the lengths are 13, 7, 11, 2 and 2 |
| `Gates.VenvProgram` | eval_pipeline/gates.py:119-140 | a program of the venv written out and parsed back is `<venv>/bin/<name>` |
| `Gates.CommandUsesVenv` | eval_pipeline/gates.py:119-154 | every listed framework's command starts with the venv's `python`, `shiny` or `panel` |
| `Gates.StreamlitCommandAddress` | eval_pipeline/gates.py:122-137 | Streamlit gets the host after `--server.address` and the port after `--server.port` |
| `Gates.ShinyCommandAddress` | eval_pipeline/gates.py:139-149 | Shiny gets the host after `--host` and the port after `--port` |
| `Gates.PanelCommandAddress` | eval_pipeline/gates.py:151-165 | Panel gets the host after `--address`, the port after `--port`, and `--allow-websocket-origin host:port` |
| `Gates.ScriptCommand` | eval_pipeline/gates.py:167-171 | Gradio and Dash run as `python app.py`, two words |
| `Gates.FrameworkRuntimeFor` | eval_pipeline/gates.py:176-214 | the URL is `http://host:port` plus `/app` for Panel only; the command is the framework's; Gate 2 is supported exactly for listed frameworks, whose timings come from the table; an unlisted value gets the skip reason and the defaults; there is never a button selector |
| `Gates.FrameworkRuntimeAsWritten` | eval_pipeline/gates.py:199-214 | as written, the runtime is built only for an unlisted value; every listed framework reaches the missing `button_selector` |
| `Gates.RuntimeAsWrittenRaises` | eval_pipeline/gates.py:212 | for every framework of the enumeration the runtime as written raises `AttributeError`, while the intended runtime supports Gate 2 |
| `Gates.CompanionPaths` | eval_pipeline/gates.py:288-293 | the before and after paths exist exactly when the screenshot path has a name; they sit in its directory, are named `stem_before suffix` and `stem_after suffix`, and differ from each other and from the base path |
| `Gates.TaggedNameIsComponent` | eval_pipeline/gates.py:289 | the tagged name of a named path is a proper path component |
| `Gates.CompanionBeforeExtension` | eval_pipeline/gates.py:288-293 | the tag goes before the extension, so `dashboard.png` gives `dashboard_before.png` in the same directory |
| `Gates.WaitFor200` | eval_pipeline/gates.py:54-78 | the loop's outcome is the specification's; it makes no request when the deadline has passed, and returns only after a request made before the deadline answered 200, the first one that did |
| `Gates.PollingDoneIff` | eval_pipeline/gates.py:66-71 | the wait ends well exactly when some request made before the deadline answered 200 |
| `Gates.PollingTimeoutMessage` | eval_pipeline/gates.py:72-78 | the timeout names a last error exactly when some request made before the deadline raised; answers other than 200 are not errors |
| `Gates.PollingErrorCarried` | eval_pipeline/gates.py:61-78 | an error seen earlier is carried to the timeout message |
| `Gates.TimedOutTexts` | eval_pipeline/gates.py:76-78 | the two timeout messages differ |
| `Gates.TakeScreenshot` | eval_pipeline/gates.py:94-106 | a capture returns exactly when the browser started, the page loaded and the capture succeeded; a failed launch raises its exception; after a launch, a failed page load raises its exception; after both, the capture's outcome is the result |
| `Gates.ClickNeverFails` | eval_pipeline/gates.py:99-104 | neither the selector nor the click's outcome changes what a capture returns |
| `Gates.TeardownSignals` | eval_pipeline/gates.py:372-377 | SIGTERM comes first, and SIGKILL is sent exactly when the ten-second wait times out |
| `Gates.ChildProcess.constructor` | eval_pipeline/gates.py:334-341 | a started process runs the command and has received no signal |
| `Gates.ChildProcess.SendSignal` | eval_pipeline/gates.py:373 | a signal is appended to those the process received |
| `Gates.ChildProcess.Teardown` | eval_pipeline/gates.py:372-377 | the process receives exactly the teardown signals |
| `Gates.PrepareVenv` | eval_pipeline/gates.py:217-258 | preparation succeeds exactly when the venv exists or is created, the install succeeds, and the extras (if any) install; the venv is created exactly when it did not exist; on success the commands are `uv venv`, `uv pip install -r`, then the extras, in that order |
| `Gates.EffectiveTimeout` | eval_pipeline/gates.py:312 | a missing or zero override falls back to the framework's timeout; any other override is used |
| `Gates.Serve` | eval_pipeline/gates.py:343-363 | the inner block succeeds exactly when the server answered 200 in time and both captures returned |
| `Gates.Launch` | eval_pipeline/gates.py:321-387 | the process is spawned exactly when the venv is ready and the spawn succeeds; once spawned it is torn down on every path; the result is ok exactly when the inner block succeeded, and then carries the URL and all three paths; otherwise it has the URL, the before and after paths, no legacy path, and the error `"<Type>: <message>"` of the exception the venv preparation, the spawn or the inner block raised |
| `Gates.Gate2Launches` | eval_pipeline/gates.py:286-387 | for a listed framework and a screenshot path with a name, Gate 2 is the launch of the framework's runtime with its extra requirements and the timeout `timeout_s or runtime.startup_timeout_s` |
| `Gates.Gate2` | eval_pipeline/gates.py:261-387 | teardown happens exactly when a process was spawned, and that only for a listed framework; ok implies a process was spawned |
| `Gates.Gate2AsWrittenNeverRuns` | eval_pipeline/gates.py:296-302 | as written, every framework of the enumeration ends in the `AttributeError` before any command or process |
| `Gates.Gate2Skips` | eval_pipeline/gates.py:305-309 | an unlisted framework gives `ok=false` with the skip reason, and no command is run and no process started |
| `Gates.Gate2RaisesWithoutName` | eval_pipeline/gates.py:286-293 | a screenshot path without a name raises `ValueError` before anything is run |
| `Gates.ServeApp` | eval_pipeline/gates.py:343-363 | the step-by-step inner block returns what `Serve` specifies |
| `Gates.LaunchApp` | eval_pipeline/gates.py:321-387 | the step-by-step lifecycle returns `Launch`'s result and commands; the process exists exactly when `Launch` spawns one, runs the runtime's command and receives `Launch`'s signals |
| `Gates.Gate2RunAndScreenshot` | eval_pipeline/gates.py:261-387 | the step-by-step gate returns `Gate2`'s result and commands, and its process exists and is signalled exactly as `Gate2` says |
| `Gate3Inspect.TokenAt` | eval_pipeline/gate3_inspect.py:22 | `(PASS\|FAIL)\s*$` matches at a position only with a four-character verdict token there, case ignored |
| `Gate3Inspect.ColonAt` | eval_pipeline/gate3_inspect.py:22 | `:\s*(PASS\|FAIL)\s*$` yields only a verdict token |
| `Gate3Inspect.AnswerFrom` | eval_pipeline/gate3_inspect.py:22 | `ANSWER\s*:…` yields only a verdict token |
| `Gate3Inspect.AnswerAt` | eval_pipeline/gate3_inspect.py:22 | the whole pattern from a line start yields only a verdict token |
| `Gate3Inspect.Leftmost` | eval_pipeline/gate3_inspect.py:26 | the search finds a match exactly when one exists in range, and returns the first one |
| `Gate3Inspect.FirstAnswer` | eval_pipeline/gate3_inspect.py:22-26 | `_ANSWER_RE.search` finds a token exactly when the pattern matches somewhere, and returns the token of the leftmost match |
| `Gate3Inspect.Upper` | eval_pipeline/gate3_inspect.py:29 | `str.upper()` keeps the length and maps each character on its own |
| `Gate3Inspect.ExtractAnswer` | eval_pipeline/gate3_inspect.py:25-29 | the answer is `None`, `"PASS"` or `"FAIL"`, and is `None` exactly when the code as written finds no match |
| `Gate3Inspect.UpperToken` | eval_pipeline/gate3_inspect.py:29 | upper-casing a token without a dotted capital I gives `PASS` or `FAIL` as it spells |
| `Gate3Inspect.UpperKeepsDotted` | eval_pipeline/gate3_inspect.py:29 | upper-casing neither creates nor removes a dotted capital I |
| `Gate3Inspect.ExtractAnswerAgrees` | eval_pipeline/gate3_inspect.py:25-29 | the code as written and the corrected reading agree on every reply whose token has no dotted capital I |
| `Gate3Inspect.VerdictLine` | eval_pipeline/gate3_inspect.py:22-29 | a reply opening with `ANSWER:`, any whitespace (line breaks included) and a token, then a line break or the end, is read as that token's verdict |
| `Gate3Inspect.TrailingProse` | eval_pipeline/gate3_inspect.py:22 | prose after the token on the same line prevents the match |
| `Gate3Inspect.DottedFailToken` | eval_pipeline/gate3_inspect.py:22-29 | `FAİL` matches the pattern as `FAIL` and `upper()` leaves it unchanged |
| `Gate3Inspect.DottedFailAsWritten` | eval_pipeline/gate3_inspect.py:29 | as written, `ANSWER: FAİL` is read as `FAİL`, which is neither verdict; the corrected reading gives `FAIL` |
| `Gate3Inspect.NoReplyNoVerdict` | eval_pipeline/gate3_inspect.py:26-28 | no reply, or an empty one, gives no verdict |
| `Gate3Inspect.Lookup` | eval_pipeline/gate3_inspect.py:215 | `scores.get(key)` finds a score exactly when an entry has that key, and returns that entry's score |
| `Gate3Inspect.SelectScore` | eval_pipeline/gate3_inspect.py:213-217 | the `model_graded_qa` score is preferred; without it the only score is used when there is exactly one; otherwise there is none |
| `Gate3Inspect.Passed` | eval_pipeline/gate3_inspect.py:234-236 | `passed` is known exactly when the scoring model says `C` and the answer is `PASS` or `FAIL`, and is then true exactly for `PASS` |
| `Gate3Inspect.SampleResult` | eval_pipeline/gate3_inspect.py:203-245 | ok exactly when a score is found; without one the record has the no-score error and keeps the solver's answer; with one it has the grade and the explanation; the log location is always recorded |
| `Gate3Inspect.KeyedByCovers` | eval_pipeline/gate3_inspect.py:203-245 | every item's key ends up in the dictionary |
| `Gate3Inspect.KeyedByOnly` | eval_pipeline/gate3_inspect.py:203-245 | every key of the dictionary belongs to an item |
| `Gate3Inspect.KeyedByLast` | eval_pipeline/gate3_inspect.py:220-245 | the value under a key is that of the last item with that key |
| `Gate3Inspect.ResultsOfKeys` | eval_pipeline/gate3_inspect.py:201-247 | every logged sample has a record under its id, every record belongs to a sample, and it is the record of the last sample with that id |
| `Gate3Inspect.CollectResults` | eval_pipeline/gate3_inspect.py:201-247 | the results loop builds exactly `ResultsOf` |
| `Gate3Inspect.QuestionMentionsTask` | eval_pipeline/gate3_inspect.py:118-134 | every question carries the level's challenge with the framework's value in place of the placeholder |
| `Gate3Inspect.SamplesOf` | eval_pipeline/gate3_inspect.py:111-171 | there is at most one sample per case |
| `Gate3Inspect.SampleSources` | eval_pipeline/gate3_inspect.py:111-171 | every sample comes from a case with both screenshots on disk, and every such case gives its sample |
| `Gate3Inspect.SampleFromReady` | eval_pipeline/gate3_inspect.py:111-171 | a sample in the list comes from a case whose two screenshots exist |
| `Gate3Inspect.ReadyGivesSample` | eval_pipeline/gate3_inspect.py:111-171 | a case whose two screenshots exist has its sample in the list |
| `Gate3Inspect.BuildSamples` | eval_pipeline/gate3_inspect.py:111-171 | the sample loop skips a case missing a screenshot and appends every other case's sample in order, giving exactly `SamplesOf` |
| `Gate3Inspect.Gate3Grade` | eval_pipeline/gate3_inspect.py:32-247 | no cases give `{}`; then, in order, a failed chatlas import raises its `RuntimeError`, a failed inspect-ai import raises its `RuntimeError`, an exception of the setup propagates, and a chat without `to_solver` raises the chatlas `RuntimeError`; no samples give `{}`; an exception of the evaluation propagates; no logs give `{}`; a non-empty result is the results of the first log; it fails exactly on one of these raising paths |
| `Gate3Inspect.Gate3GradeScreenshots` | eval_pipeline/gate3_inspect.py:32-247 | the step-by-step gate returns what `Gate3Grade` specifies |
| `ChatGenerate.AppSpecOf` | eval_pipeline/chat_generate.py:65 | `GeneratedAppSpec(**data)` accepts only an object (with its four fields as strings) |
| `ChatGenerate.AppSpecOfJson` | eval_pipeline/chat_generate.py:65 | the object the prompt asks for is accepted as the spec it encodes, whatever other keys it has |
| `ChatGenerate.FirstFence` | eval_pipeline/chat_generate.py:71 | the first three backticks at or after a position, and none before |
| `ChatGenerate.FirstFenceIs` | eval_pipeline/chat_generate.py:71 | with no backtick in between, the first fence is the one at `t` |
| `ChatGenerate.FencedSpan` | eval_pipeline/chat_generate.py:71-73 | the fenced strategy's group, when there is one, is a piece of the text after a fence |
| `ChatGenerate.NoBacktickNoFence` | eval_pipeline/chat_generate.py:71-72 | a reply without a backtick has no fenced block |
| `ChatGenerate.FirstOf` | eval_pipeline/chat_generate.py:81 | the first occurrence of a character at or after a position |
| `ChatGenerate.LastOf` | eval_pipeline/chat_generate.py:81 | the last occurrence of a character before a position |
| `ChatGenerate.EmbeddedSpan` | eval_pipeline/chat_generate.py:81-83 | `\{.*\}` matches exactly when a `}` follows a `{`, and its match starts with `{` and ends with `}` |
| `ChatGenerate.AttemptEncoded` | eval_pipeline/chat_generate.py:63-65 | a text that decodes to a spec's object yields that spec |
| `ChatGenerate.CascadeSources` | eval_pipeline/chat_generate.py:52-96 | the parsed spec is the fallback or one strategy's result, an earlier strategy always wins, and the fallback is used only when none yields a spec |
| `ChatGenerate.NotAnObject` | eval_pipeline/chat_generate.py:63-66 | a text whose first non-space character is not `{` yields no spec |
| `ChatGenerate.StripFirst` | eval_pipeline/chat_generate.py:63 | `strip()` keeps the first non-space character first |
| `ChatGenerate.ParseDirect` | eval_pipeline/chat_generate.py:61-65 | a reply that is an encoded spec, whitespace around it allowed, parses back to that spec |
| `ChatGenerate.FencedSpanIs` | eval_pipeline/chat_generate.py:71 | the fenced group runs from after the tag and the whitespace to before the whitespace preceding the next fence |
| `ChatGenerate.FencedRest` | eval_pipeline/chat_generate.py:71 | the lazy group stops at the whitespace before the first later fence |
| `ChatGenerate.FencedBlock` | eval_pipeline/chat_generate.py:71-73 | a fenced block's group is its body without the tag and surrounding whitespace |
| `ChatGenerate.EmbeddedObject` | eval_pipeline/chat_generate.py:81-83 | the embedded span is the object itself when the prose around it has no brace that would extend it |
| `ChatGenerate.ParseSecond` | eval_pipeline/chat_generate.py:69-75 | when the whole reply yields nothing and the fenced block yields a spec, that spec is the result |
| `ChatGenerate.ParseThird` | eval_pipeline/chat_generate.py:79-85 | when the first two strategies yield nothing and the embedded object yields a spec, that spec is the result |
| `ChatGenerate.LeadingChar` | eval_pipeline/chat_generate.py:63 | a reply with prose before its first `{` does not start with `{` once stripped |
| `ChatGenerate.ParseFenced` | eval_pipeline/chat_generate.py:52-85 | an encoded spec in a `json` fence, with prose around it, parses back to that spec |
| `ChatGenerate.ParseEmbedded` | eval_pipeline/chat_generate.py:52-85 | an encoded spec with prose around it and no backtick parses back to that spec |
| `ChatGenerate.ParseEmbeddedText` | eval_pipeline/chat_generate.py:52-85 | the same, stated on the reply as a whole |
| `ChatGenerate.ParseNothing` | eval_pipeline/chat_generate.py:89-96 | a reply with no `{` and no backtick yields the fallback spec |
| `ChatGenerate.GenerateSingleApp` | eval_pipeline/chat_generate.py:99-131 | fails exactly when the chat call raises, with its exception; otherwise holds the parsed reply |
| `ChatGenerate.GenerateAppsSync` | eval_pipeline/chat_generate.py:134-207 | one entry per job, in job order, each the outcome of that job alone, with or without the progress bar |
| `Runner.KeepSafe` | eval_pipeline/runner.py:25 | the filter keeps only letters, digits, `-`, `_` and `.` |
| `Runner.SafeDirName` | eval_pipeline/runner.py:24-26 | the name holds only safe characters, has no dot at either end and no `/`, and is a single path component exactly when it is not empty |
| `Runner.KeepSafeKeeps` | eval_pipeline/runner.py:25 | text made only of safe characters passes the filter unchanged |
| `Runner.KeepSafeAppend` | eval_pipeline/runner.py:25 | the filter works character by character, so it distributes over concatenation |
| `Runner.SafeDirNameKeeps` | eval_pipeline/runner.py:24-26 | a safe name with no dot at either end is its own directory name |
| `Runner.SafeDirNameIdempotent` | eval_pipeline/runner.py:24-26 | cleaning a cleaned name changes nothing |
| `Runner.SafeDirNameDrops` | eval_pipeline/runner.py:25 | an unsafe character (the `:` or `/` of a model id) disappears and the text around it closes up |
| `Runner.FileText` | eval_pipeline/runner.py:29-31 | the written text is the content without its trailing whitespace, then exactly one newline |
| `Runner.FileTextIdempotent` | eval_pipeline/runner.py:29-31 | writing a written text again writes the same text |
| `Runner.JobMetasShape` | eval_pipeline/runner.py:53-67 | the job list is the framework-major cross product: \|F\|·\|L\| jobs, the `k`-th on port `base_port + k`, the one at `i·\|L\| + j` for the `i`-th framework and `j`-th level |
| `Runner.JobsOfAppend` | eval_pipeline/runner.py:58-66 | appending a job's metadata appends its generation job, so the two lists stay aligned |
| `Runner.AddRow` | eval_pipeline/runner.py:57-67 | the inner loop appends one job per level and advances the port by the number of levels |
| `Runner.BuildJobs` | eval_pipeline/runner.py:53-67 | the two loops build exactly the job list above, with the generation jobs aligned to it |
| `Runner.WordIsComponent` | eval_pipeline/runner.py:86 | a framework or level value is a single path component |
| `Runner.JobDirJoins` | eval_pipeline/runner.py:85-86 | the job directory is the output directory joined with the framework value, the level value and the slug, well formed when the output directory is, and named by the slug when the slug is not empty |
| `Runner.RecordOfShape` | eval_pipeline/runner.py:85-156 | each record names its job, model and directory with no Gate 3 result; a generation exception and a missing generation are recorded on both gates; with Gate 2 off the app is compiled and Gate 2 is skipped as disabled; only Gate 2 can raise |
| `Runner.ModelPassRecords` | eval_pipeline/runner.py:82-164 | the job loop raises nothing exactly when no job raises, and then holds the `k`-th job's record in place `k`; otherwise it raises the first job's exception |
| `Runner.ModelPassStops` | eval_pipeline/runner.py:82-164 | once a job has raised, later jobs change nothing |
| `Runner.RecordJobs` | eval_pipeline/runner.py:82-164 | the loop over `zip(job_meta, gen_results)` computes the job loop's outcome up to the shorter list |
| `Runner.ShotsJoin` | eval_pipeline/runner.py:192-193 | the two screenshots are the files `dashboard_before.png` and `dashboard_after.png` in the record's directory |
| `Runner.Select` | eval_pipeline/runner.py:183-216 | the cases are the images of exactly the kept records, and there are none exactly when no record is kept |
| `Runner.EveryRecordGetsGate3` | eval_pipeline/runner.py:166-251 | the Gate 3 phase changes only Gate 3 results; with Gate 3 on every record ends with one; with Gate 3 off nothing changes |
| `Runner.Precheck` | eval_pipeline/runner.py:184-205 | the screenshot checks leave a gradable record as it is and give every other record a Gate 3 result |
| `Runner.GraderRequired` | eval_pipeline/runner.py:166-171 | with Gate 3 on, the phase raises exactly when no grader model is named, and raises the `ValueError` |
| `Runner.Gate3Outcome` | eval_pipeline/runner.py:173-251 | what each record's Gate 3 result is: the import failure; the scoring model's result for its directory; the skip for a failed Gate 2; the missing-screenshot error naming the first missing file; the grading exception or the no-result error |
| `Runner.MarkImportFailed` | eval_pipeline/runner.py:175-181 | every record gets the import error |
| `Runner.CheckScreenshots` | eval_pipeline/runner.py:183-216 | the screenshot loop prechecks every record and collects the gradable ones as cases |
| `Runner.AssignResults` | eval_pipeline/runner.py:236-244 | each record gets the scoring model's result for its directory, or the no-result error when it has none yet |
| `Runner.MarkGradingFailed` | eval_pipeline/runner.py:245-251 | each record without a result gets the grading exception |
| `Runner.GradeModel` | eval_pipeline/runner.py:166-251 | the Gate 3 phase step by step computes the phase as specified |
| `Runner.RunModelsStops` | eval_pipeline/runner.py:71-251 | once a model has raised, later models change nothing |
| `Runner.RunModelsRaised` | eval_pipeline/runner.py:71-251 | a run raises nothing exactly when no model raises, and otherwise raises what the first model raised |
| `Runner.RunModelsRecords` | eval_pipeline/runner.py:71-156 | with no model raising, the `k`-th record of the `i`-th model sits at `i·width + k` |
| `Runner.PartsName` | eval_pipeline/runner.py:82-156 | the job loop names every record with its job, model and directory |
| `Runner.PartsKeep` | eval_pipeline/runner.py:166-251 | the Gate 3 phase keeps every record and sets a Gate 3 result exactly when Gate 3 is on |
| `Runner.PartsCover` | eval_pipeline/runner.py:74-84 | generation yields an item for every job of every model |
| `Runner.RecordOfModel` | eval_pipeline/runner.py:71-251 | a model that raises nothing yields one record per job, in job order, each naming its job and the model |
| `Runner.ModelRecords` | eval_pipeline/runner.py:71-251 | each model contributes its records in that shape |
| `Runner.RunGrid` | eval_pipeline/runner.py:53-251 | the record for model `m`, framework `i` and level `j` sits at `m·\|F\|·\|L\| + i·\|L\| + j` and names them, its port and its job directory |
| `Runner.RunRecords` | eval_pipeline/runner.py:34-262 | a run's records are laid out in that grid |
| `Runner.EvaluationRecords` | eval_pipeline/runner.py:34-262 | `run_evaluation`'s records are laid out in that grid, whatever the model, the browser and the scoring model answer |
| `Runner.GraderMissingStopsRun` | eval_pipeline/runner.py:71-171 | with Gate 3 on and no grader named, the run raises the `ValueError` after the first model's job loop (unless that loop raised first), and only that model's job directories are written |
| `Runner.GenerateAll` | eval_pipeline/runner.py:74-80 | generation yields one result per job, in job order |
| `Runner.EvaluateModel` | eval_pipeline/runner.py:71-251 | one model step by step computes that model's outcome |
| `Runner.OutcomeIs` | eval_pipeline/runner.py:71-251 | a model's outcome is its job loop followed by its Gate 3 phase |
| `Runner.PartsFit` | eval_pipeline/runner.py:74-251 | the parts a run builds are the ones its oracles give |
| `Runner.RunWith` | eval_pipeline/runner.py:53-262 | the run step by step returns every record, or the exception that escaped, and the job directories written |
| `Runner.RunEvaluation` | eval_pipeline/runner.py:34-262 | `run_evaluation` step by step returns what `Evaluation` specifies |
| `EvalApps.DigitRun` | eval_apps.py:188 | the greedy `\d+` takes every digit from `i` and stops at a non-digit or the end |
| `EvalApps.DigitRunEnd` | eval_apps.py:188 | a run of digits followed by a non-digit is exactly what `\d+` takes |
| `EvalApps.MatchAt` | eval_apps.py:188 | a match at an index captures a non-empty run of digits and an optional run of fraction digits |
| `EvalApps.MatchAtMeans` | eval_apps.py:188 | the pattern matches at an index exactly when `LABEL:` sits there and a number follows after any whitespace |
| `EvalApps.FirstMatch` | eval_apps.py:189 | `re.search` finds the leftmost index where the pattern matches, or none when it matches nowhere |
| `EvalApps.Value` | eval_apps.py:191 | `float()` of the captured number is never negative |
| `EvalApps.Clamp` | eval_apps.py:191 | `min(max(v, 1.0), 10.0)` lies in [1, 10], keeps values inside, and maps values below to 1 and above to 10 |
| `EvalApps.ExtractScore` | eval_apps.py:186-192 | the score is 0.0 or lies in [1, 10] |
| `EvalApps.ScoreZeroIffNoMatch` | eval_apps.py:189-192 | the score is 0.0 exactly when the label is nowhere followed by a number |
| `EvalApps.FirstOccurrenceWins` | eval_apps.py:189-191 | the earliest match decides the score; later ones are ignored |
| `EvalApps.DigitNotSpace` | eval_apps.py:188 | whitespace is never a digit, so `\s*` stops in front of the number |
| `EvalApps.WholeMatchAt` | eval_apps.py:188 | digits with no `.digit` after them are captured whole |
| `EvalApps.FractionMatchAt` | eval_apps.py:188 | digits, a dot and digits are captured together |
| `EvalApps.LeadingScore` | eval_apps.py:186-192 | a reply that starts with `LABEL: <digits>` scores those digits, clamped |
| `EvalApps.LeadingDecimalScore` | eval_apps.py:186-192 | a reply that starts with `LABEL: <digits>.<digits>` scores that decimal, clamped |
| `EvalApps.SignedScoreIgnored` | eval_apps.py:188-192 | a sign is not part of the pattern, so `LABEL: -3` scores 0.0 |
| `EvalApps.LowerCaseReplyScoresZero` | eval_apps.py:188-192 | the search is case-sensitive: a reply without capital letters scores 0.0 |
| `EvalApps.Scores` | eval_apps.py:165-181 | the score value has exactly the three criterion keys, each 0.0 or in [1, 10] |
| `EvalApps.ScoreUnderKey` | eval_apps.py:168-179 | each key holds the score read after that criterion's label |
| `EvalApps.CriteriaDistinct` | eval_apps.py:168-179 | distinct criteria have distinct labels and keys, so no score overwrites another |
| `EvalApps.ZeroReadsAsOne` | eval_apps.py:191 | `LABEL: 0` reads as 1.0 |
| `EvalApps.FifteenReadsAsTen` | eval_apps.py:191 | `LABEL: 15` reads as 10.0 |
| `EvalApps.NewlineThenExponent` | eval_apps.py:188-191 | the whitespace may include a line break, and an exponent is not read: `LABEL:\n7e2` reads as 7.0 |
| `EvalApps.DecimalScoreKept` | eval_apps.py:188-191 | `LABEL: 8.5` reads as 8.5 |
| `EvalApps.FrameworksTable` | eval_apps.py:32-37 | every app directory of the table is a single path component, and no two are equal |
| `EvalApps.FormatShowsLast` | eval_apps.py:120-124 | the last value filled into a template appears in the result unchanged |
| `EvalApps.SampleWordingShaped` | eval_apps.py:84-102 | the evaluation template has four placeholders (framework, original prompt, framework, code) and the original prompt two |
| `EvalApps.EvalTextShowsCode` | eval_apps.py:117-124 | the evaluation prompt shows the app's code exactly as it is on disk |
| `EvalApps.CodeFile` | eval_apps.py:109-110 | the code file is `BASE_DIR / dirname / "app.py"` |
| `EvalApps.BeforeShot` | eval_apps.py:111 | the before screenshot is `BASE_DIR / dirname / "before.png"` |
| `EvalApps.AfterShot` | eval_apps.py:112 | the after screenshot is `BASE_DIR / dirname / "after.png"` |
| `EvalApps.ContentOf` | eval_apps.py:126-141 | the message is the evaluation prompt, then a caption and an image for each screenshot that exists, before first |
| `EvalApps.SamplesOf` | eval_apps.py:107-150 | there are at most as many samples as apps, and each has the fixed target |
| `EvalApps.Present` | eval_apps.py:114-115 | at most as many directories as apps are found |
| `EvalApps.Ids` | eval_apps.py:147 | the ids are the samples' ids, in order |
| `EvalApps.SampleIds` | eval_apps.py:107-150 | there is one sample per app whose `app.py` exists, in the table's order, with the directory as id |
| `EvalApps.PresentAll` | eval_apps.py:108-115 | with every `app.py` on disk, the directories found are exactly the table's directories, in the table's order |
| `EvalApps.AllAppsSampled` | eval_apps.py:105-152 | with every `app.py` on disk, every app gets a sample, in order |
| `EvalApps.NoAppsNoSamples` | eval_apps.py:114-115 | with no `app.py` on disk there is no sample |
| `EvalApps.PresentFrom` | eval_apps.py:108-115 | every directory found is one of the table's and has its `app.py` on disk |
| `EvalApps.PresentDistinct` | eval_apps.py:108-115 | the directories found are distinct when the table's are |
| `EvalApps.SampleIdsDistinct` | eval_apps.py:143-150 | sample ids are unique when the table's directories are |
| `EvalApps.AssembleContent` | eval_apps.py:126-141 | the content list built step by step is exactly `ContentOf` |
| `EvalApps.CollectSamples` | eval_apps.py:107-150 | the loop skips apps without `app.py` and appends every other app's sample, giving exactly `SamplesOf` |
| `EvalApps.BuildSamples` | eval_apps.py:105-152 | `_build_samples` gives the samples of the four apps, with one id per app on disk, in table order |
| `GenerateApps.LastNewline` | generate_apps.py:46 | a greedy `\s*\n` stops just after the last newline of the whitespace run, and does not match when the run has none |
| `GenerateApps.OpenFenceEnd` | generate_apps.py:46 | the opening fence matches only at the start, ends on a newline after only whitespace, tries the `python` tag first, and takes every newline of the whitespace run |
| `GenerateApps.DropOpenFence` | generate_apps.py:46 | the first substitution leaves a suffix of the reply, and changes it exactly when the opening fence matches |
| `GenerateApps.CloseFenceFrom` | generate_apps.py:47 | the leftmost place where a newline, three backticks and only whitespace up to the end occur |
| `GenerateApps.NoFenceAfterClose` | generate_apps.py:47 | no newline followed by three backticks can start after a closing fence |
| `GenerateApps.CloseFenceUnique` | generate_apps.py:47 | there is at most one closing fence |
| `GenerateApps.DropCloseFence` | generate_apps.py:47 | the second substitution leaves a prefix, either the whole text or the text cut at a closing fence |
| `GenerateApps.StripMarkdownFences` | generate_apps.py:44-48 | the result is stripped and no longer than the reply |
| `GenerateApps.UnfencedOnlyStripped` | generate_apps.py:44-48 | a reply with no fence is only stripped |
| `GenerateApps.OpenFenceOfBlock` | generate_apps.py:46 | a bare or `python` opening fence and its newline are dropped, leaving the code |
| `GenerateApps.CloseFenceOfBlock` | generate_apps.py:47 | code followed by a closing fence and trailing whitespace loses exactly the fence |
| `GenerateApps.OpenFenceOfPaddedBlock` | generate_apps.py:46 | before code with a non-space character, the opening match ends inside the code's leading whitespace, so it drops the fence and only whitespace of the code |
| `GenerateApps.FencedBlockUnwrapped` | generate_apps.py:44-48 | for any code with a non-space character, a bare or `python` fenced block around it, trailing whitespace allowed, gives the code stripped |
| `GenerateApps.OtherTagKept` | generate_apps.py:46 | a fence tagged with anything other than `python` is not dropped |
| `GenerateApps.EmptyBlockLeavesBackticks` | generate_apps.py:46-48 | an empty `python` block leaves its three closing backticks, because the opening match takes both newlines |

## Left out

- Processes, files and the network: `py_compile`, `uv venv` and `uv pip install`, `Popen`, `httpx` and Playwright are oracles or parameters. The model keeps their order, what their results and exceptions decide, and which paths they receive, but not their effects. `job_dir.mkdir` and the four `_write_text` calls of `eval_pipeline/runner.py:87` and `:125-128`, and `read_text` in `eval_apps.py:117`, are assumed not to raise; only the paths they touch are modelled.
- Time: `time.time()` and `time.sleep()` in `_wait_for_200` become a finite list of clock readings paired with responses. The real half-second sleep and the real deadline are not modelled; a list that runs out stands for the deadline passing.
- Playwright: the page, its selector click and the screenshot files become a session oracle. Only two rules are kept: a failed click is swallowed, and a failed navigation or capture propagates.
- The language models: `chatlas` chats, `make_chat`, inspect-ai's `eval`, `Task`, the solver chain, the scoring model's instructions and the eval log format are oracles. The chat oracle receives the job from which the prompt is built; Gate 3's grader returns scores by key.
- `json.loads` is an oracle from text to a JSON value. The property that a decoded object starts with `{` after whitespace is stated as a hypothesis wherever it is used.
- Floating point: scores, timeouts and delays are exact reals. `float()` of a captured score is its exact decimal value, with no rounding.
- Unicode: `str.isalnum` in `_safe_dir_name` is ASCII letters and digits only; `\d` is ASCII digits only; `\s` and `str.strip` use Python's whitespace set. `str.upper` is modelled only on the characters a verdict token can contain.
- Output: the console, logging, the progress bar, the timestamped `summary_*.json` file and its JSON serialisation are not modelled. `Runner.RunEvaluation` returns the records and the job directories whose app files were written. `mkdir` runs for every job, including a failed or missing generation, and is not listed.
- `EvalConfig` and its logging setup (`eval_pipeline/config.py:72-96`) are not modelled; nothing in the core reads them.
- `parse_run_command` (`eval_pipeline/gates.py:390-392`) is a thin, unused wrapper over `shlex.split`.
- `max_active` is accepted and ignored: generation is sequential, and there is no concurrency to model.
- `_create_venv` and `_uv_install` are modelled by the commands they run and whether each raises; what `uv` installs is not modelled.
- The `main` of the command line: flag syntax, `--help` and usage errors belong to `argparse`. The model starts from parsed flags with the parser's defaults.
- `generate_app` and `main` in `generate_apps.py` are a network call and file writes.
- The `framework_eval` task of `eval_apps.py`, its system prompt and the mean and standard-error metrics are inspect-ai configuration, not logic.
- The four tip-calculator apps (`streamlit/`, `dash/`, `panel/`, `shiny/`) and `verify_html.py` are UI code and an I/O script.
- Paths.Resolve: `..` components are not collapsed and symbolic links are not followed, so the model agrees with `Path.resolve()` only on paths without either. `PathOf` also folds a leading `//` into `/`, which `pathlib` keeps.
- Text.ReprChar: characters from U+0100 up are written as themselves. Python's `repr` escapes the ones Unicode does not count as printable (the line and paragraph separators U+2028 and U+2029, unassigned code points and format characters, for example) as `\u`/`\U` escapes. Below U+0100 the model escapes exactly what `repr` escapes.
- Text.PyRepr: the same gap as `Text.ReprChar`, in every character of the text.
- Specs.ParseLevel: the message's `repr(v)` is `Text.PyRepr`, so it has the same gap for non-printable characters from U+0100 up.
- Specs.ParseFramework: the same reading of `repr(v)` as for `Specs.ParseLevel`.
- Gate3Inspect.Gate3Grade: the results of a log beyond the first are not read, as in the code. Log-directory creation and the environment variables set for the run are not modelled.
- Runner.GenerateAll: the runner is modelled over a generic generation oracle with one result per job. That is the promise `ChatGenerate.GenerateAppsSync` proves; the runner is not re-proved against the parsing cascade.

## Findings

| source | as written | input that shows it | evidently intended | confidence | as-written member | corrected member |
|---|---|---|---|---|---|---|
| eval_pipeline/gates.py:212 | `_framework_runtime` reads `config.button_selector`, but `FrameworkConfig` (`eval_pipeline/config.py:13-23`) has no such field, so it raises `AttributeError`. The call at `gates.py:296` is outside the `try`, so Gate 2 raises for every framework. | any framework of the enumeration, for example `streamlit` | the runtime has no button selector (`None`), and Gate 2 runs | not executed | `Gates.RuntimeAsWrittenRaises`, `Gates.Gate2AsWrittenNeverRuns` | `Gates.FrameworkRuntimeFor`, `Gates.Gate2` |
| eval_pipeline/gate3_inspect.py:22-29 | With `IGNORECASE`, the dotted capital I (U+0130) matches `I`, and `.upper()` leaves it as it is. The answer is then a string that is neither `PASS` nor `FAIL`, so `passed` stays unknown. | the solver reply `ANSWER: FAİL` | the verdict `FAIL` | not executed | `Gate3Inspect.DottedFailAsWritten` | `Gate3Inspect.ExtractAnswer` |

=== FILE: challenges.dfy ===
/**
 * The four challenge texts of the generation prompt, split around their
 * `[FRAMEWORK]` placeholder.
 */
module Challenges {
  import opened Specs

  // The challenge texts, in pieces of twenty characters.
  const BeginnerHead: string :=
    "Create a "
  const BeginnerTail1: string :=
    " app that displays a"
    + " title 'My First App"
    + "'. Include a text in"
    + "put field asking for"
    + " a user's name and a"
    + " button. When clicke"
    + "d, display a greetin"
  const BeginnerTail2: string :=
    "g message 'Hello, {n"
    + "ame}!' below the but"
    + "ton."
  const IntermediateHead: string :=
    "Build a "
  const IntermediateTail1: string :=
    " dashboard using the"
    + " 'Penguins' dataset."
    + " It should have a si"
    + "debar with a dropdow"
    + "n to filter by 'Isla"
    + "nd'. The main area s"
    + "hould display a scat"
  const IntermediateTail2: string :=
    "ter plot of Flipper "
    + "Length vs. Body Mass"
    + ", colored by Species"
    + ". Ensure the plot up"
    + "dates when the filte"
    + "r changes."
  const AdvancedHead: string :=
    "Create a To-Do list "
    + "application in "
  const AdvancedTail1: string :=
    ". Users must be able"
    + " to add tasks, mark "
    + "them as 'Complete' ("
    + "striking them throug"
    + "h), and delete them."
    + " The list must persi"
    + "st in the session st"
  const AdvancedTail2: string :=
    "ate so it doesn't va"
    + "nish on page reload/"
    + "interaction."
  const ExpertHead: string :=
    "Build a Real-Time St"
    + "ock Ticker Monitor i"
    + "n "
  const ExpertTail1: string :=
    ". 1. Use a dark them"
    + "e custom CSS/Styling"
    + ". 2. Simulate a live"
    + " feed updating a lin"
    + "e chart every 1s. Av"
    + "oid flicker. 3. Incl"
    + "ude a 'Buy/Sell' con"
  const ExpertTail2: string :=
    "trol panel that logs"
    + " transactions to a d"
    + "ata table below the "
    + "chart. 4. Ensure the"
    + " layout is responsiv"
    + "e (mobile-friendly)."

  // No piece of a challenge text holds `[`, so the only `[` in a prompt is the
  // placeholder's. The texts are checked piece by piece only to keep each
  // proof small; the lemmas per text and `ChallengeTextPlain` combine them.
  lemma BeginnerHeadPlain() ensures '[' !in BeginnerHead {}
  lemma BeginnerTail1Piece1Plain() ensures '[' !in " app that displays a" {}
  lemma BeginnerTail1Piece2Plain() ensures '[' !in " title 'My First App" {}
  lemma BeginnerTail1Piece3Plain() ensures '[' !in "'. Include a text in" {}
  lemma BeginnerTail1Piece4Plain() ensures '[' !in "put field asking for" {}
  lemma BeginnerTail1Piece5Plain() ensures '[' !in " a user's name and a" {}
  lemma BeginnerTail1Piece6Plain() ensures '[' !in " button. When clicke" {}
  lemma BeginnerTail1Piece7Plain() ensures '[' !in "d, display a greetin" {}
  lemma BeginnerTail1Plain() ensures '[' !in BeginnerTail1 {
    BeginnerTail1Piece1Plain(); BeginnerTail1Piece2Plain(); BeginnerTail1Piece3Plain(); BeginnerTail1Piece4Plain(); BeginnerTail1Piece5Plain(); BeginnerTail1Piece6Plain(); BeginnerTail1Piece7Plain();
  }
  lemma BeginnerTail2Piece1Plain() ensures '[' !in "g message 'Hello, {n" {}
  lemma BeginnerTail2Piece2Plain() ensures '[' !in "ame}!' below the but" {}
  lemma BeginnerTail2Piece3Plain() ensures '[' !in "ton." {}
  lemma BeginnerTail2Plain() ensures '[' !in BeginnerTail2 {
    BeginnerTail2Piece1Plain(); BeginnerTail2Piece2Plain(); BeginnerTail2Piece3Plain();
  }
  lemma IntermediateHeadPlain() ensures '[' !in IntermediateHead {}
  lemma IntermediateTail1Piece1Plain() ensures '[' !in " dashboard using the" {}
  lemma IntermediateTail1Piece2Plain() ensures '[' !in " 'Penguins' dataset." {}
  lemma IntermediateTail1Piece3Plain() ensures '[' !in " It should have a si" {}
  lemma IntermediateTail1Piece4Plain() ensures '[' !in "debar with a dropdow" {}
  lemma IntermediateTail1Piece5Plain() ensures '[' !in "n to filter by 'Isla" {}
  lemma IntermediateTail1Piece6Plain() ensures '[' !in "nd'. The main area s" {}
  lemma IntermediateTail1Piece7Plain() ensures '[' !in "hould display a scat" {}
  lemma IntermediateTail1Plain() ensures '[' !in IntermediateTail1 {
    IntermediateTail1Piece1Plain(); IntermediateTail1Piece2Plain(); IntermediateTail1Piece3Plain(); IntermediateTail1Piece4Plain(); IntermediateTail1Piece5Plain(); IntermediateTail1Piece6Plain(); IntermediateTail1Piece7Plain();
  }
  lemma IntermediateTail2Piece1Plain() ensures '[' !in "ter plot of Flipper " {}
  lemma IntermediateTail2Piece2Plain() ensures '[' !in "Length vs. Body Mass" {}
  lemma IntermediateTail2Piece3Plain() ensures '[' !in ", colored by Species" {}
  lemma IntermediateTail2Piece4Plain() ensures '[' !in ". Ensure the plot up" {}
  lemma IntermediateTail2Piece5Plain() ensures '[' !in "dates when the filte" {}
  lemma IntermediateTail2Piece6Plain() ensures '[' !in "r changes." {}
  lemma IntermediateTail2Plain() ensures '[' !in IntermediateTail2 {
    IntermediateTail2Piece1Plain(); IntermediateTail2Piece2Plain(); IntermediateTail2Piece3Plain(); IntermediateTail2Piece4Plain(); IntermediateTail2Piece5Plain(); IntermediateTail2Piece6Plain();
  }
  lemma AdvancedHeadPlain() ensures '[' !in AdvancedHead {}
  lemma AdvancedTail1Piece1Plain() ensures '[' !in ". Users must be able" {}
  lemma AdvancedTail1Piece2Plain() ensures '[' !in " to add tasks, mark " {}
  lemma AdvancedTail1Piece3Plain() ensures '[' !in "them as 'Complete' (" {}
  lemma AdvancedTail1Piece4Plain() ensures '[' !in "striking them throug" {}
  lemma AdvancedTail1Piece5Plain() ensures '[' !in "h), and delete them." {}
  lemma AdvancedTail1Piece6Plain() ensures '[' !in " The list must persi" {}
  lemma AdvancedTail1Piece7Plain() ensures '[' !in "st in the session st" {}
  lemma AdvancedTail1Plain() ensures '[' !in AdvancedTail1 {
    AdvancedTail1Piece1Plain(); AdvancedTail1Piece2Plain(); AdvancedTail1Piece3Plain(); AdvancedTail1Piece4Plain(); AdvancedTail1Piece5Plain(); AdvancedTail1Piece6Plain(); AdvancedTail1Piece7Plain();
  }
  lemma AdvancedTail2Piece1Plain() ensures '[' !in "ate so it doesn't va" {}
  lemma AdvancedTail2Piece2Plain() ensures '[' !in "nish on page reload/" {}
  lemma AdvancedTail2Piece3Plain() ensures '[' !in "interaction." {}
  lemma AdvancedTail2Plain() ensures '[' !in AdvancedTail2 {
    AdvancedTail2Piece1Plain(); AdvancedTail2Piece2Plain(); AdvancedTail2Piece3Plain();
  }
  lemma ExpertHeadPiece1Plain() ensures '[' !in "Build a Real-Time St" {}
  lemma ExpertHeadPiece2Plain() ensures '[' !in "ock Ticker Monitor i" {}
  lemma ExpertHeadPiece3Plain() ensures '[' !in "n " {}
  lemma ExpertHeadPlain() ensures '[' !in ExpertHead {
    ExpertHeadPiece1Plain(); ExpertHeadPiece2Plain(); ExpertHeadPiece3Plain();
  }
  lemma ExpertTail1Piece1Plain() ensures '[' !in ". 1. Use a dark them" {}
  lemma ExpertTail1Piece2Plain() ensures '[' !in "e custom CSS/Styling" {}
  lemma ExpertTail1Piece3Plain() ensures '[' !in ". 2. Simulate a live" {}
  lemma ExpertTail1Piece4Plain() ensures '[' !in " feed updating a lin" {}
  lemma ExpertTail1Piece5Plain() ensures '[' !in "e chart every 1s. Av" {}
  lemma ExpertTail1Piece6Plain() ensures '[' !in "oid flicker. 3. Incl" {}
  lemma ExpertTail1Piece7Plain() ensures '[' !in "ude a 'Buy/Sell' con" {}
  lemma ExpertTail1Plain() ensures '[' !in ExpertTail1 {
    ExpertTail1Piece1Plain(); ExpertTail1Piece2Plain(); ExpertTail1Piece3Plain(); ExpertTail1Piece4Plain(); ExpertTail1Piece5Plain(); ExpertTail1Piece6Plain(); ExpertTail1Piece7Plain();
  }
  lemma ExpertTail2Piece1Plain() ensures '[' !in "trol panel that logs" {}
  lemma ExpertTail2Piece2Plain() ensures '[' !in " transactions to a d" {}
  lemma ExpertTail2Piece3Plain() ensures '[' !in "ata table below the " {}
  lemma ExpertTail2Piece4Plain() ensures '[' !in "chart. 4. Ensure the" {}
  lemma ExpertTail2Piece5Plain() ensures '[' !in " layout is responsiv" {}
  lemma ExpertTail2Piece6Plain() ensures '[' !in "e (mobile-friendly)." {}
  lemma ExpertTail2Plain() ensures '[' !in ExpertTail2 {
    ExpertTail2Piece1Plain(); ExpertTail2Piece2Plain(); ExpertTail2Piece3Plain(); ExpertTail2Piece4Plain(); ExpertTail2Piece5Plain(); ExpertTail2Piece6Plain();
  }

  /** The text of `CHALLENGE_PROMPTS[level]` before its placeholder. */
  function TaskBefore(level: ChallengeLevel): string {
    match level
    case Beginner => BeginnerHead
    case Intermediate => IntermediateHead
    case Advanced => AdvancedHead
    case Expert => ExpertHead
  }

  /** The text of `CHALLENGE_PROMPTS[level]` after its placeholder. */
  function TaskAfter(level: ChallengeLevel): string {
    match level
    case Beginner => BeginnerTail1 + BeginnerTail2
    case Intermediate => IntermediateTail1 + IntermediateTail2
    case Advanced => AdvancedTail1 + AdvancedTail2
    case Expert => ExpertTail1 + ExpertTail2
  }

  /** Outside its placeholder a challenge text has no `[`. */
  lemma ChallengeTextPlain(level: ChallengeLevel)
    ensures '[' !in TaskBefore(level) && '[' !in TaskAfter(level)
  {
    match level
    case Beginner =>
      BeginnerHeadPlain(); BeginnerTail1Plain(); BeginnerTail2Plain();
    case Intermediate =>
      IntermediateHeadPlain(); IntermediateTail1Plain(); IntermediateTail2Plain();
    case Advanced =>
      AdvancedHeadPlain(); AdvancedTail1Plain(); AdvancedTail2Plain();
    case Expert =>
      ExpertHeadPlain(); ExpertTail1Plain(); ExpertTail2Plain();
  }
}

=== FILE: chat_generate.dfy ===
/**
 * Code generation: one chat call per job, and the parsing of each reply into
 * a `GeneratedAppSpec`.  The chat model and `json.loads` are oracles: the
 * chat is a function from the call's position and its prompt to a reply or
 * an exception, and the decoder a function from a text to a JSON value, or
 * `None` when the text does not decode.  What is modelled is the order in
 * which the parsing strategies are tried, which part of the reply each one
 * hands to the decoder, which decoded values are accepted, the fallback, and
 * that the generation loop yields one entry per job, in order.
 */
module ChatGenerate {
  import opened Wrappers
  import opened Text
  import opened Specs

  /** One generation job. */
  datatype GenerationJob = GenerationJob(framework: Framework, level: ChallengeLevel, host: string, port: int)

  datatype GenerationResult = GenerationResult(data: GeneratedAppSpec)

  /** What `json.loads` returns. */
  datatype Json =
    | JNull
    | JBool(b: bool)
    | JNumber(n: int)
    | JString(s: string)
    | JArray(items: seq<Json>)
    | JObject(fields: map<string, Json>)

  /** Field `key` of an object, when it is there and is a string. */
  function StringField(fields: map<string, Json>, key: string): Option<string> {
    if key in fields && fields[key].JString? then Some(fields[key].s) else None
  }

  /**
   * `GeneratedAppSpec(**data)`: only an object whose four fields are all
   * present and all strings is accepted; other keys are ignored.  Anything
   * else raises a `TypeError` or a validation error, both of which the
   * parser catches.
   */
  function AppSpecOf(data: Json): (r: Option<GeneratedAppSpec>)
    ensures r.Some? ==> data.JObject?
  {
    match data
    case JObject(fields) =>
      var code := StringField(fields, "code");
      var run := StringField(fields, "run_command");
      var reqs := StringField(fields, "requirements_txt");
      var notes := StringField(fields, "instructions");
      if code.Some? && run.Some? && reqs.Some? && notes.Some? then
        Some(GeneratedAppSpec(code.value, run.value, reqs.value, notes.value))
      else None
    case _ => None
  }

  /** The JSON object the generation prompt asks the model for. */
  function AppSpecJson(a: GeneratedAppSpec): Json {
    JObject(map[
      "code" := JString(a.code),
      "run_command" := JString(a.runCommand),
      "requirements_txt" := JString(a.requirementsTxt),
      "instructions" := JString(a.instructions)])
  }

  /** An object is accepted exactly when it carries the four fields of some spec as strings. */
  lemma AppSpecOfJson(a: GeneratedAppSpec, extra: map<string, Json>)
    ensures AppSpecOf(AppSpecJson(a)) == Some(a)
    ensures AppSpecOf(JObject(extra + AppSpecJson(a).fields)) == Some(a)
  {
  }

  // The second strategy: ```(?:json)?\s*(.*?)\s*``` with DOTALL.

  /** Three backticks start at `i`. */
  predicate FenceAt(s: string, i: nat) {
    i + 3 <= |s| && s[i] == '`' && s[i + 1] == '`' && s[i + 2] == '`'
  }

  /** `json` starts at `i`. */
  predicate JsonTagAt(s: string, i: nat) {
    i + 4 <= |s| && s[i] == 'j' && s[i + 1] == 's' && s[i + 2] == 'o' && s[i + 3] == 'n'
  }

  /** The first fence at or after `i`. */
  function FirstFence(s: string, i: nat): (r: Option<nat>)
    ensures r.Some? ==> i <= r.value && FenceAt(s, r.value)
    ensures forall j :: i <= j && (r.None? || j < r.value) ==> !FenceAt(s, j)
    decreases |s| - i
  {
    if |s| < i + 3 then None
    else if FenceAt(s, i) then Some(i)
    else FirstFence(s, i + 1)
  }

  /** The first fence at or after `i` is at `t` when no backtick comes between. */
  lemma {:induction false} FirstFenceIs(s: string, i: nat, t: nat)
    requires i <= t && FenceAt(s, t)
    requires forall k :: i <= k < t ==> s[k] != '`'
    ensures FirstFence(s, i) == Some(t)
    decreases t - i
  {
    if i < t {
      FirstFenceIs(s, i + 1, t);
    }
  }

  /**
   * The group of the first fenced block.  The match starts at the first
   * fence; an optional `json` tag and the whitespace after it are skipped
   * (the `\s*` is greedy), and the lazy group stops before the whitespace that
   * precedes the next fence.  A first fence with no later one matches nothing,
   * and neither can any fence after it.
   */
  function FencedSpan(s: string): (r: Option<string>)
    ensures r.Some? ==> exists i: nat :: i <= |s| && FenceAt(s, i) && Contains(s[i..], r.value)
  {
    match FirstFence(s, 0)
    case None => None
    case Some(i) =>
      var p := if JsonTagAt(s, i + 3) then i + 7 else i + 3;
      var a := SkipSpace(s, p);
      match FirstFence(s, a)
      case None => None
      case Some(t) =>
        var w := BackSpace(s, a, t);
        assert OccursAt(s[i..], s[a..w], a - i) by {
          assert s[i..][a - i..w - i] == s[a..w];
        }
        Some(s[a..w])
  }

  /** A text without a backtick has no fenced block. */
  lemma NoBacktickNoFence(s: string)
    requires '`' !in s
    ensures FencedSpan(s).None?
  {
  }

  // The third strategy: \{.*\} with DOTALL.

  /** The index of the first `c` in `s` at or after `i`. */
  function FirstOf(s: string, c: char, i: nat): (r: Option<nat>)
    ensures r.Some? ==> i <= r.value < |s| && s[r.value] == c
    ensures forall j :: i <= j < |s| && (r.None? || j < r.value) ==> s[j] != c
    decreases |s| - i
  {
    if i >= |s| then None
    else if s[i] == c then Some(i)
    else FirstOf(s, c, i + 1)
  }

  /** The index of the last `c` in `s[..n]`. */
  function LastOf(s: string, c: char, n: nat): (r: Option<nat>)
    requires n <= |s|
    ensures r.Some? ==> r.value < n && s[r.value] == c
    ensures forall j :: (if r.None? then 0 else r.value + 1) <= j < n ==> s[j] != c
  {
    if n == 0 then None
    else if s[n - 1] == c then Some(n - 1)
    else LastOf(s, c, n - 1)
  }

  /** The greedy span from the first `{` to the last `}`; nothing when no `}` follows the first `{`. */
  function EmbeddedSpan(s: string): (r: Option<string>)
    ensures r.Some? <==> exists i, j :: 0 <= i < j < |s| && s[i] == '{' && s[j] == '}'
    ensures r.Some? ==> |r.value| >= 2 && r.value[0] == '{' && r.value[|r.value| - 1] == '}'
  {
    match FirstOf(s, '{', 0)
    case None => None
    case Some(i) =>
      match LastOf(s, '}', |s|)
      case None => None
      case Some(j) =>
        if j > i then Some(s[i..j + 1])
        else
          assert forall k, l :: 0 <= k < l < |s| && s[k] == '{' ==> s[l] != '}';
          None
  }

  /** The spec a strategy yields: its text decodes to an accepted object. */
  function Attempt(decode: string -> Option<Json>, text: Option<string>): Option<GeneratedAppSpec> {
    if text.None? then None
    else match decode(text.value)
      case None => None
      case Some(data) => AppSpecOf(data)
  }

  /** A text that decodes to the object of a spec yields that spec. */
  lemma AttemptEncoded(decode: string -> Option<Json>, enc: string, a: GeneratedAppSpec)
    requires decode(enc) == Some(AppSpecJson(a))
    ensures Attempt(decode, Some(enc)) == Some(a)
  {
    AppSpecOfJson(a, map[]);
  }

  /** What the parser falls back to. */
  const Fallback := GeneratedAppSpec("# Failed to parse response", "python app.py", "", "Failed to parse model response.")

  /** The first of the three strategies' specs that exists, or the fallback. */
  function Cascade(direct: Option<GeneratedAppSpec>, fenced: Option<GeneratedAppSpec>, embedded: Option<GeneratedAppSpec>): GeneratedAppSpec {
    if direct.Some? then direct.value
    else if fenced.Some? then fenced.value
    else if embedded.Some? then embedded.value
    else Fallback
  }

  /**
   * `_parse_response`: the whole stripped reply, then the fenced block, then
   * the embedded object; the first that decodes to an accepted object wins,
   * and the fallback is used when none does.  Nothing is raised.
   */
  function ParseResponse(decode: string -> Option<Json>, text: string): GeneratedAppSpec {
    Cascade(Attempt(decode, Some(Strip(text))), Attempt(decode, FencedSpan(text)), Attempt(decode, EmbeddedSpan(text)))
  }

  /**
   * The parsed spec is the fallback or what one of the strategies decoded, an
   * earlier strategy that yields a spec always wins, and the fallback is used
   * only when no strategy yields one.
   */
  lemma CascadeSources(direct: Option<GeneratedAppSpec>, fenced: Option<GeneratedAppSpec>, embedded: Option<GeneratedAppSpec>)
    ensures var r := Cascade(direct, fenced, embedded);
      && (r == Fallback || Some(r) in [direct, fenced, embedded])
      && (direct.Some? ==> r == direct.value)
      && (direct.None? && fenced.Some? ==> r == fenced.value)
      && (direct.None? && fenced.None? && embedded.Some? ==> r == embedded.value)
      && (r != Fallback ==> direct.Some? || fenced.Some? || embedded.Some?)
  {
  }

  /** `json.loads(t)` returns a `dict`. */
  predicate DecodesToObject(decode: string -> Option<Json>, t: string) {
    decode(t).Some? && decode(t).value.JObject?
  }

  /** A property of `json.loads`: a text it decodes to an object starts, after whitespace, with `{`. */
  ghost predicate ObjectsStartWithBrace(decode: string -> Option<Json>) {
    forall t {:trigger DecodesToObject(decode, t)} :: DecodesToObject(decode, t) ==> SkipSpace(t, 0) < |t| && t[SkipSpace(t, 0)] == '{'
  }

  /** A text whose first non-space character is not `{` yields no spec. */
  lemma NotAnObject(decode: string -> Option<Json>, t: string)
    requires ObjectsStartWithBrace(decode)
    requires SkipSpace(t, 0) < |t| ==> t[SkipSpace(t, 0)] != '{'
    ensures Attempt(decode, Some(t)).None?
  {
    assert !DecodesToObject(decode, t);
  }

  /** Stripping keeps the first non-space character first. */
  lemma StripFirst(t: string)
    ensures SkipSpace(Strip(t), 0) < |Strip(t)| <==> SkipSpace(t, 0) < |t|
    ensures SkipSpace(t, 0) < |t| ==> Strip(t)[0] == t[SkipSpace(t, 0)]
  {
    var k := SkipSpace(t, 0);
    assert t == t[..k] + t[k..];
    LStripSpaces(t[..k], t[k..]);
    var r := Strip(t);
    if k < |t| {
      assert r != [] && r[0] == t[k];
    } else {
      assert AllSpace(t);
      assert r == [];
    }
  }

  /** A reply that is exactly an encoded spec, give or take surrounding whitespace, parses back to that spec. */
  lemma ParseDirect(decode: string -> Option<Json>, a: GeneratedAppSpec, enc: string, p: string, q: string)
    requires decode(enc) == Some(AppSpecJson(a)) && Trimmed(enc)
    requires AllSpace(p) && AllSpace(q)
    ensures ParseResponse(decode, p + enc + q) == a
  {
    StripAroundSpaces(p, enc, q);
    AttemptEncoded(decode, enc, a);
  }

  /** How `FencedSpan` finds its group, stated on the positions it passes through. */
  lemma FencedSpanIs(s: string, i: nat, a: nat, w: nat, t: nat)
    requires FenceAt(s, i) && FenceAt(s, t)
    requires forall k :: 0 <= k < i ==> s[k] != '`'
    requires (if JsonTagAt(s, i + 3) then i + 7 else i + 3) <= a <= w <= t
    requires SpacesBetween(s, if JsonTagAt(s, i + 3) then i + 7 else i + 3, a) && !IsSpace(s[a])
    requires forall k :: a <= k < t ==> s[k] != '`'
    requires SpacesBetween(s, w, t) && (w == a || !IsSpace(s[w - 1]))
    ensures FencedSpan(s) == Some(s[a..w])
  {
    FirstFenceIs(s, 0, i);
    SkipSpaceRun(s, if JsonTagAt(s, i + 3) then i + 7 else i + 3, a);
    FirstFenceIs(s, a, t);
    BackSpaceRun(s, a, w, t);
  }

  /** Where the fence, the tag and the text before them sit in a fenced reply. */
  lemma HeadSlices(pre: string, tag: string, rest: string)
    ensures var s := pre + "```" + tag + rest;
      var i := |pre|;
      var p := i + 3 + |tag|;
      && s[..i] == pre && s[i..i + 3] == "```" && s[i + 3..p] == tag && s[p..] == rest
  {
    assert pre + "```" + tag + rest == pre + "```" + (tag + rest);
    Middle(pre, "```", tag + rest);
    Middle(pre + "```", tag, rest);
  }

  /** Where the body, the whitespace around it and the closing fence sit after the tag. */
  lemma RestSlices(ws1: string, body: string, ws2: string, post: string)
    ensures var r := ws1 + body + ws2 + "```" + post;
      var b := |ws1|;
      var e := b + |body|;
      var t := e + |ws2|;
      && t + 3 <= |r| && r[..b] == ws1 && r[b..e] == body && r[e..t] == ws2 && r[t..t + 3] == "```"
  {
    Middle(ws1, body, ws2 + "```" + post);
    assert ws1 + body + ws2 + "```" + post == ws1 + body + (ws2 + "```" + post);
    Middle(ws1 + body, ws2, "```" + post);
    assert ws1 + body + (ws2 + "```" + post) == ws1 + body + ws2 + ("```" + post);
    Middle(ws1 + body + ws2, "```", post);
  }

  /** The group found after the opening fence and its tag, given where the body and the closing fence sit. */
  lemma FencedRest(s: string, i: nat, p: nat, b: nat, e: nat, t: nat, body: string)
    requires FenceAt(s, i) && (forall k :: 0 <= k < i ==> s[k] != '`')
    requires p == (if JsonTagAt(s, i + 3) then i + 7 else i + 3) && p <= b <= e <= t
    requires FenceAt(s, t) && SpacesBetween(s, p, b) && SpacesBetween(s, e, t)
    requires (forall k :: b <= k < t ==> s[k] != '`') && s[b..e] == body
    requires body != [] ==> !IsSpace(s[b]) && !IsSpace(s[e - 1])
    requires body == [] ==> SpacesBetween(s, p, t) && !IsSpace(s[t])
    ensures FencedSpan(s) == Some(body)
  {
    if body == [] {
      FencedSpanIs(s, i, t, t, t);
      assert s[t..t] == body;
    } else {
      FencedSpanIs(s, i, b, e, t);
    }
  }

  /** The fenced group of a text laid out as prose, fence, tag, whitespace, body, whitespace and fence. */
  lemma FencedPieces(s: string, pre: string, tag: string, ws1: string, body: string, ws2: string)
    requires '`' !in pre && '`' !in body && AllSpace(ws1) && AllSpace(ws2) && Trimmed(body)
    requires var i := |pre|;
      var p := i + 3 + |tag|;
      var b := p + |ws1|;
      var e := b + |body|;
      var t := e + |ws2|;
      && t + 3 <= |s| && s[..i] == pre && s[i..i + 3] == "```" && s[i + 3..p] == tag
      && s[p..b] == ws1 && s[b..e] == body && s[e..t] == ws2 && s[t..t + 3] == "```"
    requires tag == "json" || (tag == "" && s[|pre| + 3] != 'j')
    ensures FencedSpan(s) == Some(body)
  {
    var i := |pre|;
    var p := i + 3 + |tag|;
    var b := p + |ws1|;
    var e := b + |body|;
    var t := e + |ws2|;
    FrontPieces(s, pre, tag);
    BackPieces(s, p, ws1, body, ws2);
    FencedRest(s, i, p, b, e, t, body);
  }

  /** The prose, the fence and the tag, read back as positions. */
  lemma FrontPieces(s: string, pre: string, tag: string)
    requires '`' !in pre
    requires var i := |pre|;
      i + 3 + |tag| < |s| && s[..i] == pre && s[i..i + 3] == "```" && s[i + 3..i + 3 + |tag|] == tag
    requires tag == "json" || (tag == "" && s[|pre| + 3] != 'j')
    ensures var i := |pre|;
      && FenceAt(s, i) && (forall k :: 0 <= k < i ==> s[k] != '`')
      && i + 3 + |tag| == (if JsonTagAt(s, i + 3) then i + 7 else i + 3)
  {
    var i := |pre|;
    SliceChars(s, 0, i, pre);
    SliceChars(s, i, i + 3, "```");
    SliceChars(s, i + 3, i + 3 + |tag|, tag);
  }

  /** The whitespace, the body and the closing fence, read back as positions. */
  lemma BackPieces(s: string, p: nat, ws1: string, body: string, ws2: string)
    requires '`' !in body && AllSpace(ws1) && AllSpace(ws2) && Trimmed(body)
    requires var b := p + |ws1|;
      var e := b + |body|;
      var t := e + |ws2|;
      && t + 3 <= |s| && s[p..b] == ws1 && s[b..e] == body && s[e..t] == ws2 && s[t..t + 3] == "```"
    ensures var b := p + |ws1|;
      var e := b + |body|;
      var t := e + |ws2|;
      && FenceAt(s, t) && SpacesBetween(s, p, b) && SpacesBetween(s, e, t)
      && (forall k :: b <= k < t ==> s[k] != '`')
      && (body != [] ==> !IsSpace(s[b]) && !IsSpace(s[e - 1]))
      && (body == [] ==> SpacesBetween(s, p, t) && !IsSpace(s[t]))
  {
    var b := p + |ws1|;
    var e := b + |body|;
    var t := e + |ws2|;
    SliceChars(s, p, b, ws1);
    SliceChars(s, b, e, body);
    SliceChars(s, e, t, ws2);
    SliceChars(s, t, t + 3, "```");
  }

  /** The fenced block's group is its body, with the tag and the whitespace around the body dropped. */
  lemma FencedBlock(pre: string, tag: string, ws1: string, body: string, ws2: string, post: string)
    requires '`' !in pre && '`' !in body
    requires AllSpace(ws1) && AllSpace(ws2) && Trimmed(body)
    requires tag == "json" || (tag == "" && (ws1 != [] || body == [] || body[0] != 'j'))
    ensures FencedSpan(pre + "```" + tag + (ws1 + body + ws2 + "```" + post)) == Some(body)
  {
    var rest := ws1 + body + ws2 + "```" + post;
    var s := pre + "```" + tag + rest;
    var p := |pre| + 3 + |tag|;
    var b := |ws1|;
    var e := b + |body|;
    var t := e + |ws2|;
    HeadSlices(pre, tag, rest);
    RestSlices(ws1, body, ws2, post);
    Shifted(s, p, rest, 0, b);
    Shifted(s, p, rest, b, e);
    Shifted(s, p, rest, e, t);
    Shifted(s, p, rest, t, t + 3);
    if tag == "" {
      RestStart(ws1, body, ws2, post);
      assert s[p] == s[p..][0];
    }
    FencedPieces(s, pre, tag, ws1, body, ws2);
  }

  /** Without a `json` tag, the text after the fence does not start with `j` when the body does not. */
  lemma RestStart(ws1: string, body: string, ws2: string, post: string)
    requires AllSpace(ws1) && AllSpace(ws2)
    requires ws1 != [] || body == [] || body[0] != 'j'
    ensures (ws1 + body + ws2 + "```" + post)[0] != 'j'
  {
    var rest := ws1 + body + ws2 + "```" + post;
    if ws1 != [] {
      assert rest[0] == ws1[0];
    } else if body != [] {
      assert rest[0] == body[0];
    } else if ws2 != [] {
      assert rest[0] == ws2[0];
    } else {
      assert rest[0] == '`';
    }
  }

  /** The embedded span is the object itself when the prose before it has no `{` and the prose after it no `}`. */
  lemma EmbeddedObject(pre: string, obj: string, post: string)
    requires |obj| >= 2 && obj[0] == '{' && obj[|obj| - 1] == '}'
    requires '{' !in pre && '}' !in post
    ensures EmbeddedSpan(pre + obj + post) == Some(obj)
  {
    var s := pre + obj + post;
    var i := |pre|;
    var j := |pre| + |obj| - 1;
    assert forall k :: 0 <= k < i ==> s[k] == pre[k];
    assert forall k :: j < k < |s| ==> s[k] == post[k - j - 1];
    assert s[i] == '{' && s[j] == '}';
    assert FirstOf(s, '{', 0) == Some(i);
    assert LastOf(s, '}', |s|) == Some(j);
    assert s[i..j + 1] == obj;
  }

  /** The fenced strategy decides when the whole reply yields nothing and the block yields a spec. */
  lemma ParseSecond(decode: string -> Option<Json>, text: string, span: string, a: GeneratedAppSpec)
    requires Attempt(decode, Some(Strip(text))).None?
    requires FencedSpan(text) == Some(span) && Attempt(decode, Some(span)) == Some(a)
    ensures ParseResponse(decode, text) == a
  {
    CascadeSources(Attempt(decode, Some(Strip(text))), Attempt(decode, FencedSpan(text)), Attempt(decode, EmbeddedSpan(text)));
  }

  /** The embedded strategy decides when the two before it yield nothing and it yields a spec. */
  lemma ParseThird(decode: string -> Option<Json>, text: string, span: string, a: GeneratedAppSpec)
    requires Attempt(decode, Some(Strip(text))).None? && FencedSpan(text).None?
    requires EmbeddedSpan(text) == Some(span) && Attempt(decode, Some(span)) == Some(a)
    ensures ParseResponse(decode, text) == a
  {
    CascadeSources(Attempt(decode, Some(Strip(text))), Attempt(decode, FencedSpan(text)), Attempt(decode, EmbeddedSpan(text)));
  }

  /** A text whose `n`-th character is neither whitespace nor `{`, and has no `{` before it, does not start with `{` once stripped. */
  lemma LeadingChar(text: string, n: nat)
    requires n < |text| && !IsSpace(text[n]) && text[n] != '{' && '{' !in text[..n]
    ensures SkipSpace(text, 0) < |text| && text[SkipSpace(text, 0)] != '{'
  {
    var k := SkipSpace(text, 0);
    if k < n {
      assert text[k] == text[..n][k];
    }
  }

  /**
   * A reply that wraps an encoded spec in a `json` fence, with prose before
   * and after, parses back to that spec.
   */
  lemma ParseFenced(decode: string -> Option<Json>, a: GeneratedAppSpec, enc: string, pre: string, post: string)
    requires ObjectsStartWithBrace(decode)
    requires decode(enc) == Some(AppSpecJson(a)) && Trimmed(enc)
    requires '`' !in pre && '`' !in enc && '{' !in pre
    ensures ParseResponse(decode, pre + "```" + "json" + ("\n" + enc + "\n" + "```" + post)) == a
  {
    var rest := "\n" + enc + "\n" + "```" + post;
    var text := pre + "```" + "json" + rest;
    FencedBlock(pre, "json", "\n", enc, "\n", post);
    HeadSlices(pre, "json", rest);
    assert text[|pre|] == text[|pre|..|pre| + 3][0] == '`';
    ParseFencedText(decode, text, enc, a, |pre|);
  }

  /** `ParseFenced` on the reply as a whole: a leading non-object character and a fenced encoded spec. */
  lemma ParseFencedText(decode: string -> Option<Json>, text: string, enc: string, a: GeneratedAppSpec, n: nat)
    requires ObjectsStartWithBrace(decode)
    requires decode(enc) == Some(AppSpecJson(a)) && FencedSpan(text) == Some(enc)
    requires n < |text| && !IsSpace(text[n]) && text[n] != '{' && '{' !in text[..n]
    ensures ParseResponse(decode, text) == a
  {
    LeadingChar(text, n);
    StripFirst(text);
    NotAnObject(decode, Strip(text));
    AttemptEncoded(decode, enc, a);
    ParseSecond(decode, text, enc, a);
  }

  /**
   * A reply with prose around an encoded spec (and no backtick anywhere)
   * parses back to that spec through the embedded-object strategy.
   */
  lemma ParseEmbedded(decode: string -> Option<Json>, a: GeneratedAppSpec, enc: string, pre: string, post: string, n: nat)
    requires ObjectsStartWithBrace(decode)
    requires decode(enc) == Some(AppSpecJson(a))
    requires |enc| >= 2 && enc[0] == '{' && enc[|enc| - 1] == '}'
    requires '`' !in pre && '`' !in enc && '`' !in post
    requires '{' !in pre && '}' !in post && n < |pre| && !IsSpace(pre[n])
    ensures ParseResponse(decode, pre + enc + post) == a
  {
    var text := pre + enc + post;
    EmbeddedObject(pre, enc, post);
    assert '`' !in text;
    assert text[..n] == pre[..n] && text[n] == pre[n];
    ParseEmbeddedText(decode, text, enc, a, n);
  }

  /** `ParseEmbedded` on the reply as a whole: no fence, a leading non-object character, and an embedded encoded spec. */
  lemma ParseEmbeddedText(decode: string -> Option<Json>, text: string, enc: string, a: GeneratedAppSpec, n: nat)
    requires ObjectsStartWithBrace(decode)
    requires decode(enc) == Some(AppSpecJson(a)) && EmbeddedSpan(text) == Some(enc) && '`' !in text
    requires n < |text| && !IsSpace(text[n]) && text[n] != '{' && '{' !in text[..n]
    ensures ParseResponse(decode, text) == a
  {
    NoBacktickNoFence(text);
    LeadingChar(text, n);
    StripFirst(text);
    NotAnObject(decode, Strip(text));
    AttemptEncoded(decode, enc, a);
    ParseThird(decode, text, enc, a);
  }

  /** A reply with no `{` and no backtick yields the fallback. */
  lemma ParseNothing(decode: string -> Option<Json>, text: string)
    requires ObjectsStartWithBrace(decode)
    requires '{' !in text && '`' !in text
    ensures ParseResponse(decode, text) == Fallback
  {
    NoBacktickNoFence(text);
    assert EmbeddedSpan(text).None?;
    StripFirst(text);
    NotAnObject(decode, Strip(text));
  }

  /**
   * `generate_single_app`: the chat's reply to the job's prompt
   * (`BuildGenerationPrompt` of the job's framework, level, host and port),
   * parsed; the chat's exception propagates.  The chat oracle receives the
   * job, from which that prompt is a function.
   */
  function GenerateSingleApp(chat: (nat, GenerationJob) -> Result<string, PyException>, decode: string -> Option<Json>,
                             n: nat, job: GenerationJob): (r: Result<GenerationResult, PyException>)
    ensures r.Failure? <==> chat(n, job).Failure?
    ensures r.Failure? ==> r.error == chat(n, job).error
    ensures r.Success? ==> r.value.data == ParseResponse(decode, chat(n, job).value)
  {
    match chat(n, job)
    case Failure(e) => Failure(e)
    case Success(text) => Success(GenerationResult(ParseResponse(decode, text)))
  }

  /**
   * `generate_apps_sync`: one entry per job, in job order; the `n`-th chat
   * call is the one for the `n`-th job, and a failing job leaves its
   * exception in its place without affecting the others.  The progress bar
   * does not change the list.
   */
  method GenerateAppsSync(chat: (nat, GenerationJob) -> Result<string, PyException>, decode: string -> Option<Json>,
                          jobs: seq<GenerationJob>, showProgress: bool)
    returns (results: seq<Result<GenerationResult, PyException>>)
    ensures |results| == |jobs|
    ensures forall n :: 0 <= n < |jobs| ==> results[n] == GenerateSingleApp(chat, decode, n, jobs[n])
  {
    results := EachInOrder((n: nat, job: GenerationJob) => GenerateSingleApp(chat, decode, n, job), jobs);
  }

  /** The loop of `generate_apps_sync`: one call per item, in order, each appended to the list. */
  method EachInOrder<T, R>(f: (nat, T) -> R, xs: seq<T>) returns (rs: seq<R>)
    ensures |rs| == |xs|
    ensures forall n :: 0 <= n < |xs| ==> rs[n] == f(n, xs[n])
  {
    rs := [];
    for n := 0 to |xs|
      invariant |rs| == n
      invariant forall k :: 0 <= k < n ==> rs[k] == f(k, xs[k])
    {
      rs := rs + [f(n, xs[n])];
    }
  }
}

=== FILE: cli.dfy ===
/**
 * The command line of the evaluation pipeline: the comma-separated list
 * parser and the mapping from parsed flags to the arguments of
 * `run_evaluation`.  Argument parsing itself (flag syntax, `--help`, the
 * usage error for a missing `--models`) belongs to the argument parser and is
 * not modelled: the flags arrive already parsed, with the parser's defaults.
 */
module Cli {
  import opened Wrappers
  import opened Text
  import opened Paths
  import opened Specs
  import Runner

  /** `[f(x) for x in xs]`. */
  function Apply<A, B>(f: A -> B, xs: seq<A>): (r: seq<B>)
    ensures |r| == |xs| && forall k :: 0 <= k < |xs| ==> r[k] == f(xs[k])
  {
    seq(|xs|, k requires 0 <= k < |xs| => f(xs[k]))
  }

  /** Mapping distributes over concatenation. */
  lemma ApplyAppend<A, B>(f: A -> B, p: seq<A>, q: seq<A>)
    ensures Apply(f, p + q) == Apply(f, p) + Apply(f, q)
  {
    assert forall k :: 0 <= k < |p + q| ==> Apply(f, p + q)[k] == (Apply(f, p) + Apply(f, q))[k];
  }

  /** `[x for x in xs if x]`: the non-empty strings among `xs`, in order. */
  function NonEmpty(xs: seq<string>): (r: seq<string>)
    ensures |r| <= |xs|
    ensures forall k :: 0 <= k < |r| ==> r[k] != [] && r[k] in xs
  {
    if xs == [] then []
    else (if xs[0] != [] then [xs[0]] else []) + NonEmpty(xs[1..])
  }

  /** Filtering distributes over concatenation: the order of the pieces is kept. */
  lemma {:induction false} NonEmptyAppend(p: seq<string>, q: seq<string>)
    ensures NonEmpty(p + q) == NonEmpty(p) + NonEmpty(q)
  {
    if p == [] {
      assert p + q == q;
    } else {
      assert (p + q)[1..] == p[1..] + q;
      NonEmptyAppend(p[1..], q);
    }
  }

  /** A list with no empty string is its own filter. */
  lemma {:induction false} NonEmptyKeeps(xs: seq<string>)
    requires forall k :: 0 <= k < |xs| ==> xs[k] != []
    ensures NonEmpty(xs) == xs
  {
    if xs != [] {
      NonEmptyKeeps(xs[1..]);
      assert xs == [xs[0]] + xs[1..];
    }
  }

  /** `_csv_list`: split on commas, strip every piece and drop the empty ones. */
  function CsvList(value: string): (r: seq<string>)
    ensures forall k :: 0 <= k < |r| ==> r[k] != [] && Trimmed(r[k]) && ',' !in r[k]
  {
    var stripped := Apply(Strip, Split(value, ','));
    forall k | 0 <= k < |stripped|
      ensures ',' !in stripped[k]
    {
      StripKeepsOut(Split(value, ',')[k], ',');
    }
    NonEmpty(stripped)
  }

  /** Stripping never brings in a character the text did not have. */
  lemma StripKeepsOut(s: string, c: char)
    requires c !in s
    ensures c !in Strip(s)
  {
    var l := LStrip(s);
    SliceKeepsOut(s, |s| - |l|, |s|, c);
    SliceKeepsOut(l, 0, |RStrip(l)|, c);
  }

  lemma SliceKeepsOut(s: string, i: nat, j: nat, c: char)
    requires i <= j <= |s| && c !in s
    ensures c !in s[i..j]
  {
    forall k | 0 <= k < j - i
      ensures s[i..j][k] != c
    {
      assert s[i..j][k] == s[i + k];
    }
  }

  /** Splitting around one separator splits each side. */
  lemma {:induction false} SplitAround(a: string, b: string, c: char)
    ensures Split(a + [c] + b, c) == Split(a, c) + Split(b, c)
  {
    if a == [] {
      assert a + [c] + b == [c] + b;
      assert ([c] + b)[1..] == b;
    } else {
      assert (a + [c] + b)[1..] == a[1..] + [c] + b;
      SplitAround(a[1..], b, c);
    }
  }

  /** The list of `a,b` is the list of `a` followed by the list of `b`. */
  lemma CsvListAround(a: string, b: string)
    ensures CsvList(a + "," + b) == CsvList(a) + CsvList(b)
  {
    SplitAround(a, b, ',');
    ApplyAppend(Strip, Split(a, ','), Split(b, ','));
    NonEmptyAppend(Apply(Strip, Split(a, ',')), Apply(Strip, Split(b, ',')));
  }

  /** Text without a comma is one item: itself stripped, or nothing when it is all whitespace. */
  lemma CsvListOne(x: string)
    requires ',' !in x
    ensures CsvList(x) == if Strip(x) == [] then [] else [Strip(x)]
  {
    SplitNoSeparator(x, ',');
    calc {
      CsvList(x);
      NonEmpty(Apply(Strip, [x]));
      { assert Apply(Strip, [x]) == [Strip(x)]; }
      NonEmpty([Strip(x)]);
      { NonEmptyOne(Strip(x)); }
      if Strip(x) == [] then [] else [Strip(x)];
    }
  }

  /** Text without the separator splits into itself alone. */
  lemma SplitNoSeparator(x: string, c: char)
    requires c !in x
    ensures Split(x, c) == [x]
  {
    SplitPrefix(x, "", c);
    assert x + "" == x;
  }

  /** The filter of one string. */
  lemma NonEmptyOne(y: string)
    ensures NonEmpty([y]) == if y == [] then [] else [y]
  {
    assert [y][1..] == [];
  }

  /** The empty string is the empty list. */
  lemma CsvListEmpty()
    ensures CsvList("") == []
  {
    CsvListOne("");
  }

  /** Clean items joined with commas parse back to themselves. */
  lemma CsvListOfItems(items: seq<string>)
    requires forall k :: 0 <= k < |items| ==> items[k] != [] && Trimmed(items[k]) && ',' !in items[k]
    ensures CsvList(Join(items, ",")) == items
  {
    if items == [] {
      CsvListEmpty();
    } else {
      CsvListOfSome(items);
    }
  }

  lemma CsvListOfSome(items: seq<string>)
    requires items != []
    requires forall k :: 0 <= k < |items| ==> items[k] != [] && Trimmed(items[k]) && ',' !in items[k]
    ensures CsvList(Join(items, ",")) == items
  {
    var v := Join(items, ",");
    SplitJoin(items, ',');
    StripClean(items);
    NonEmptyKeeps(items);
    CsvListIs(v);
  }

  lemma CsvListIs(v: string)
    ensures CsvList(v) == NonEmpty(Apply(Strip, Split(v, ',')))
  {
  }

  /** Stripping trimmed items changes none of them. */
  lemma StripClean(items: seq<string>)
    requires forall k :: 0 <= k < |items| ==> Trimmed(items[k])
    ensures Apply(Strip, items) == items
  {
    forall k | 0 <= k < |items|
      ensures Apply(Strip, items)[k] == items[k]
    {
      StripTrimmed(items[k]);
    }
  }

  /** Joining the list with commas and parsing it again gives the same list. */
  lemma CsvListRoundTrip(value: string)
    ensures CsvList(Join(CsvList(value), ",")) == CsvList(value)
  {
    CsvListOfItems(CsvList(value));
  }

  /**
   * A list comprehension over a parser: every value parsed in order, and the
   * first value the parser rejects raises its exception.
   */
  function ParseEach<T>(parse: string -> Result<T, PyException>, values: seq<string>): (r: Result<seq<T>, PyException>)
    ensures r.Success? ==> |r.value| == |values| && forall k :: 0 <= k < |values| ==> parse(values[k]) == Success(r.value[k])
    ensures r.Failure? ==> exists k :: (0 <= k < |values| && parse(values[k]).Failure?
      && r.error == parse(values[k]).error
      && forall j :: 0 <= j < k ==> parse(values[j]).Success?)
  {
    if values == [] then Success([])
    else
      match parse(values[0])
      case Failure(e) => Failure(e)
      case Success(x) =>
        match ParseEach(parse, values[1..])
        case Failure(e) =>
          var k :| 0 <= k < |values[1..]| && parse(values[1..][k]).Failure? && e == parse(values[1..][k]).error
            && forall j :: 0 <= j < k ==> parse(values[1..][j]).Success?;
          assert parse(values[k + 1]).Failure? && forall j :: 0 <= j < k + 1 ==> parse(values[j]).Success?;
          Failure(e)
        case Success(xs) => Success([x] + xs)
  }

  /** `[Framework(v) for v in values]`: the first value that names no framework raises. */
  function ParseFrameworks(values: seq<string>): (r: Result<seq<Framework>, PyException>)
    ensures r.Success? ==> |r.value| == |values| && forall k :: 0 <= k < |values| ==> FrameworkValue(r.value[k]) == values[k]
    ensures r.Failure? ==> exists k :: (0 <= k < |values| && ParseFramework(values[k]).Failure?
      && r.error == ParseFramework(values[k]).error
      && forall j :: 0 <= j < k ==> ParseFramework(values[j]).Success?)
  {
    ParseEach(ParseFramework, values)
  }

  /** `[ChallengeLevel(v) for v in values]`: the first value that names no level raises. */
  function ParseLevels(values: seq<string>): (r: Result<seq<ChallengeLevel>, PyException>)
    ensures r.Success? ==> |r.value| == |values| && forall k :: 0 <= k < |values| ==> LevelValue(r.value[k]) == values[k]
    ensures r.Failure? ==> exists k :: (0 <= k < |values| && ParseLevel(values[k]).Failure?
      && r.error == ParseLevel(values[k]).error
      && forall j :: 0 <= j < k ==> ParseLevel(values[j]).Success?)
  {
    ParseEach(ParseLevel, values)
  }

  /** Every value of a list of frameworks parses back to it. */
  lemma ParseFrameworkValues(fs: seq<Framework>)
    ensures ParseFrameworks(seq(|fs|, k requires 0 <= k < |fs| => FrameworkValue(fs[k]))) == Success(fs)
  {
    var values := seq(|fs|, k requires 0 <= k < |fs| => FrameworkValue(fs[k]));
    var r := ParseFrameworks(values);
    if r.Failure? {
      var k :| 0 <= k < |values| && ParseFramework(values[k]).Failure?;
      FrameworkValues(fs[k]);
      assert false;
    }
    forall k | 0 <= k < |fs|
      ensures r.value[k] == fs[k]
    {
      assert values[k] == FrameworkValue(fs[k]);
      FrameworkValues(fs[k]);
    }
    assert r.value == fs;
  }

  /** Every value of a list of levels parses back to it. */
  lemma ParseLevelValues(ls: seq<ChallengeLevel>)
    ensures ParseLevels(seq(|ls|, k requires 0 <= k < |ls| => LevelValue(ls[k]))) == Success(ls)
  {
    var values := seq(|ls|, k requires 0 <= k < |ls| => LevelValue(ls[k]));
    var r := ParseLevels(values);
    if r.Failure? {
      var k :| 0 <= k < |values| && ParseLevel(values[k]).Failure?;
      LevelValues(ls[k]);
      assert false;
    }
    forall k | 0 <= k < |ls|
      ensures r.value[k] == ls[k]
    {
      assert values[k] == LevelValue(ls[k]);
      LevelValues(ls[k]);
    }
    assert r.value == ls;
  }

  /** The default of `--frameworks`, the five values separated by commas. */
  const DefaultFrameworks: string := Join(["streamlit", "gradio", "shiny", "panel", "dash"], ",")

  /** The default of `--levels`, the four values separated by commas. */
  const DefaultLevels: string := Join(["beginner", "intermediate", "advanced", "expert"], ",")

  /** A lower-case word is a clean item: non-empty, trimmed and free of commas. */
  lemma WordIsItem(w: string)
    requires LowerWord(w)
    ensures w != [] && Trimmed(w) && ',' !in w
  {
    assert forall k :: 0 <= k < |w| ==> w[k] != ',';
  }

  /** The values of all frameworks, in declaration order. */
  lemma FrameworkValueList()
    ensures seq(|AllFrameworks|, k requires 0 <= k < |AllFrameworks| => FrameworkValue(AllFrameworks[k]))
      == ["streamlit", "gradio", "shiny", "panel", "dash"]
  {
  }

  /** The values of all levels, in declaration order. */
  lemma LevelValueList()
    ensures seq(|AllLevels|, k requires 0 <= k < |AllLevels| => LevelValue(AllLevels[k]))
      == ["beginner", "intermediate", "advanced", "expert"]
  {
  }

  /** The framework values are lower-case words. */
  lemma FrameworkWords()
    ensures LowerWord("streamlit") && LowerWord("gradio") && LowerWord("shiny") && LowerWord("panel") && LowerWord("dash")
  {
    assert FrameworkValue(Streamlit) == "streamlit" && FrameworkValue(Gradio) == "gradio";
    assert FrameworkValue(Shiny) == "shiny" && FrameworkValue(Panel) == "panel" && FrameworkValue(Dash) == "dash";
  }

  /** The level values are lower-case words. */
  lemma LevelWords()
    ensures LowerWord("beginner") && LowerWord("intermediate") && LowerWord("advanced") && LowerWord("expert")
  {
    assert LevelValue(Beginner) == "beginner" && LevelValue(Intermediate) == "intermediate";
    assert LevelValue(Advanced) == "advanced" && LevelValue(Expert) == "expert";
  }

  /** The default `--frameworks` splits into the five framework values. */
  lemma DefaultFrameworkItems()
    ensures CsvList(DefaultFrameworks) == ["streamlit", "gradio", "shiny", "panel", "dash"]
  {
    var items := ["streamlit", "gradio", "shiny", "panel", "dash"];
    FrameworkWords();
    forall k | 0 <= k < |items|
      ensures items[k] != [] && Trimmed(items[k]) && ',' !in items[k]
    {
      WordIsItem(items[k]);
    }
    CsvListOfItems(items);
  }

  /** The default `--levels` splits into the four level values. */
  lemma DefaultLevelItems()
    ensures CsvList(DefaultLevels) == ["beginner", "intermediate", "advanced", "expert"]
  {
    var items := ["beginner", "intermediate", "advanced", "expert"];
    LevelWords();
    forall k | 0 <= k < |items|
      ensures items[k] != [] && Trimmed(items[k]) && ',' !in items[k]
    {
      WordIsItem(items[k]);
    }
    CsvListOfItems(items);
  }

  /** The default `--frameworks` names the five frameworks in declaration order. */
  lemma DefaultFrameworksAll()
    ensures ParseFrameworks(CsvList(DefaultFrameworks)) == Success(AllFrameworks)
  {
    DefaultFrameworkItems();
    FrameworkValueList();
    ParseFrameworkValues(AllFrameworks);
  }

  /** The default `--levels` names the four levels in declaration order. */
  lemma DefaultLevelsAll()
    ensures ParseLevels(CsvList(DefaultLevels)) == Success(AllLevels)
  {
    DefaultLevelItems();
    LevelValueList();
    ParseLevelValues(AllLevels);
  }

  /** The flags after parsing, with the parser's defaults; `--models` is required, so it is always present. */
  datatype Flags = Flags(
    models: string,
    frameworks: string := DefaultFrameworks,
    levels: string := DefaultLevels,
    out: string := "runs",
    host: string := "127.0.0.1",
    basePort: int := 8501,
    awsRegion: Option<string> := None,
    awsProfile: Option<string> := None,
    maxActive: int := 4,
    noGate2: bool := false,
    gate3: bool := false,
    gate3GraderModel: Option<string> := None,
    gate3LogDir: Option<string> := None,
    gate3MaxSamples: Option<int> := None)

  /**
   * The call `main` makes: the options the run itself uses, and those it only
   * hands on to the chat client and the Gate 3 grader.
   */
  datatype Invocation = Invocation(
    options: Runner.RunOptions,
    awsRegion: Option<string>,
    awsProfile: Option<string>,
    maxActive: int,
    gate3LogDir: Option<Path>,
    gate3MaxSamples: Option<int>)

  /**
   * `main` after parsing: the framework and level values are parsed first
   * (an unknown one raises the enum's `ValueError`), the model list is
   * split, and every other flag is passed on.
   */
  function MainCall(f: Flags): (r: Result<Invocation, PyException>)
    ensures r.Success? <==> ParseFrameworks(CsvList(f.frameworks)).Success? && ParseLevels(CsvList(f.levels)).Success?
    ensures ParseFrameworks(CsvList(f.frameworks)).Failure? ==> r == Failure(ParseFrameworks(CsvList(f.frameworks)).error)
    ensures ParseFrameworks(CsvList(f.frameworks)).Success? && ParseLevels(CsvList(f.levels)).Failure? ==>
      r == Failure(ParseLevels(CsvList(f.levels)).error)
    ensures r.Success? ==>
      && r.value.options.frameworks == ParseFrameworks(CsvList(f.frameworks)).value
      && r.value.options.levels == ParseLevels(CsvList(f.levels)).value
      && r.value.options.modelIds == CsvList(f.models)
      && r.value.options.outDir == PathOf(f.out)
      && r.value.options.host == f.host && r.value.options.basePort == f.basePort
      && r.value.options.gate3 == f.gate3 && r.value.options.graderModel == f.gate3GraderModel
      && r.value.awsRegion == f.awsRegion && r.value.awsProfile == f.awsProfile
      && r.value.maxActive == f.maxActive && r.value.gate3MaxSamples == f.gate3MaxSamples
  {
    match ParseFrameworks(CsvList(f.frameworks))
    case Failure(e) => Failure(e)
    case Success(frameworks) =>
      match ParseLevels(CsvList(f.levels))
      case Failure(e) => Failure(e)
      case Success(levels) =>
        var logDir := if f.gate3LogDir.Some? && f.gate3LogDir.value != "" then Some(PathOf(f.gate3LogDir.value)) else None;
        Success(Invocation(
          Runner.RunOptions(frameworks, levels, CsvList(f.models), PathOf(f.out), f.host, f.basePort,
            !f.noGate2, f.gate3, f.gate3GraderModel),
          f.awsRegion, f.awsProfile, f.maxActive, logDir, f.gate3MaxSamples))
  }

  /** Gate 2 runs exactly when `--no-gate2` is absent. */
  lemma Gate2Flag(f: Flags)
    requires MainCall(f).Success?
    ensures MainCall(f).value.options.gate2 <==> !f.noGate2
  {
  }

  /** An empty `--gate3-log-dir` counts as absent: inspect-ai then writes its logs to its default directory. */
  lemma Gate3LogDirFlag(f: Flags)
    requires MainCall(f).Success?
    ensures MainCall(f).value.gate3LogDir.Some? <==> (f.gate3LogDir.Some? && f.gate3LogDir.value != "")
    ensures MainCall(f).value.gate3LogDir.Some? ==> MainCall(f).value.gate3LogDir.value == PathOf(f.gate3LogDir.value)
  {
  }

  /** With only `--models` given, the run covers every framework and every level, Gate 2 on and Gate 3 off. */
  lemma DefaultsCoverAll(models: string)
    ensures MainCall(Flags(models)).Success?
    ensures MainCall(Flags(models)).value.options.frameworks == AllFrameworks
    ensures MainCall(Flags(models)).value.options.levels == AllLevels
    ensures MainCall(Flags(models)).value.options.gate2 && !MainCall(Flags(models)).value.options.gate3
  {
    DefaultFrameworksAll();
    DefaultLevelsAll();
  }
}

=== FILE: config.dfy ===
/** The per-framework policy table and its lookup. */
module Config {
  import opened Specs

  /**
   * A framework as the registry and the gates receive it: a member of the
   * enumeration, or some other value (which the Python enum type admits
   * nowhere, but which the lookup and the gates still handle).
   */
  datatype FrameworkKey = Listed(framework: Framework) | Unlisted(value: string)

  /** `framework.value`. */
  function KeyValue(k: FrameworkKey): string {
    match k
    case Listed(f) => FrameworkValue(f)
    case Unlisted(v) => v
  }

  datatype FrameworkConfig = FrameworkConfig(
    name: string,
    startupTimeoutS: real := 60.0,
    screenshotDelayMs: int := 1500,
    urlSuffix: string := "",
    clickDelayMs: int := 1000,
    requiresBokeh: bool := false,
    extraRequirements: seq<string> := [])

  /** `FRAMEWORK_CONFIGS`. */
  const FrameworkConfigs: map<Framework, FrameworkConfig> := map[
    Streamlit := FrameworkConfig(name := "streamlit", startupTimeoutS := 60.0, screenshotDelayMs := 2000, clickDelayMs := 1200),
    Gradio := FrameworkConfig(name := "gradio", startupTimeoutS := 90.0, screenshotDelayMs := 2000, clickDelayMs := 1200),
    Shiny := FrameworkConfig(name := "shiny", startupTimeoutS := 90.0, screenshotDelayMs := 2000, clickDelayMs := 1200),
    Panel := FrameworkConfig(
      name := "panel", startupTimeoutS := 120.0, screenshotDelayMs := 3000, urlSuffix := "/app",
      clickDelayMs := 2000, requiresBokeh := true, extraRequirements := ["panel", "bokeh"]),
    Dash := FrameworkConfig(name := "dash", startupTimeoutS := 90.0, screenshotDelayMs := 2000, clickDelayMs := 1200)
  ]

  /** Only Panel is served under a path, needs Bokeh and installs extra packages. */
  predicate IsPanel(k: FrameworkKey) {
    k == Listed(Panel)
  }

  /**
   * `get_framework_config`: the table entry, or `FrameworkConfig(name=value)`
   * with every default.  The entry's name is always the framework's value.
   */
  function GetFrameworkConfig(k: FrameworkKey): (c: FrameworkConfig)
    ensures c.name == KeyValue(k)
    ensures c.urlSuffix == (if IsPanel(k) then "/app" else "")
    ensures c.requiresBokeh == IsPanel(k)
    ensures c.extraRequirements == (if IsPanel(k) then ["panel", "bokeh"] else [])
    ensures c.startupTimeoutS == match k
      case Listed(Streamlit) => 60.0
      case Listed(Panel) => 120.0
      case Listed(_) => 90.0
      case Unlisted(_) => 60.0
    ensures c.screenshotDelayMs == match k
      case Listed(Panel) => 3000
      case Listed(_) => 2000
      case Unlisted(_) => 1500
    ensures c.clickDelayMs == match k
      case Listed(Panel) => 2000
      case Listed(_) => 1200
      case Unlisted(_) => 1000
  {
    match k
    case Listed(f) => if f in FrameworkConfigs then FrameworkConfigs[f] else FrameworkConfig(name := FrameworkValue(f))
    case Unlisted(v) => FrameworkConfig(name := v)
  }

  /** Every member of the enumeration has an entry, so the default is never used for one. */
  lemma TableIsTotal(f: Framework)
    ensures f in FrameworkConfigs
    ensures GetFrameworkConfig(Listed(f)) == FrameworkConfigs[f]
  {
  }
}

=== FILE: eval_apps.dfy ===
/**
 * The model-graded evaluation of the hand-generated tip-calculator apps:
 * reading one criterion's score out of the scoring model's reply, the three
 * criteria and the keys their scores are reported under, and the assembly
 * of one sample per app (the evaluation prompt around the app's code, then
 * whichever of the two screenshots exist).
 *
 * The files next to the evaluation script are a map from path to text: a
 * path is present exactly when the file exists.  `float(...)` of a captured
 * number is taken as the exact decimal value it spells.
 */
module EvalApps {
  import opened Wrappers
  import opened Text
  import opened Paths

  // ---------------------------------------------------------------------
  // Reading a score: `re.search(LABEL + r":\s*(\d+(?:\.\d+)?)", text)`
  // ---------------------------------------------------------------------

  /** What the capture group holds: a run of digits and, when present, the digits after one `.`. */
  datatype Number = Number(whole: string, fraction: string)

  /** Every character of `s[i..j]` is a decimal digit. */
  predicate DigitsBetween(s: string, i: nat, j: nat)
    requires i <= j <= |s|
  {
    forall k :: i <= k < j ==> IsDigit(s[k])
  }

  /** The end of the run of digits starting at `i`: how far a greedy `\d+` reaches. */
  function DigitRun(s: string, i: nat): (j: nat)
    requires i <= |s|
    ensures i <= j <= |s|
    ensures DigitsBetween(s, i, j)
    ensures j == |s| || !IsDigit(s[j])
    decreases |s| - i
  {
    if i < |s| && IsDigit(s[i]) then DigitRun(s, i + 1) else i
  }

  /** A run of digits followed by a non-digit (or the end) is exactly what `DigitRun` reaches. */
  lemma {:induction false} DigitRunEnd(s: string, i: nat, j: nat)
    requires i <= j <= |s| && DigitsBetween(s, i, j) && (j == |s| || !IsDigit(s[j]))
    ensures DigitRun(s, i) == j
    decreases j - i
  {
    if i < j {
      DigitRunEnd(s, i + 1, j);
    }
  }

  /** Whether, past the whitespace that follows index `j`, a digit comes. */
  predicate NumberFollows(text: string, j: nat)
    requires j <= |text|
  {
    SkipSpace(text, j) < |text| && IsDigit(text[SkipSpace(text, j)])
  }

  /**
   * The pattern tried at index `i`: the label, a colon, any whitespace
   * (newlines included), then the number.  `\s*` is greedy and whitespace
   * is never a digit, so it cannot give anything back to `\d+`; the
   * optional `.digits` part is taken whenever a digit follows the dot.
   */
  function MatchAt(text: string, marker: string, i: nat): (m: Option<Number>)
    requires i <= |text|
    ensures m.Some? ==> m.value.whole != [] && AllDigits(m.value.whole) && AllDigits(m.value.fraction)
  {
    var head := marker + ":";
    if !OccursAt(text, head, i) then None
    else
      var d := SkipSpace(text, i + |head|);
      var e := DigitRun(text, d);
      if e == d then None
      else if e + 1 < |text| && text[e] == '.' && IsDigit(text[e + 1]) then
        Some(Number(text[d..e], text[e + 1..DigitRun(text, e + 1)]))
      else
        Some(Number(text[d..e], ""))
  }

  /** The pattern matches at `i` exactly when the label and a colon sit there and a number follows after any whitespace. */
  lemma MatchAtMeans(text: string, marker: string, i: nat)
    requires i <= |text|
    ensures MatchAt(text, marker, i).Some? <==> OccursAt(text, marker + ":", i) && NumberFollows(text, i + |marker| + 1)
  {
  }

  /** `re.search` from index `i`: the leftmost index at which the pattern matches. */
  function FirstMatch(text: string, marker: string, i: nat): (p: Option<nat>)
    requires i <= |text|
    ensures p.Some? ==> i <= p.value <= |text| && MatchAt(text, marker, p.value).Some?
    ensures p.Some? ==> forall q :: i <= q < p.value ==> MatchAt(text, marker, q).None?
    ensures p.None? ==> forall q :: i <= q <= |text| ==> MatchAt(text, marker, q).None?
    decreases |text| - i
  {
    if MatchAt(text, marker, i).Some? then Some(i)
    else if i == |text| then None
    else FirstMatch(text, marker, i + 1)
  }

  function Pow10(n: nat): (r: nat)
    ensures r >= 1
  {
    if n == 0 then 1 else 10 * Pow10(n - 1)
  }

  /** The decimal value a captured number spells. */
  function Value(n: Number): (v: real)
    requires AllDigits(n.whole) && AllDigits(n.fraction)
    ensures v >= 0.0
  {
    DecimalValue(n.whole) as real + DecimalValue(n.fraction) as real / Pow10(|n.fraction|) as real
  }

  /** `min(max(v, 1.0), 10.0)`. */
  function Clamp(v: real): (r: real)
    ensures 1.0 <= r <= 10.0
    ensures 1.0 <= v <= 10.0 ==> r == v
    ensures v < 1.0 ==> r == 1.0
    ensures v > 10.0 ==> r == 10.0
  {
    if v < 1.0 then 1.0 else if v > 10.0 then 10.0 else v
  }

  /**
   * `_extract_score`: the first number written after the label, clamped
   * into [1, 10], or 0.0 when the label is never followed by a number.
   */
  function ExtractScore(text: string, marker: string): (r: real)
    ensures r == 0.0 || 1.0 <= r <= 10.0
  {
    match FirstMatch(text, marker, 0)
    case None => 0.0
    case Some(p) => Clamp(Value(MatchAt(text, marker, p).value))
  }

  /** The score is 0.0 exactly when the label is nowhere followed by a number. */
  lemma ScoreZeroIffNoMatch(text: string, marker: string)
    ensures ExtractScore(text, marker) == 0.0 <==> forall p :: 0 <= p <= |text| ==> MatchAt(text, marker, p).None?
  {
  }

  /** The earliest place where the label is followed by a number decides the score; later ones are ignored. */
  lemma FirstOccurrenceWins(text: string, marker: string, p: nat)
    requires p <= |text| && MatchAt(text, marker, p).Some?
    requires forall q :: 0 <= q < p ==> MatchAt(text, marker, q).None?
    ensures ExtractScore(text, marker) == Clamp(Value(MatchAt(text, marker, p).value))
  {
    assert FirstMatch(text, marker, 0) == Some(p);
  }

  /** Whitespace is never a digit, so a greedy `\s*` stops in front of the number. */
  lemma DigitNotSpace(c: char)
    requires IsDigit(c)
    ensures !IsSpace(c)
  {
  }

  /** The number at `d..e` is taken whole when no `.digit` follows it. */
  lemma WholeMatchAt(text: string, marker: string, i: nat, d: nat, e: nat)
    requires i + |marker| + 1 <= d < e <= |text|
    requires OccursAt(text, marker + ":", i)
    requires SpacesBetween(text, i + |marker| + 1, d) && DigitsBetween(text, d, e)
    requires e == |text| || !IsDigit(text[e])
    requires e + 1 < |text| && text[e] == '.' ==> !IsDigit(text[e + 1])
    ensures MatchAt(text, marker, i) == Some(Number(text[d..e], ""))
  {
    DigitNotSpace(text[d]);
    SkipSpaceRun(text, i + |marker| + 1, d);
    DigitRunEnd(text, d, e);
  }

  /** The number at `d..e`, a dot and the digits at `e + 1..g` are taken together. */
  lemma FractionMatchAt(text: string, marker: string, i: nat, d: nat, e: nat, g: nat)
    requires i + |marker| + 1 <= d < e && e + 1 < g <= |text|
    requires OccursAt(text, marker + ":", i)
    requires SpacesBetween(text, i + |marker| + 1, d) && DigitsBetween(text, d, e)
    requires text[e] == '.' && DigitsBetween(text, e + 1, g)
    requires g == |text| || !IsDigit(text[g])
    ensures MatchAt(text, marker, i) == Some(Number(text[d..e], text[e + 1..g]))
  {
    DigitNotSpace(text[d]);
    SkipSpaceRun(text, i + |marker| + 1, d);
    DigitRunEnd(text, d, e);
    DigitRunEnd(text, e + 1, g);
  }

  /** Where the pieces of `LABEL:` + whitespace + digits + rest sit. */
  lemma LeadingLayout(marker: string, ws: string, digits: string, rest: string)
    requires AllSpace(ws) && AllDigits(digits)
    ensures var text := marker + ":" + ws + digits + rest;
      var d := |marker| + 1 + |ws|;
      && OccursAt(text, marker + ":", 0)
      && SpacesBetween(text, |marker| + 1, d)
      && DigitsBetween(text, d, d + |digits|)
      && text[d..d + |digits|] == digits
      && text[d + |digits|..] == rest
  {
    var text := marker + ":" + ws + digits + rest;
    var h := |marker| + 1;
    var d := h + |ws|;
    assert text[..h] == marker + ":";
    forall k | h <= k < d ensures IsSpace(text[k]) {
      assert text[k] == ws[k - h];
    }
    forall k | d <= k < d + |digits| ensures IsDigit(text[k]) {
      assert text[k] == digits[k - d];
    }
    assert text[d..d + |digits|] == digits;
  }

  /** A reply that begins with `LABEL: <digits>` scores those digits, clamped. */
  lemma {:induction false} LeadingScore(marker: string, ws: string, digits: string, rest: string)
    requires AllSpace(ws) && digits != [] && AllDigits(digits)
    requires rest == [] || (!IsDigit(rest[0]) && (rest[0] == '.' ==> |rest| == 1 || !IsDigit(rest[1])))
    ensures ExtractScore(marker + ":" + ws + digits + rest, marker) == Clamp(DecimalValue(digits) as real)
  {
    var text := marker + ":" + ws + digits + rest;
    var d := |marker| + 1 + |ws|;
    var e := d + |digits|;
    LeadingLayout(marker, ws, digits, rest);
    if rest != [] {
      assert text[e] == rest[0];
      if |rest| > 1 {
        assert text[e + 1] == rest[1];
      }
    }
    WholeMatchAt(text, marker, 0, d, e);
    calc {
      ExtractScore(text, marker);
      { FirstOccurrenceWins(text, marker, 0); }
      Clamp(Value(MatchAt(text, marker, 0).value));
      Clamp(Value(Number(digits, "")));
      { WholeValue(digits); }
      Clamp(DecimalValue(digits) as real);
    }
  }

  lemma Regroup(a: string, b: string, c: string, d: string)
    ensures a + b + c + d == a + (b + c + d)
  {
  }

  /** Where the dot, the fraction's digits and what follows them sit. */
  lemma FractionLayout(text: string, e: nat, fraction: string, rest: string)
    requires e <= |text| && text[e..] == "." + fraction + rest && AllDigits(fraction)
    ensures var g := e + 1 + |fraction|;
      && g <= |text| && text[e] == '.'
      && DigitsBetween(text, e + 1, g) && text[e + 1..g] == fraction
      && (rest != [] ==> text[g] == rest[0])
      && (rest == [] ==> g == |text|)
  {
    var g := e + 1 + |fraction|;
    assert text[e] == text[e..][0];
    forall k | e + 1 <= k < g ensures IsDigit(text[k]) {
      assert text[k] == text[e..][k - e] == fraction[k - e - 1];
    }
    assert text[e + 1..g] == text[e..][1..1 + |fraction|] == fraction;
    if rest != [] {
      assert text[g] == text[e..][1 + |fraction|] == rest[0];
    }
  }

  /** A number without a fraction is worth its digits. */
  lemma WholeValue(digits: string)
    requires AllDigits(digits)
    ensures Value(Number(digits, "")) == DecimalValue(digits) as real
  {
  }

  /** In `LABEL:` + whitespace + digits + `.` + digits + rest, the pattern captures both runs of digits. */
  lemma DecimalMatchAt(text: string, marker: string, ws: string, whole: string, fraction: string, rest: string)
    requires AllSpace(ws) && whole != [] && AllDigits(whole) && fraction != [] && AllDigits(fraction)
    requires rest == [] || !IsDigit(rest[0])
    requires text == marker + ":" + ws + whole + ("." + fraction + rest)
    ensures MatchAt(text, marker, 0) == Some(Number(whole, fraction))
  {
    var d := |marker| + 1 + |ws|;
    var e := d + |whole|;
    var g := e + 1 + |fraction|;
    LeadingLayout(marker, ws, whole, "." + fraction + rest);
    assert OccursAt(text, marker + ":", 0) && SpacesBetween(text, |marker| + 1, d);
    assert DigitsBetween(text, d, e) && text[d..e] == whole;
    assert text[e..] == "." + fraction + rest;
    FractionLayout(text, e, fraction, rest);
    assert g == |text| || !IsDigit(text[g]);
    assert text[e + 1..g] == fraction;
    FractionMatchAt(text, marker, 0, d, e, g);
    assert Number(text[d..e], text[e + 1..g]) == Number(whole, fraction);
  }

  /** A reply that begins with `LABEL: <digits>.<digits>` scores that decimal, clamped. */
  lemma {:induction false} LeadingDecimalScore(marker: string, ws: string, whole: string, fraction: string, rest: string)
    requires AllSpace(ws) && whole != [] && AllDigits(whole) && fraction != [] && AllDigits(fraction)
    requires rest == [] || !IsDigit(rest[0])
    ensures ExtractScore(marker + ":" + ws + whole + "." + fraction + rest, marker)
         == Clamp(DecimalValue(whole) as real + DecimalValue(fraction) as real / Pow10(|fraction|) as real)
  {
    var text := marker + ":" + ws + whole + "." + fraction + rest;
    Regroup(marker + ":" + ws + whole, ".", fraction, rest);
    DecimalMatchAt(text, marker, ws, whole, fraction, rest);
    FirstOccurrenceWins(text, marker, 0);
  }

  /** A sign is not part of the pattern: `LABEL: -3` gives no score at all. */
  lemma {:induction false} SignedScoreIgnored(marker: string, ws: string, digits: string)
    requires ':' !in marker && AllSpace(ws) && AllDigits(digits)
    ensures ExtractScore(marker + ":" + ws + "-" + digits, marker) == 0.0
  {
    var text := marker + ":" + ws + "-" + digits;
    var h := |marker| + 1;
    OneColon(marker, ws, digits);
    forall p | 0 <= p <= |text|
      ensures MatchAt(text, marker, p).None?
    {
      if p == 0 {
        assert SpacesBetween(text, h, h + |ws|) by {
          forall k | h <= k < h + |ws| ensures IsSpace(text[k]) {
            assert text[k] == ws[k - h];
          }
        }
        assert text[h + |ws|] == '-';
        SkipSpaceRun(text, h, h + |ws|);
      } else if OccursAt(text, marker + ":", p) {
        OccursAtEnd(text, marker + ":", p);
      }
    }
  }

  /** The only colon of `LABEL:` + whitespace + `-` + digits is the one after the label. */
  lemma OneColon(marker: string, ws: string, digits: string)
    requires ':' !in marker && AllSpace(ws) && AllDigits(digits)
    ensures var text := marker + ":" + ws + "-" + digits;
      forall c :: 0 <= c < |text| && c != |marker| ==> text[c] != ':'
  {
    var text := marker + ":" + ws + "-" + digits;
    var h := |marker| + 1;
    forall c | 0 <= c < |text| && c != |marker|
      ensures text[c] != ':'
    {
      if c < |marker| {
        assert text[c] == marker[c];
      } else if c < h + |ws| {
        assert text[c] == ws[c - h];
      } else if c > h + |ws| {
        assert text[c] == digits[c - h - |ws| - 1];
      }
    }
  }

  /** An occurrence ends with the last character of what occurs. */
  lemma OccursAtEnd(s: string, t: string, i: int)
    requires OccursAt(s, t, i) && t != []
    ensures s[i + |t| - 1] == t[|t| - 1]
  {
    assert s[i..i + |t|][|t| - 1] == s[i + |t| - 1];
  }

  predicate IsUpper(c: char) { 'A' <= c <= 'Z' }

  /** The label is matched case-sensitively: a reply with no capital letters never scores an upper-case label. */
  lemma LowerCaseReplyScoresZero(text: string, marker: string)
    requires marker != [] && IsUpper(marker[0])
    requires forall k :: 0 <= k < |text| ==> !IsUpper(text[k])
    ensures ExtractScore(text, marker) == 0.0
  {
    forall p | 0 <= p <= |text|
      ensures MatchAt(text, marker, p).None?
    {
      if OccursAt(text, marker + ":", p) {
        OccursAtStart(text, marker + ":", p);
      }
    }
  }

  /** An occurrence starts with the first character of what occurs. */
  lemma OccursAtStart(s: string, t: string, i: int)
    requires OccursAt(s, t, i) && t != []
    ensures s[i] == t[0]
  {
    assert s[i..i + |t|][0] == s[i];
  }

  // ---------------------------------------------------------------------
  // The three criteria (`criteria_scorer`)
  // ---------------------------------------------------------------------

  datatype Criterion = Maintainability | Readability | Adherence

  /** The label the scoring model is told to write before the criterion's score. */
  function Label(c: Criterion): string {
    match c
    case Maintainability => "MAINTAINABILITY_SCORE"
    case Readability => "READABILITY_SCORE"
    case Adherence => "ADHERENCE_SCORE"
  }

  /** The key the criterion's score is reported under. */
  function Key(c: Criterion): string {
    match c
    case Maintainability => "maintainability"
    case Readability => "readability"
    case Adherence => "adherence"
  }

  /** The score value of one reply: each criterion's key holds the score read after that criterion's label. */
  function Scores(completion: string): (s: map<string, real>)
    ensures s.Keys == {"maintainability", "readability", "adherence"}
    ensures forall k :: k in s ==> s[k] == 0.0 || 1.0 <= s[k] <= 10.0
  {
    map[Key(Maintainability) := ExtractScore(completion, Label(Maintainability)),
        Key(Readability) := ExtractScore(completion, Label(Readability)),
        Key(Adherence) := ExtractScore(completion, Label(Adherence))]
  }

  /** Each criterion's key holds the score read after that criterion's label. */
  lemma ScoreUnderKey(completion: string, c: Criterion)
    ensures Key(c) in Scores(completion) && Scores(completion)[Key(c)] == ExtractScore(completion, Label(c))
  {
    match c {
      case Maintainability =>
      case Readability =>
      case Adherence =>
    }
  }

  /** Distinct criteria have distinct labels and distinct keys, so no score overwrites another. */
  lemma CriteriaDistinct(c: Criterion, d: Criterion)
    requires c != d
    ensures Label(c) != Label(d) && Key(c) != Key(d)
  {
    match c {
      case Maintainability =>
        assert Label(c)[0] == 'M' && Key(c)[0] == 'm';
      case Readability =>
        assert Label(c)[0] == 'R' && Key(c)[0] == 'r';
      case Adherence =>
        assert Label(c)[0] == 'A' && Key(c)[0] == 'a';
    }
  }

  /** An out-of-range score is pulled to the nearest bound: 0 reads as 1.0, for any label. */
  lemma ZeroReadsAsOne(marker: string)
    ensures ExtractScore(marker + ": 0", marker) == 1.0
  {
    calc {
      ExtractScore(marker + ": 0", marker);
      { assert marker + ": 0" == marker + ":" + " " + "0" + ""; }
      ExtractScore(marker + ":" + " " + "0" + "", marker);
      { LeadingScore(marker, " ", "0", ""); }
      Clamp(DecimalValue("0") as real);
      { assert "0"[..0] == ""; }
      1.0;
    }
  }

  /** ... and 15 reads as 10.0. */
  lemma FifteenReadsAsTen(marker: string)
    ensures ExtractScore(marker + ": 15", marker) == 10.0
  {
    calc {
      ExtractScore(marker + ": 15", marker);
      { assert marker + ": 15" == marker + ":" + " " + "15" + ""; }
      ExtractScore(marker + ":" + " " + "15" + "", marker);
      { LeadingScore(marker, " ", "15", ""); }
      Clamp(DecimalValue("15") as real);
      { assert "15"[..1] == "1" && "1"[..0] == ""; }
      10.0;
    }
  }

  /** The whitespace after the colon may include line breaks; an exponent is not read. */
  lemma NewlineThenExponent(marker: string)
    ensures ExtractScore(marker + ":\n7e2", marker) == 7.0
  {
    calc {
      ExtractScore(marker + ":\n7e2", marker);
      { assert marker + ":\n7e2" == marker + ":" + "\n" + "7" + "e2"; }
      ExtractScore(marker + ":" + "\n" + "7" + "e2", marker);
      { LeadingScore(marker, "\n", "7", "e2"); }
      Clamp(DecimalValue("7") as real);
      { assert "7"[..0] == ""; }
      7.0;
    }
  }

  /** A decimal score keeps its fraction. */
  lemma DecimalScoreKept(marker: string)
    ensures ExtractScore(marker + ": 8.5", marker) == 8.5
  {
    DecimalSpelled(marker);
    LeadingDecimalScore(marker, " ", "8", "5", "");
    EightAndAHalf();
  }

  lemma DecimalSpelled(marker: string)
    ensures marker + ": 8.5" == marker + ":" + " " + "8" + "." + "5" + ""
  {
  }

  lemma EightAndAHalf()
    ensures Clamp(DecimalValue("8") as real + DecimalValue("5") as real / Pow10(1) as real) == 8.5
  {
    assert "8"[..0] == "" && "5"[..0] == "";
  }

  // ---------------------------------------------------------------------
  // Building the samples (`_build_samples`)
  // ---------------------------------------------------------------------

  /** One part of the user message: a piece of text or an image given by its path. */
  datatype Content = TextPart(text: string) | ImagePart(image: string)

  /** A sample: the content of its one user message, the target text, its id and the framework in its metadata. */
  datatype Sample = Sample(content: seq<Content>, target: string, id: string, framework: string)

  /** `FRAMEWORKS`: display name and directory of each app, in the dictionary's order. */
  const Frameworks: seq<(string, string)> :=
    [("Streamlit", "streamlit"), ("Plotly Dash", "dash"), ("Panel", "panel"), ("Shiny for Python", "shiny")]

  /** Every directory of a table of apps is a single path component. */
  predicate ValidTable(entries: seq<(string, string)>) {
    forall j :: 0 <= j < |entries| ==> IsComponent(entries[j].1)
  }

  /** No two apps of a table share a directory. */
  predicate DistinctDirs(entries: seq<(string, string)>) {
    forall i, j :: 0 <= i < j < |entries| ==> entries[i].1 != entries[j].1
  }

  lemma FrameworksTable()
    ensures ValidTable(Frameworks) && DistinctDirs(Frameworks)
  {
  }

  /**
   * A format string cut at its placeholders: `pieces[0]`, the first value,
   * `pieces[1]`, and so on.  This is `str.format` with every value inserted
   * as it is: braces inside a value are not read again.
   */
  function Format(pieces: seq<string>, values: seq<string>): string
    requires |pieces| == |values| + 1
    decreases |values|
  {
    if values == [] then pieces[0]
    else Format(pieces[..|pieces| - 1], values[..|values| - 1]) + values[|values| - 1] + pieces[|pieces| - 1]
  }

  /** The last value filled in appears in the result, untouched. */
  lemma FormatShowsLast(pieces: seq<string>, values: seq<string>)
    requires |pieces| == |values| + 1 && values != []
    ensures Contains(Format(pieces, values), values[|values| - 1])
  {
    ContainsMiddle(Format(pieces[..|pieces| - 1], values[..|values| - 1]), values[|values| - 1], pieces[|pieces| - 1]);
  }

  /** The fixed wording of a sample: both prompt templates, the two captions and the target. */
  datatype Wording = Wording(evalPrompt: seq<string>, originalPrompt: seq<string>,
                             beforeCaption: string, afterCaption: string, target: string)

  /** The evaluation template has four placeholders and the original prompt two. */
  predicate WellShaped(w: Wording) {
    |w.evalPrompt| == 5 && |w.originalPrompt| == 3
  }

  /**
   * `EVAL_PROMPT_TEMPLATE` (placeholders framework, original_prompt,
   * framework, code), `ORIGINAL_PROMPT` (framework twice), the captions put
   * before each screenshot and the sample target.
   */
  const SampleWording: Wording := Wording(
    ["## Framework: ",
     "\n\n### Original prompt given to the"
       + " LLM that generated this app:\n",
     "\n\n### Generated app code (",
     "):\n```python\n",
     "\n```\n\nBelow are the before and after scr"
       + "eenshots of the running app.\nThe \"before"
       + "\" screenshot shows the app right after l"
       + "aunch (default state).\nThe \"after\" scree"
       + "nshot shows the app after entering: bill"
       + " = $85.50, tip = 20%, split among 3 peop"
       + "le.\n\nPlease evaluate this app on the thr"
       + "ee criteria (Maintainability, Readabilit"
       + "y, Requirement Adherence) and provide yo"
       + "ur scores.\n"],
    ["Create an app using ",
     " that is a basic tip calculator which fe"
       + "atures a clean interface with input fiel"
       + "ds for the bill amount and tip percentag"
       + "e (with 15%, 18%, or 20% presets). It mu"
       + "st instantly calculate and display the t"
       + "ip amount and the total bill (bill + tip"
       + "), with an optional, useful feature to s"
       + "plit the total among multiple people. Do"
       + " not use extra packages or CSS or JavaSc"
       + "ript other than what ",
     " already provides."],
    "\n### Before screenshot (default state):",
    "\n### After screenshot (bill=$85.50, "
      + "tip=20%, split=3):",
    "Evaluate the app on all three criteria.")

  lemma SampleWordingShaped()
    ensures WellShaped(SampleWording)
  {
  }

  /** The evaluation prompt of an app: the template filled with its framework, the original prompt and its code. */
  function EvalText(w: Wording, framework: string, code: string): string
    requires WellShaped(w)
  {
    Format(w.evalPrompt, [framework, Format(w.originalPrompt, [framework, framework]), framework, code])
  }

  /** The evaluation prompt shows the app's code as it is on disk. */
  lemma EvalTextShowsCode(w: Wording, framework: string, code: string)
    requires WellShaped(w)
    ensures Contains(EvalText(w, framework, code), code)
  {
    FormatShowsLast(w.evalPrompt, [framework, Format(w.originalPrompt, [framework, framework]), framework, code]);
  }

  /** `BASE_DIR / dirname / "app.py"`. */
  function CodeFile(base: Path, dir: string): (r: Path)
    requires IsComponent(dir)
    ensures r == Child(Child(base, dir), "app.py")
  {
    Path(base.absolute, base.parts + [dir, "app.py"])
  }

  /** Whether `BASE_DIR / dirname / "app.py"` exists. */
  predicate HasApp(files: map<Path, string>, base: Path, dir: string) {
    IsComponent(dir) && CodeFile(base, dir) in files
  }

  /** `BASE_DIR / dirname / "before.png"`. */
  function BeforeShot(base: Path, dir: string): (r: Path)
    requires IsComponent(dir)
    ensures r == Child(Child(base, dir), "before.png")
  {
    Path(base.absolute, base.parts + [dir, "before.png"])
  }

  /** `BASE_DIR / dirname / "after.png"`. */
  function AfterShot(base: Path, dir: string): (r: Path)
    requires IsComponent(dir)
    ensures r == Child(Child(base, dir), "after.png")
  {
    Path(base.absolute, base.parts + [dir, "after.png"])
  }

  /**
   * The content of an app's message: the evaluation prompt, then the before
   * caption and image when that screenshot exists, then the after caption
   * and image when that one exists.
   */
  function ContentOf(files: map<Path, string>, base: Path, w: Wording, framework: string, dir: string): (c: seq<Content>)
    requires WellShaped(w) && IsComponent(dir) && CodeFile(base, dir) in files
    ensures |c| == 1 + (if BeforeShot(base, dir) in files then 2 else 0)
                     + (if AfterShot(base, dir) in files then 2 else 0)
    ensures c[0] == TextPart(EvalText(w, framework, files[CodeFile(base, dir)]))
    ensures BeforeShot(base, dir) in files ==>
              c[1] == TextPart(w.beforeCaption) && c[2] == ImagePart(ToString(BeforeShot(base, dir)))
    ensures AfterShot(base, dir) in files ==>
              c[|c| - 2] == TextPart(w.afterCaption) && c[|c| - 1] == ImagePart(ToString(AfterShot(base, dir)))
  {
    var before := BeforeShot(base, dir);
    var after := AfterShot(base, dir);
    [TextPart(EvalText(w, framework, files[CodeFile(base, dir)]))]
      + (if before in files then [TextPart(w.beforeCaption), ImagePart(ToString(before))] else [])
      + (if after in files then [TextPart(w.afterCaption), ImagePart(ToString(after))] else [])
  }

  /** An app's sample, or nothing when its `app.py` is missing. */
  function SampleOf(files: map<Path, string>, base: Path, w: Wording, entry: (string, string)): (r: Option<Sample>)
    requires WellShaped(w) && IsComponent(entry.1)
    ensures r.Some? <==> HasApp(files, base, entry.1)
    ensures r.Some? ==> r.value.id == entry.1 && r.value.target == w.target
  {
    if !HasApp(files, base, entry.1) then None
    else Some(Sample(ContentOf(files, base, w, entry.0, entry.1), w.target, entry.1, entry.0))
  }

  /** The samples of the first `n` apps of a table, in the table's order. */
  function SamplesOf(files: map<Path, string>, base: Path, w: Wording, entries: seq<(string, string)>, n: nat): (r: seq<Sample>)
    requires WellShaped(w) && ValidTable(entries) && n <= |entries|
    ensures |r| <= n
    ensures forall k :: 0 <= k < |r| ==> r[k].target == w.target
  {
    if n == 0 then []
    else
      SamplesOf(files, base, w, entries, n - 1)
        + (match SampleOf(files, base, w, entries[n - 1]) case None => [] case Some(s) => [s])
  }

  /** The directories, among the first `n` of a table, whose `app.py` exists, in order. */
  function Present(files: map<Path, string>, base: Path, entries: seq<(string, string)>, n: nat): (r: seq<string>)
    requires ValidTable(entries) && n <= |entries|
    ensures |r| <= n
  {
    if n == 0 then []
    else
      Present(files, base, entries, n - 1)
        + (if HasApp(files, base, entries[n - 1].1) then [entries[n - 1].1] else [])
  }

  function Ids(samples: seq<Sample>): (r: seq<string>)
    ensures |r| == |samples| && forall k :: 0 <= k < |r| ==> r[k] == samples[k].id
  {
    if samples == [] then [] else Ids(samples[..|samples| - 1]) + [samples[|samples| - 1].id]
  }

  /** One sample per app whose `app.py` exists, in the table's order, identified by its directory. */
  lemma {:induction false} SampleIds(files: map<Path, string>, base: Path, w: Wording, entries: seq<(string, string)>, n: nat)
    requires WellShaped(w) && ValidTable(entries) && n <= |entries|
    ensures Ids(SamplesOf(files, base, w, entries, n)) == Present(files, base, entries, n)
  {
    if n > 0 {
      SampleIds(files, base, w, entries, n - 1);
      var s := SamplesOf(files, base, w, entries, n);
      var prev := SamplesOf(files, base, w, entries, n - 1);
      var o := SampleOf(files, base, w, entries[n - 1]);
      var q := Present(files, base, entries, n - 1);
      if o.Some? {
        assert s == prev + [o.value];
        assert Present(files, base, entries, n) == q + [entries[n - 1].1];
        assert Ids(s) == Ids(prev) + [entries[n - 1].1];
      } else {
        assert s == prev;
        assert Present(files, base, entries, n) == q;
      }
    }
  }

  /** The directories of the first `n` apps of a table, in order. */
  function Dirs(entries: seq<(string, string)>, n: nat): (r: seq<string>)
    requires n <= |entries|
    ensures |r| == n && forall k :: 0 <= k < n ==> r[k] == entries[k].1
  {
    if n == 0 then [] else Dirs(entries, n - 1) + [entries[n - 1].1]
  }

  /** When every app of the table is on disk, every directory is found, in order. */
  lemma {:induction false} PresentAll(files: map<Path, string>, base: Path, entries: seq<(string, string)>, n: nat)
    requires ValidTable(entries) && n <= |entries|
    requires forall j :: 0 <= j < n ==> HasApp(files, base, entries[j].1)
    ensures Present(files, base, entries, n) == Dirs(entries, n)
  {
    if n > 0 {
      PresentAll(files, base, entries, n - 1);
      assert HasApp(files, base, entries[n - 1].1);
    }
  }

  /** When every app of the table is on disk, every one gets a sample, in order. */
  lemma AllAppsSampled(files: map<Path, string>, base: Path, w: Wording, entries: seq<(string, string)>)
    requires WellShaped(w) && ValidTable(entries)
    requires forall j :: 0 <= j < |entries| ==> HasApp(files, base, entries[j].1)
    ensures |SamplesOf(files, base, w, entries, |entries|)| == |entries|
    ensures forall k :: 0 <= k < |entries| ==> SamplesOf(files, base, w, entries, |entries|)[k].id == entries[k].1
  {
    SampleIds(files, base, w, entries, |entries|);
    PresentAll(files, base, entries, |entries|);
  }

  /** With no app on disk there is no sample. */
  lemma {:induction false} NoAppsNoSamples(files: map<Path, string>, base: Path, w: Wording, entries: seq<(string, string)>, n: nat)
    requires WellShaped(w) && ValidTable(entries) && n <= |entries|
    requires forall j :: 0 <= j < n ==> !HasApp(files, base, entries[j].1)
    ensures SamplesOf(files, base, w, entries, n) == []
  {
    if n > 0 {
      NoAppsNoSamples(files, base, w, entries, n - 1);
    }
  }

  /** Every directory found is one of the table's first `n`, and its `app.py` exists. */
  lemma {:induction false} PresentFrom(files: map<Path, string>, base: Path, entries: seq<(string, string)>, n: nat)
    requires ValidTable(entries) && n <= |entries|
    ensures forall k :: 0 <= k < |Present(files, base, entries, n)| ==> HasApp(files, base, Present(files, base, entries, n)[k])
    ensures forall k :: 0 <= k < |Present(files, base, entries, n)| ==>
              exists j :: 0 <= j < n && Present(files, base, entries, n)[k] == entries[j].1
  {
    if n > 0 {
      PresentFrom(files, base, entries, n - 1);
      var p := Present(files, base, entries, n);
      var q := Present(files, base, entries, n - 1);
      var last := entries[n - 1].1;
      if HasApp(files, base, last) {
        assert p == q + [last];
      } else {
        assert p == q;
      }
      forall k | 0 <= k < |p|
        ensures HasApp(files, base, p[k])
        ensures exists j :: 0 <= j < n && p[k] == entries[j].1
      {
        if k < |q| {
          var j :| 0 <= j < n - 1 && q[k] == entries[j].1;
          assert p[k] == q[k];
        } else {
          assert p[k] == entries[n - 1].1;
        }
      }
    } else {
      assert Present(files, base, entries, n) == [];
    }
  }

  /** The directories found on disk are distinct when the table's are. */
  lemma {:induction false} PresentDistinct(files: map<Path, string>, base: Path, entries: seq<(string, string)>, n: nat)
    requires ValidTable(entries) && DistinctDirs(entries) && n <= |entries|
    ensures forall i, j :: 0 <= i < j < |Present(files, base, entries, n)| ==>
              Present(files, base, entries, n)[i] != Present(files, base, entries, n)[j]
  {
    if n > 0 {
      PresentDistinct(files, base, entries, n - 1);
      PresentFrom(files, base, entries, n - 1);
      var p := Present(files, base, entries, n - 1);
      forall k | 0 <= k < |p|
        ensures p[k] != entries[n - 1].1
      {
        var j :| 0 <= j < n - 1 && p[k] == entries[j].1;
      }
    }
  }

  /** Sample ids are unique when the table's directories are. */
  lemma SampleIdsDistinct(files: map<Path, string>, base: Path, w: Wording, entries: seq<(string, string)>)
    requires WellShaped(w) && ValidTable(entries) && DistinctDirs(entries)
    ensures forall i, j :: 0 <= i < j < |SamplesOf(files, base, w, entries, |entries|)| ==>
              SamplesOf(files, base, w, entries, |entries|)[i].id != SamplesOf(files, base, w, entries, |entries|)[j].id
  {
    SampleIds(files, base, w, entries, |entries|);
    PresentDistinct(files, base, entries, |entries|);
    var s := SamplesOf(files, base, w, entries, |entries|);
    forall i, j | 0 <= i < j < |s|
      ensures s[i].id != s[j].id
    {
      assert s[i].id == Ids(s)[i] && s[j].id == Ids(s)[j];
    }
  }

  /**
   * The content list of one app, built as `_build_samples` builds it: the
   * evaluation prompt first, then caption and image for each screenshot
   * that exists, before first.
   */
  method AssembleContent(files: map<Path, string>, base: Path, w: Wording, framework: string, dir: string)
    returns (content: seq<Content>)
    requires WellShaped(w) && IsComponent(dir) && CodeFile(base, dir) in files
    ensures content == ContentOf(files, base, w, framework, dir)
  {
    var beforePath := BeforeShot(base, dir);
    var afterPath := AfterShot(base, dir);
    content := [TextPart(EvalText(w, framework, files[CodeFile(base, dir)]))];
    if beforePath in files {
      content := content + [TextPart(w.beforeCaption)];
      content := content + [ImagePart(ToString(beforePath))];
    }
    if afterPath in files {
      content := content + [TextPart(w.afterCaption)];
      content := content + [ImagePart(ToString(afterPath))];
    }
  }

  /**
   * The loop of `_build_samples` over a table: an app whose `app.py` is
   * missing is skipped, every other app gets its sample appended.
   */
  method CollectSamples(files: map<Path, string>, base: Path, w: Wording, entries: seq<(string, string)>)
    returns (samples: seq<Sample>)
    requires WellShaped(w) && ValidTable(entries)
    ensures samples == SamplesOf(files, base, w, entries, |entries|)
  {
    samples := [];
    for i := 0 to |entries|
      invariant samples == SamplesOf(files, base, w, entries, i)
    {
      var (framework, dirname) := entries[i];
      if !HasApp(files, base, dirname) {
        continue;
      }
      var content := AssembleContent(files, base, w, framework, dirname);
      samples := samples + [Sample(content, w.target, dirname, framework)];
    }
  }

  /** `_build_samples`: the samples of the four apps, with the script's own wording. */
  method BuildSamples(files: map<Path, string>, base: Path) returns (samples: seq<Sample>)
    ensures samples == SamplesOf(files, base, SampleWording, Frameworks, |Frameworks|)
    ensures Ids(samples) == Present(files, base, Frameworks, |Frameworks|)
  {
    SampleWordingShaped();
    FrameworksTable();
    samples := CollectSamples(files, base, SampleWording, Frameworks);
    SampleIds(files, base, SampleWording, Frameworks, |Frameworks|);
  }
}

=== FILE: gate3_inspect.dfy ===
/**
 * Gate 3: a solver model looks at the before and after screenshots of each
 * app and answers `ANSWER: PASS|FAIL`; a grader model judges that verdict.
 * The model calls, the imports and the files on disk are oracles; what is
 * modelled is which cases become samples, how the verdict is read out of the
 * solver's reply, which score is used and how `passed` is decided.
 */
module Gate3Inspect {
  import opened Wrappers
  import opened Text
  import opened Paths
  import opened Specs
  import opened Prompts

  /** One app to be judged: its identity, its directory and its two screenshots. */
  datatype Gate3Case = Gate3Case(
    framework: Framework,
    level: ChallengeLevel,
    modelId: string,
    outputDir: Path,
    screenshotBeforePath: Path,
    screenshotAfterPath: Path)

  // Reading the verdict: `^\s*ANSWER\s*:\s*(PASS|FAIL)\s*$` with IGNORECASE and MULTILINE.

  /**
   * `c` matches the upper-case pattern letter `u` when case is ignored.  Python
   * folds the long s into `s` and both dotted and dotless i into `i`.
   */
  predicate Matches(c: char, u: char) {
    c == u || c as int == u as int + 32
    || (u == 'S' && c == '\U{17F}')
    || (u == 'I' && (c == '\U{131}' || c == '\U{130}'))
  }

  /** `ANSWER` at `i`, case ignored. */
  predicate AnswerWordAt(s: string, i: nat) {
    i + 6 <= |s| && Matches(s[i], 'A') && Matches(s[i + 1], 'N') && Matches(s[i + 2], 'S')
    && Matches(s[i + 3], 'W') && Matches(s[i + 4], 'E') && Matches(s[i + 5], 'R')
  }

  /** `PASS` at `i`, case ignored. */
  predicate PassAt(s: string, i: nat) {
    i + 4 <= |s| && Matches(s[i], 'P') && Matches(s[i + 1], 'A') && Matches(s[i + 2], 'S') && Matches(s[i + 3], 'S')
  }

  /** `FAIL` at `i`, case ignored. */
  predicate FailAt(s: string, i: nat) {
    i + 4 <= |s| && Matches(s[i], 'F') && Matches(s[i + 1], 'A') && Matches(s[i + 2], 'I') && Matches(s[i + 3], 'L')
  }

  /** A verdict token: four characters spelling `PASS` or `FAIL`, case ignored. */
  predicate Token(t: string) {
    |t| == 4 && (PassAt(t, 0) || FailAt(t, 0))
  }

  /** A position where `^` holds in multi-line mode. */
  predicate LineStart(s: string, i: nat)
    requires i <= |s|
  {
    i == 0 || s[i - 1] == '\n'
  }

  /** The token at `m` when it is followed by whitespace up to a line end (`(PASS|FAIL)\s*$`). */
  function TokenAt(s: string, m: nat): (r: Option<string>)
    requires m <= |s|
    ensures r.Some? ==> m + 4 <= |s| && r.value == s[m..m + 4] && Token(r.value)
  {
    if !(PassAt(s, m) || FailAt(s, m)) then None
    else
      var e := SkipSpace(s, m + 4);
      if e == |s| || '\n' in s[m + 4..e] then
        var t := s[m..m + 4];
        assert t[0] == s[m] && t[1] == s[m + 1] && t[2] == s[m + 2] && t[3] == s[m + 3];
        Some(t)
      else None
  }

  /** The rest of the pattern from `k`: `:\s*` and the token. */
  function ColonAt(s: string, k: nat): (r: Option<string>)
    requires k <= |s|
    ensures r.Some? ==> Token(r.value)
  {
    if k == |s| || s[k] != ':' then None else TokenAt(s, SkipSpace(s, k + 1))
  }

  /** The rest of the pattern from `j`: `ANSWER\s*` and what follows it. */
  function AnswerFrom(s: string, j: nat): (r: Option<string>)
    requires j <= |s|
    ensures r.Some? ==> Token(r.value)
  {
    if !AnswerWordAt(s, j) then None else ColonAt(s, SkipSpace(s, j + 6))
  }

  /**
   * The verdict token when the pattern matches from `i`: a greedy `\s*` can
   * only stop before `ANSWER`, and `\s*$` succeeds when the run of
   * whitespace after the token reaches the end or holds a line break.
   */
  function AnswerAt(s: string, i: nat): (r: Option<string>)
    ensures r.Some? ==> Token(r.value)
  {
    if i > |s| || !LineStart(s, i) then None else AnswerFrom(s, SkipSpace(s, i))
  }

  /** The first `f(k)` with a value, for `k` from `i` to `n`: how `re.search` picks the leftmost match. */
  function Leftmost(f: nat -> Option<string>, i: nat, n: nat): (r: Option<string>)
    ensures r.Some? <==> exists k :: i <= k <= n && f(k).Some?
    ensures r.Some? ==> exists k :: i <= k <= n && f(k) == r && forall j :: i <= j < k ==> f(j).None?
    decreases n - i
  {
    if i > n then None
    else if f(i).Some? then f(i)
    else Leftmost(f, i + 1, n)
  }

  /** `_ANSWER_RE.search(s)`: the token of the match that starts first. */
  function FirstAnswer(s: string): (r: Option<string>)
    ensures r.Some? <==> exists k :: 0 <= k <= |s| && AnswerAt(s, k).Some?
    ensures r.Some? ==> exists k :: 0 <= k <= |s| && AnswerAt(s, k) == r && forall j :: 0 <= j < k ==> AnswerAt(s, j).None?
    ensures r.Some? ==> Token(r.value)
  {
    var f := (k: nat) => AnswerAt(s, k);
    assert forall k: nat :: f(k) == AnswerAt(s, k);
    Leftmost(f, 0, |s|)
  }

  /** `str.upper()` on one character of a matched token. */
  function UpperChar(c: char): char {
    if 'a' <= c <= 'z' then (c as int - 32) as char
    else if c == '\U{131}' then 'I'
    else if c == '\U{17F}' then 'S'
    else c
  }

  function Upper(s: string): (r: string)
    ensures |r| == |s| && forall k :: 0 <= k < |s| ==> r[k] == UpperChar(s[k])
  {
    seq(|s|, k requires 0 <= k < |s| => UpperChar(s[k]))
  }

  /** `_extract_answer` as written: the matched token, upper-cased. */
  function ExtractAnswerAsWritten(completion: Option<string>): Option<string> {
    match FirstAnswer(completion.GetOr(""))
    case None => None
    case Some(t) => Some(Upper(t))
  }

  /** `_extract_answer` as intended: the verdict the matched token spells. */
  function ExtractAnswer(completion: Option<string>): (r: Option<string>)
    ensures r == None || r == Some("PASS") || r == Some("FAIL")
    ensures r.None? <==> ExtractAnswerAsWritten(completion).None?
  {
    match FirstAnswer(completion.GetOr(""))
    case None => None
    case Some(t) => if PassAt(t, 0) then Some("PASS") else Some("FAIL")
  }

  /** Upper-casing a token gives its verdict back unless the token holds a dotted capital I. */
  lemma UpperToken(t: string)
    requires Token(t) && '\U{130}' !in t
    ensures Upper(t) == if PassAt(t, 0) then "PASS" else "FAIL"
  {
    var u := Upper(t);
    assert u[0] == UpperChar(t[0]) && u[1] == UpperChar(t[1]) && u[2] == UpperChar(t[2]) && u[3] == UpperChar(t[3]);
    assert t[0] != '\U{130}' && t[1] != '\U{130}' && t[2] != '\U{130}' && t[3] != '\U{130}';
    if PassAt(t, 0) {
      assert u == ['P', 'A', 'S', 'S'];
    } else {
      assert u == ['F', 'A', 'I', 'L'];
    }
  }

  /** Upper-casing neither creates nor removes a dotted capital I. */
  lemma UpperKeepsDotted(t: string)
    ensures '\U{130}' in Upper(t) <==> '\U{130}' in t
  {
    var u := Upper(t);
    if '\U{130}' in u {
      var k :| 0 <= k < |u| && u[k] == '\U{130}';
      assert UpperChar(t[k]) == '\U{130}';
    }
    if '\U{130}' in t {
      var k :| 0 <= k < |t| && t[k] == '\U{130}';
      assert u[k] == '\U{130}';
    }
  }

  /** The two readings agree on every reply whose token has no dotted capital I. */
  lemma ExtractAnswerAgrees(completion: Option<string>)
    requires ExtractAnswerAsWritten(completion).Some? ==> '\U{130}' !in ExtractAnswerAsWritten(completion).value
    ensures ExtractAnswerAsWritten(completion) == ExtractAnswer(completion)
  {
    var r := FirstAnswer(completion.GetOr(""));
    if r.Some? {
      var t := r.value;
      assert ExtractAnswerAsWritten(completion) == Some(Upper(t));
      UpperKeepsDotted(t);
      UpperToken(t);
    }
  }

  /**
   * A reply that opens with a verdict line is read as that verdict, whatever
   * whitespace (line breaks included) separates the colon from the token and
   * whatever follows on later lines.
   */
  lemma VerdictLine(ws: string, tok: string, rest: string)
    requires Token(tok) && AllSpace(ws) && (rest == [] || rest[0] == '\n')
    ensures FirstAnswer("ANSWER:" + ws + tok + rest) == Some(tok)
    ensures ExtractAnswer(Some("ANSWER:" + ws + tok + rest)) == Some(if PassAt(tok, 0) then "PASS" else "FAIL")
    ensures ExtractAnswerAsWritten(Some("ANSWER:" + ws + tok + rest)) == Some(Upper(tok))
  {
    var s := "ANSWER:" + ws + tok + rest;
    VerdictAt(s, ws, tok, rest);
  }

  /** The verdict line read from its start. */
  lemma VerdictAt(s: string, ws: string, tok: string, rest: string)
    requires Token(tok) && AllSpace(ws) && (rest == [] || rest[0] == '\n')
    requires s == "ANSWER:" + ws + tok + rest
    ensures AnswerAt(s, 0) == Some(tok)
  {
    var m := 7 + |ws|;
    VerdictHead(s, ws, tok, rest);
    var e := SkipSpace(s, m + 4);
    if e < |s| {
      assert rest != [] && s[m + 4] == rest[0];
      assert s[m + 4..e][0] == '\n';
    }
    assert TokenAt(s, m) == Some(tok);
  }

  /** The keyword, the colon and the whitespace before the token of a verdict line. */
  lemma VerdictHead(s: string, ws: string, tok: string, rest: string)
    requires Token(tok) && AllSpace(ws)
    requires s == "ANSWER:" + ws + tok + rest
    ensures AnswerWordAt(s, 0) && SkipSpace(s, 0) == 0 && SkipSpace(s, 6) == 6
    ensures SkipSpace(s, 7) == 7 + |ws| && s[7 + |ws|..11 + |ws|] == tok
    ensures PassAt(s, 7 + |ws|) == PassAt(tok, 0) && FailAt(s, 7 + |ws|) == FailAt(tok, 0)
  {
    var m := 7 + |ws|;
    assert s[0] == 'A' && s[1] == 'N' && s[2] == 'S' && s[3] == 'W' && s[4] == 'E' && s[5] == 'R' && s[6] == ':';
    assert AnswerWordAt(s, 0);
    assert SkipSpace(s, 0) == 0;
    assert SkipSpace(s, 6) == 6;
    assert forall q :: 0 <= q < 4 ==> s[m + q] == tok[q];
    assert SkipSpace(s, 7) == m by {
      assert SkipSpace(s, m) == m;
      assert forall q :: 7 <= q < m ==> s[q] == ws[q - 7];
      SkipSpaceRun(s, 7, m);
    }
    assert PassAt(s, m) == PassAt(tok, 0) && FailAt(s, m) == FailAt(tok, 0);
    assert s[m..m + 4] == tok;
  }

  /** Prose after the verdict on the same line stops the match. */
  lemma TrailingProse(ws: string, tok: string, gap: string, prose: string)
    requires Token(tok) && AllSpace(ws) && AllSpace(gap) && prose != [] && !IsSpace(prose[0])
    requires '\n' !in ws && '\n' !in tok && '\n' !in gap && '\n' !in prose
    ensures FirstAnswer("ANSWER:" + ws + tok + gap + prose) == None
  {
    var s := "ANSWER:" + ws + tok + gap + prose;
    var m := 7 + |ws|;
    assert forall q :: 0 <= q < |s| ==> s[q] != '\n';
    forall k | 0 < k <= |s|
      ensures AnswerAt(s, k) == None
    {
      assert s[k - 1] != '\n';
    }
    assert forall q :: 0 <= q < 4 ==> s[m + q] == tok[q];
    assert SkipSpace(s, 0) == 0 && SkipSpace(s, 6) == 6;
    assert SkipSpace(s, 7) == m by {
      assert SkipSpace(s, m) == m;
      assert forall q :: 7 <= q < m ==> s[q] == ws[q - 7];
      SkipSpaceRun(s, 7, m);
    }
    var p := m + 4 + |gap|;
    assert SkipSpace(s, m + 4) == p by {
      assert s[p] == prose[0];
      assert forall q :: m + 4 <= q < p ==> s[q] == gap[q - m - 4];
      SkipSpaceRun(s, m + 4, p);
    }
    assert '\n' !in s[m + 4..p];
    assert AnswerAt(s, 0) == None;
  }

  /** `FAIL` spelled with a dotted capital I (U+0130), which `re.IGNORECASE` equates with `I`. */
  const DottedFail: string := "FA\U{130}L"

  lemma DottedFailToken()
    ensures Token(DottedFail) && FailAt(DottedFail, 0) && !PassAt(DottedFail, 0)
    ensures Upper(DottedFail) == DottedFail
  {
    var u := Upper(DottedFail);
    assert u[0] == UpperChar('F') && u[1] == UpperChar('A') && u[2] == UpperChar('\U{130}') && u[3] == UpperChar('L');
  }

  /** The defect: a verdict spelled with a dotted capital I is read as `FAİL`, which is neither verdict. */
  lemma DottedFailAsWritten()
    ensures ExtractAnswerAsWritten(Some("ANSWER:" + " " + DottedFail + "")) == Some(DottedFail)
    ensures ExtractAnswer(Some("ANSWER:" + " " + DottedFail + "")) == Some("FAIL")
  {
    DottedFailToken();
    VerdictLine(" ", DottedFail, "");
  }

  /** Nothing, or an empty reply, gives no verdict. */
  lemma NoReplyNoVerdict()
    ensures ExtractAnswer(None) == None && ExtractAnswer(Some("")) == None
  {
    assert AnswerAt("", 0) == None;
  }

  // Scores and the verdict.

  /** A grader score: `score.as_str()` and its explanation. */
  datatype Score = Score(text: string, explanation: Option<string>)

  /** One item of a sample's score dictionary, which is kept in insertion order. */
  datatype ScoreEntry = ScoreEntry(key: string, score: Score)

  /** `scores.get(key)`. */
  function Lookup(entries: seq<ScoreEntry>, key: string): (r: Option<Score>)
    ensures r.Some? <==> exists k :: 0 <= k < |entries| && entries[k].key == key
    ensures r.Some? ==> exists k :: 0 <= k < |entries| && entries[k] == ScoreEntry(key, r.value)
  {
    if entries == [] then None
    else if entries[0].key == key then Some(entries[0].score)
    else
      var r := Lookup(entries[1..], key);
      assert forall k :: 1 <= k < |entries| ==> entries[k] == entries[1..][k - 1];
      r
  }

  const GraderKey: string := "model_graded_qa"

  /**
   * The score `gate3_grade_screenshots` uses: the `model_graded_qa` entry,
   * else the only entry when there is exactly one.
   */
  function SelectScore(entries: seq<ScoreEntry>): (r: Option<Score>)
    ensures r.Some? <==> Lookup(entries, GraderKey).Some? || |entries| == 1
    ensures Lookup(entries, GraderKey).Some? ==> r == Lookup(entries, GraderKey)
    ensures Lookup(entries, GraderKey).None? && |entries| == 1 ==> r == Some(entries[0].score)
  {
    if entries == [] then None
    else
      match Lookup(entries, GraderKey)
      case Some(s) => Some(s)
      case None => if |entries| == 1 then Some(entries[0].score) else None
  }

  /**
   * `passed`: known only when the scoring model says `C` and the solver gave a
   * verdict, and then true exactly for `PASS`.
   */
  function Passed(graderValue: string, answer: Option<string>): (r: Option<bool>)
    ensures r.Some? <==> graderValue == "C" && (answer == Some("PASS") || answer == Some("FAIL"))
    ensures r == Some(true) <==> graderValue == "C" && answer == Some("PASS")
    ensures r == Some(false) <==> graderValue == "C" && answer == Some("FAIL")
  {
    if graderValue == "C" && (answer == Some("PASS") || answer == Some("FAIL")) then Some(answer == Some("PASS"))
    else None
  }

  /** One sample of the evaluation log; `completion` is `None` when reading it raised. */
  datatype LogSample = LogSample(id: string, completion: Option<string>, scores: seq<ScoreEntry>)

  const NoScoreError: string := "No model_graded_qa score found on sample."

  /** The record for one logged sample. */
  function SampleResult(sample: LogSample, location: Option<string>): (r: Gate3Result)
    ensures r.ok <==> SelectScore(sample.scores).Some?
    ensures r.solverAnswer == ExtractAnswer(sample.completion) && r.inspectLog == location
    ensures !r.ok ==> r.error == Some(NoScoreError) && r.passed == None && r.graderScore == None
    ensures r.ok ==> (r.error == None && r.graderScore == Some(SelectScore(sample.scores).value.text)
      && r.graderExplanation == SelectScore(sample.scores).value.explanation)
    ensures r.passed.Some? <==> r.ok && r.graderScore == Some("C") && r.solverAnswer.Some?
    ensures r.passed == Some(true) <==> r.ok && r.graderScore == Some("C") && r.solverAnswer == Some("PASS")
  {
    var answer := ExtractAnswer(sample.completion);
    match SelectScore(sample.scores)
    case None =>
      Gate3Result(ok := false, solverAnswer := answer, inspectLog := location, error := Some(NoScoreError))
    case Some(score) =>
      Gate3Result(ok := true, passed := Passed(score.text, answer), solverAnswer := answer,
        graderScore := Some(score.text), graderExplanation := score.explanation, inspectLog := location)
  }

  /**
   * The dictionary a loop builds by storing `val(x)` under `key(x)` for each
   * item in turn: a later item with the same key replaces an earlier one.
   */
  function KeyedBy<T, V>(items: seq<T>, key: T -> string, val: T -> V): map<string, V> {
    if items == [] then map[]
    else KeyedBy(items[..|items| - 1], key, val)[key(items[|items| - 1]) := val(items[|items| - 1])]
  }

  /** Every item has an entry under its key. */
  lemma {:induction false} KeyedByCovers<T, V>(items: seq<T>, key: T -> string, val: T -> V)
    ensures forall k :: 0 <= k < |items| ==> key(items[k]) in KeyedBy(items, key, val)
  {
    if items != [] {
      var init := items[..|items| - 1];
      KeyedByCovers(init, key, val);
      assert forall k :: 0 <= k < |init| ==> init[k] == items[k];
    }
  }

  /** Every entry belongs to an item. */
  lemma {:induction false} KeyedByOnly<T, V>(items: seq<T>, key: T -> string, val: T -> V)
    ensures forall id :: id in KeyedBy(items, key, val) ==> exists k :: 0 <= k < |items| && key(items[k]) == id
  {
    if items != [] {
      var init := items[..|items| - 1];
      KeyedByOnly(init, key, val);
      forall id | id in KeyedBy(items, key, val)
        ensures exists k :: 0 <= k < |items| && key(items[k]) == id
      {
        if id != key(items[|items| - 1]) {
          assert id in KeyedBy(init, key, val);
          var k :| 0 <= k < |init| && key(init[k]) == id;
          assert items[k] == init[k];
        }
      }
    }
  }

  /** The entry under a key is the value of the last item with that key. */
  lemma {:induction false} KeyedByLast<T, V>(items: seq<T>, key: T -> string, val: T -> V, k: nat)
    requires k < |items|
    requires forall j :: k < j < |items| ==> key(items[j]) != key(items[k])
    ensures key(items[k]) in KeyedBy(items, key, val)
    ensures KeyedBy(items, key, val)[key(items[k])] == val(items[k])
  {
    var n := |items| - 1;
    if k < n {
      var init := items[..n];
      assert init[k] == items[k];
      forall j | k < j < |init|
        ensures key(init[j]) != key(init[k])
      {
        assert init[j] == items[j];
      }
      KeyedByLast(init, key, val, k);
    }
  }

  /** The results dictionary of `gate3_grade_screenshots`: each logged sample's record, under its id. */
  function ResultsOf(samples: seq<LogSample>, location: Option<string>): map<string, Gate3Result> {
    KeyedBy(samples, (x: LogSample) => x.id, (x: LogSample) => SampleResult(x, location))
  }

  /**
   * Every logged sample has a record under its id, every record belongs to a
   * sample, and it is the record of the last sample with that id.
   */
  lemma ResultsOfKeys(samples: seq<LogSample>, location: Option<string>)
    ensures forall k :: 0 <= k < |samples| ==> samples[k].id in ResultsOf(samples, location)
    ensures forall id :: id in ResultsOf(samples, location) ==> exists k :: 0 <= k < |samples| && samples[k].id == id
    ensures forall k :: 0 <= k < |samples| && LastWithId(samples, k) ==> ResultsOf(samples, location)[samples[k].id] == SampleResult(samples[k], location)
  {
    var key := (x: LogSample) => x.id;
    var val := (x: LogSample) => SampleResult(x, location);
    KeyedByCovers(samples, key, val);
    KeyedByOnly(samples, key, val);
    forall k | 0 <= k < |samples| && LastWithId(samples, k)
      ensures ResultsOf(samples, location)[samples[k].id] == SampleResult(samples[k], location)
    {
      KeyedByLast(samples, key, val, k);
    }
  }

  /** No sample after the `k`-th has its id. */
  predicate LastWithId(samples: seq<LogSample>, k: int)
    requires 0 <= k < |samples|
  {
    forall j :: k < j < |samples| ==> samples[j].id != samples[k].id
  }

  /** One more logged sample adds its record under its id. */
  lemma ResultsStep(samples: seq<LogSample>, location: Option<string>, i: nat)
    requires i < |samples|
    ensures ResultsOf(samples[..i + 1], location) == ResultsOf(samples[..i], location)[samples[i].id := SampleResult(samples[i], location)]
  {
    assert samples[..i + 1][..i] == samples[..i];
  }

  /** The results loop of `gate3_grade_screenshots`. */
  method CollectResults(samples: seq<LogSample>, location: Option<string>) returns (results: map<string, Gate3Result>)
    ensures results == ResultsOf(samples, location)
  {
    results := map[];
    var i := 0;
    while i < |samples|
      invariant 0 <= i <= |samples|
      invariant results == ResultsOf(samples[..i], location)
    {
      ResultsStep(samples, location, i);
      results := results[samples[i].id := SampleResult(samples[i], location)];
      i := i + 1;
    }
    assert samples[..i] == samples;
  }

  // Building the samples.

  /** The fixed opening lines of the question each sample asks. */
  const QuestionHead: seq<string> := [
    "Decide whether the attached screenshots show a functional app",
    "that meets the TASK requirements and responds to the UI interaction.",
    "Return a verdict in this exact format:",
    "ANSWER: PASS|FAIL",
    "REASON: <one short sentence>",
    ""
  ]

  const NoteLine: string := "NOTE: Screenshot 1 is before clicking, screenshot 2 is after."

  function FrameworkLine(framework: Framework): string {
    "FRAMEWORK: " + FrameworkValue(framework)
  }

  /** The lines of a case's question; the task is the level's challenge for the case's framework. */
  function QuestionLines(c: Gate3Case): seq<string> {
    QuestionHead + [FrameworkLine(c.framework), TaskLine(c.level, c.framework), NoteLine]
  }

  /** A sample given to the evaluation: its id, the two screenshots, the question and the case's metadata. */
  datatype Sample = Sample(
    id: string,
    beforeImage: string,
    afterImage: string,
    question: string,
    framework: string,
    level: string,
    modelId: string)

  function SampleOf(c: Gate3Case): Sample {
    Sample(
      id := ToString(c.outputDir),
      beforeImage := ToString(c.screenshotBeforePath),
      afterImage := ToString(c.screenshotAfterPath),
      question := Join(QuestionLines(c), "\n"),
      framework := FrameworkValue(c.framework),
      level := LevelValue(c.level),
      modelId := c.modelId)
  }

  /** Every question carries the case's task, with the framework filled in. */
  lemma QuestionMentionsTask(c: Gate3Case)
    ensures Contains(SampleOf(c).question, TaskText(c.level, c.framework))
  {
    var lines := QuestionLines(c);
    assert |QuestionHead| == 6 && lines[7] == TaskLine(c.level, c.framework);
    JoinContains(lines, "\n", 7);
    ContainsEnd(TaskLead, TaskText(c.level, c.framework));
    ContainsTransitive(Join(lines, "\n"), lines[7], TaskText(c.level, c.framework));
  }

  /** Both screenshots of the case are on disk. */
  predicate Ready(c: Gate3Case, existing: set<Path>) {
    c.screenshotBeforePath in existing && c.screenshotAfterPath in existing
  }

  /** The samples built from the cases, in order: a case with a missing screenshot contributes none. */
  function SamplesOf(cases: seq<Gate3Case>, existing: set<Path>): (r: seq<Sample>)
    ensures |r| <= |cases|
  {
    if cases == [] then []
    else
      var last := cases[|cases| - 1];
      SamplesOf(cases[..|cases| - 1], existing) + (if Ready(last, existing) then [SampleOf(last)] else [])
  }

  /** The samples of all cases are those of all but the last, then the last case's own. */
  lemma SamplesSnoc(cases: seq<Gate3Case>, existing: set<Path>)
    requires cases != []
    ensures cases == cases[..|cases| - 1] + [cases[|cases| - 1]]
    ensures SamplesOf(cases, existing) ==
      SamplesOf(cases[..|cases| - 1], existing) + (if Ready(cases[|cases| - 1], existing) then [SampleOf(cases[|cases| - 1])] else [])
  {
  }

  /** Every sample comes from a case with both screenshots. */
  lemma {:induction false} SampleFromReady(cases: seq<Gate3Case>, existing: set<Path>, s: Sample)
    requires s in SamplesOf(cases, existing)
    ensures exists c :: c in cases && Ready(c, existing) && s == SampleOf(c)
  {
    SamplesSnoc(cases, existing);
    var init := cases[..|cases| - 1];
    var last := cases[|cases| - 1];
    if s in SamplesOf(init, existing) {
      SampleFromReady(init, existing, s);
      var c :| c in init && Ready(c, existing) && s == SampleOf(c);
      assert c in cases;
    } else {
      assert last in cases;
    }
  }

  /** Every case with both screenshots gives its sample. */
  lemma {:induction false} ReadyGivesSample(cases: seq<Gate3Case>, existing: set<Path>, c: Gate3Case)
    requires c in cases && Ready(c, existing)
    ensures SampleOf(c) in SamplesOf(cases, existing)
  {
    SamplesSnoc(cases, existing);
    var init := cases[..|cases| - 1];
    if c in init {
      ReadyGivesSample(init, existing, c);
    }
  }

  /** Every sample comes from a case with both screenshots, and every such case gives its sample. */
  lemma SampleSources(cases: seq<Gate3Case>, existing: set<Path>)
    ensures forall s :: s in SamplesOf(cases, existing) ==> exists c :: c in cases && Ready(c, existing) && s == SampleOf(c)
    ensures forall c :: c in cases && Ready(c, existing) ==> SampleOf(c) in SamplesOf(cases, existing)
  {
    forall s | s in SamplesOf(cases, existing)
      ensures exists c :: c in cases && Ready(c, existing) && s == SampleOf(c)
    {
      SampleFromReady(cases, existing, s);
    }
    forall c | c in cases && Ready(c, existing)
      ensures SampleOf(c) in SamplesOf(cases, existing)
    {
      ReadyGivesSample(cases, existing, c);
    }
  }

  /** One more case adds its sample when both its screenshots exist. */
  lemma SamplesStep(cases: seq<Gate3Case>, existing: set<Path>, i: nat)
    requires i < |cases|
    ensures SamplesOf(cases[..i + 1], existing) ==
      SamplesOf(cases[..i], existing) + (if Ready(cases[i], existing) then [SampleOf(cases[i])] else [])
  {
    assert cases[..i + 1][..i] == cases[..i];
  }

  /** The sample loop of `gate3_grade_screenshots`: skip a case missing a screenshot, append the rest. */
  method BuildSamples(cases: seq<Gate3Case>, existing: set<Path>) returns (samples: seq<Sample>)
    ensures samples == SamplesOf(cases, existing)
  {
    samples := [];
    var i := 0;
    while i < |cases|
      invariant 0 <= i <= |cases|
      invariant samples == SamplesOf(cases[..i], existing)
    {
      SamplesStep(cases, existing, i);
      if Ready(cases[i], existing) {
        samples := samples + [SampleOf(cases[i])];
      }
      i := i + 1;
    }
    assert cases[..|cases|] == cases;
  }

  // The whole gate.

  /** One evaluation log: its samples and where it was written. */
  datatype EvalLog = EvalLog(samples: seq<LogSample>, location: Option<string>)

  /** What Gate 3 depends on outside the model. */
  datatype Gate3Env = Gate3Env(
    existing: set<Path>,
    chatlasImport: Outcome,
    inspectImport: Outcome,
    setup: Outcome,
    hasToSolver: bool,
    evaluate: seq<Sample> -> Result<seq<EvalLog>, PyException>)

  const ChatlasMissing: PyException := PyException("RuntimeError",
    "Gate 3 requires chatlas eval integration. Install with `pip install 'chatlas[eval]'`.")
  const InspectMissing: PyException := PyException("RuntimeError",
    "Gate 3 requires inspect-ai. Install with `pip install inspect-ai`.")

  /** Both imports succeeded. */
  predicate Imported(env: Gate3Env)
  {
    !env.chatlasImport.Raised? && !env.inspectImport.Raised?
  }

  /** The imports succeeded, the setup did not raise and the chat offers `to_solver`. */
  predicate Prepared(env: Gate3Env)
  {
    Imported(env) && !env.setup.Raised? && env.hasToSolver
  }

  /**
   * `gate3_grade_screenshots`: results keyed by sample id, an empty dictionary
   * when there is nothing to grade, or the exception that escapes.
   */
  function Gate3Grade(cases: seq<Gate3Case>, env: Gate3Env): (r: Result<map<string, Gate3Result>, PyException>)
    ensures cases == [] ==> r == Success(map[])
    ensures cases != [] && env.chatlasImport.Raised? ==> r == Failure(ChatlasMissing)
    ensures cases != [] && !env.chatlasImport.Raised? && env.inspectImport.Raised? ==> r == Failure(InspectMissing)
    ensures cases != [] && Imported(env) && env.setup.Raised? ==> r == Failure(env.setup.exc)
    ensures cases != [] && Imported(env) && !env.setup.Raised? && !env.hasToSolver ==> r == Failure(ChatlasMissing)
    ensures cases != [] && Prepared(env) && SamplesOf(cases, env.existing) != [] ==>
      var logs := env.evaluate(SamplesOf(cases, env.existing));
      && (logs.Failure? ==> r == Failure(logs.error))
      && (logs.Success? && logs.value == [] ==> r == Success(map[]))
    ensures r.Failure? <==>
      && cases != []
      && (!Prepared(env) || (SamplesOf(cases, env.existing) != [] && env.evaluate(SamplesOf(cases, env.existing)).Failure?))
    ensures SamplesOf(cases, env.existing) == [] && r.Success? ==> r.value == map[]
    ensures r.Success? && r.value != map[] ==>
      var logs := env.evaluate(SamplesOf(cases, env.existing));
      logs.Success? && logs.value != [] && r.value == ResultsOf(logs.value[0].samples, logs.value[0].location)
  {
    if cases == [] then Success(map[])
    else if env.chatlasImport.Raised? then Failure(ChatlasMissing)
    else if env.inspectImport.Raised? then Failure(InspectMissing)
    else if env.setup.Raised? then Failure(env.setup.exc)
    else if !env.hasToSolver then Failure(ChatlasMissing)
    else
      var samples := SamplesOf(cases, env.existing);
      if samples == [] then Success(map[])
      else
        match env.evaluate(samples)
        case Failure(e) => Failure(e)
        case Success(logs) =>
          if logs == [] then Success(map[])
          else Success(ResultsOf(logs[0].samples, logs[0].location))
  }

  /** `gate3_grade_screenshots` step by step, with its two loops. */
  method Gate3GradeScreenshots(cases: seq<Gate3Case>, env: Gate3Env) returns (r: Result<map<string, Gate3Result>, PyException>)
    ensures r == Gate3Grade(cases, env)
  {
    if cases == [] {
      return Success(map[]);
    }
    if env.chatlasImport.Raised? {
      return Failure(ChatlasMissing);
    }
    if env.inspectImport.Raised? {
      return Failure(InspectMissing);
    }
    if env.setup.Raised? {
      return Failure(env.setup.exc);
    }
    if !env.hasToSolver {
      return Failure(ChatlasMissing);
    }
    var samples := BuildSamples(cases, env.existing);
    if samples == [] {
      return Success(map[]);
    }
    var logs := env.evaluate(samples);
    if logs.Failure? {
      return Failure(logs.error);
    }
    if logs.value == [] {
      return Success(map[]);
    }
    var results := CollectResults(logs.value[0].samples, logs.value[0].location);
    return Success(results);
  }
}

=== FILE: gates.dfy ===
/**
 * Gate 1 (does the app compile) and Gate 2 (does it start, answer HTTP 200
 * and let a browser capture a "before" and an "after" screenshot).
 *
 * Everything the gates do to the outside world is an oracle: the compiler's
 * verdict, the `uv` and `Popen` calls, the clock readings and HTTP
 * responses of the readiness loop, the browser sessions and whether the
 * process stops within ten seconds of SIGTERM.
 */
module Gates {
  import opened Wrappers
  import opened Text
  import opened Paths
  import opened Specs
  import opened Config

  /** How one framework's app is started and captured. */
  datatype FrameworkRuntime = FrameworkRuntime(
    url: string,
    command: seq<string>,
    supportsGate2: bool := true,
    skipReason: Option<string> := None,
    startupTimeoutS: real := 60.0,
    screenshotDelayMs: int := 1500,
    buttonSelector: Option<string> := None,
    clickDelayMs: int := 1000)

  /** `_venv_bin`: `<venv>/bin/<name>`. */
  function VenvBin(venvDir: Path, name: string): (p: Path)
    requires '/' !in name
    ensures p.absolute == venvDir.absolute
    ensures WellFormed(venvDir) ==> WellFormed(p)
    ensures IsComponent(name) ==> Parent(p) == Child(venvDir, "bin") && Name(p) == name
  {
    Child(Child(venvDir, "bin"), name)
  }

  /** `gate1_compile`, given whether `py_compile` raised. */
  function Gate1Compile(compiled: Outcome): (r: Gate1Result)
    ensures r.ok <==> compiled.Done?
    ensures r.ok ==> r.error == None
    ensures compiled.Raised? ==> r.error == Some(compiled.exc.typeName + ": " + compiled.exc.message)
  {
    match compiled
    case Done => Gate1Result(ok := true)
    case Raised(e) => Gate1Result(ok := false, error := Some(Describe(e)))
  }

  /** A failed compilation is reported under the exception's type name, e.g. `SyntaxError: ...`. */
  lemma Gate1NamesException(e: PyException)
    ensures !Gate1Compile(Raised(e)).ok
    ensures Gate1Compile(Raised(e)).error.Some?
    ensures Gate1Compile(Raised(e)).error.value[..|e.typeName|] == e.typeName
  {
  }

  /** `str(app_dir / "app.py")`. */
  function AppFile(appDir: Path): string {
    ToString(Child(appDir, "app.py"))
  }

  /** `_build_framework_command`. */
  function BuildFrameworkCommand(framework: FrameworkKey, host: string, port: int, appDir: Path, venvDir: Path): (cmd: seq<string>)
    ensures framework.Unlisted? <==> cmd == ["true"]
    ensures framework.Listed? ==> AppFile(appDir) in cmd
    ensures |cmd| == match framework
      case Listed(Streamlit) => 13
      case Listed(Shiny) => 7
      case Listed(Panel) => 11
      case Listed(_) => 2
      case Unlisted(_) => 1
  {
    var python := ToString(VenvBin(venvDir, "python"));
    var app := AppFile(appDir);
    match framework
    case Listed(Streamlit) =>
      [python, "-m", "streamlit", "run", app, "--server.headless", "true", "--server.address", host,
       "--server.port", IntToString(port), "--browser.gatherUsageStats", "false"]
    case Listed(Shiny) =>
      [ToString(VenvBin(venvDir, "shiny")), "run", "--host", host, "--port", IntToString(port), app]
    case Listed(Panel) =>
      [ToString(VenvBin(venvDir, "panel")), "serve", app]
      + ["--address", host, "--port", IntToString(port)]
      + ["--allow-websocket-origin", host + ":" + IntToString(port), "--show", "false"]
    case Listed(Gradio) => [python, app]
    case Listed(Dash) => [python, app]
    case Unlisted(_) => ["true"]
  }

  /** A program of the virtual environment, written out and parsed back, is `<venv>/bin/<name>`. */
  lemma VenvProgram(venvDir: Path, name: string)
    requires WellFormed(venvDir) && IsComponent(name)
    ensures Parent(PathOf(ToString(VenvBin(venvDir, name)))) == Child(venvDir, "bin")
    ensures Name(PathOf(ToString(VenvBin(venvDir, name)))) == name
  {
    PathRoundTrip(VenvBin(venvDir, name));
  }

  /** Every listed framework's command starts with a program from the app's virtual environment. */
  lemma CommandUsesVenv(framework: Framework, host: string, port: int, appDir: Path, venvDir: Path)
    requires WellFormed(venvDir)
    ensures var cmd := BuildFrameworkCommand(Listed(framework), host, port, appDir, venvDir);
      var bin := match framework case Shiny => "shiny" case Panel => "panel" case _ => "python";
      Parent(PathOf(cmd[0])) == Child(venvDir, "bin") && Name(PathOf(cmd[0])) == bin
  {
    var bin := match framework case Shiny => "shiny" case Panel => "panel" case _ => "python";
    VenvProgram(venvDir, bin);
  }

  /** Streamlit is given the host and the port right after the flags that name them. */
  lemma StreamlitCommandAddress(host: string, port: int, appDir: Path, venvDir: Path)
    ensures var cmd := BuildFrameworkCommand(Listed(Streamlit), host, port, appDir, venvDir);
      cmd[7] == "--server.address" && cmd[8] == host && cmd[9] == "--server.port" && cmd[10] == IntToString(port)
  {
  }

  /** Shiny is given the host and the port right after the flags that name them. */
  lemma ShinyCommandAddress(host: string, port: int, appDir: Path, venvDir: Path)
    ensures var cmd := BuildFrameworkCommand(Listed(Shiny), host, port, appDir, venvDir);
      cmd[2] == "--host" && cmd[3] == host && cmd[4] == "--port" && cmd[5] == IntToString(port)
  {
  }

  /** Panel is given the host and the port, and accepts websockets from `host:port`. */
  lemma PanelCommandAddress(host: string, port: int, appDir: Path, venvDir: Path)
    ensures var cmd := BuildFrameworkCommand(Listed(Panel), host, port, appDir, venvDir);
      cmd[3] == "--address" && cmd[4] == host && cmd[5] == "--port" && cmd[6] == IntToString(port)
      && cmd[8] == host + ":" + IntToString(port)
  {
  }

  /** Gradio and Dash are started as plain scripts, which bind the address themselves. */
  lemma ScriptCommand(framework: Framework, host: string, port: int, appDir: Path, venvDir: Path)
    requires framework == Gradio || framework == Dash
    ensures var cmd := BuildFrameworkCommand(Listed(framework), host, port, appDir, venvDir);
      |cmd| == 2 && cmd[1] == AppFile(appDir)
  {
  }

  /** The base address every runtime starts from. */
  function BaseUrl(host: string, port: int): string {
    "http://" + host + ":" + IntToString(port)
  }

  /** The reason Gate 2 gives for a framework it cannot run. */
  function UnsupportedReason(value: string): string {
    "Framework " + value + " not supported for Gate 2."
  }

  /**
   * `_framework_runtime` as the pipeline intends it: the table's timings, and
   * no button to click, because the table has no selector to give.
   */
  function FrameworkRuntimeFor(framework: FrameworkKey, host: string, port: int, appDir: Path, venvDir: Path): (rt: FrameworkRuntime)
    ensures rt.url == BaseUrl(host, port) + (if IsPanel(framework) then "/app" else "")
    ensures rt.command == BuildFrameworkCommand(framework, host, port, appDir, venvDir)
    ensures rt.supportsGate2 <==> framework.Listed?
    ensures rt.buttonSelector == None
    ensures !rt.supportsGate2 ==> (rt.skipReason == Some(UnsupportedReason(KeyValue(framework)))
      && rt.startupTimeoutS == 60.0 && rt.screenshotDelayMs == 1500 && rt.clickDelayMs == 1000)
    ensures rt.supportsGate2 ==> (rt.skipReason == None
      && rt.startupTimeoutS == GetFrameworkConfig(framework).startupTimeoutS
      && rt.screenshotDelayMs == GetFrameworkConfig(framework).screenshotDelayMs
      && rt.clickDelayMs == GetFrameworkConfig(framework).clickDelayMs)
  {
    var config := GetFrameworkConfig(framework);
    var url := BaseUrl(host, port) + config.urlSuffix;
    var cmd := BuildFrameworkCommand(framework, host, port, appDir, venvDir);
    if cmd == ["true"] then
      FrameworkRuntime(url := url, command := cmd, supportsGate2 := false,
        skipReason := Some(UnsupportedReason(KeyValue(framework))))
    else
      FrameworkRuntime(url := url, command := cmd, startupTimeoutS := config.startupTimeoutS,
        screenshotDelayMs := config.screenshotDelayMs, buttonSelector := None, clickDelayMs := config.clickDelayMs)
  }

  /** The exception raised by reading `config.button_selector`, a field `FrameworkConfig` does not have. */
  const MissingSelector: PyException :=
    PyException("AttributeError", "'FrameworkConfig' object has no attribute 'button_selector'")

  /**
   * `_framework_runtime` as written: the unsupported branch returns before
   * the selector is read, every other branch reads the missing field.
   */
  function FrameworkRuntimeAsWritten(framework: FrameworkKey, host: string, port: int, appDir: Path, venvDir: Path): (r: Result<FrameworkRuntime, PyException>)
    ensures r.Success? <==> framework.Unlisted?
  {
    var cmd := BuildFrameworkCommand(framework, host, port, appDir, venvDir);
    if cmd == ["true"] then Success(FrameworkRuntimeFor(framework, host, port, appDir, venvDir))
    else Failure(MissingSelector)
  }

  /**
   * The defect: for every framework of the enumeration the runtime as written
   * raises, while the intended one supports Gate 2 without a selector.
   */
  lemma RuntimeAsWrittenRaises(framework: Framework, host: string, port: int, appDir: Path, venvDir: Path)
    ensures FrameworkRuntimeAsWritten(Listed(framework), host, port, appDir, venvDir) == Failure(MissingSelector)
    ensures FrameworkRuntimeFor(Listed(framework), host, port, appDir, venvDir).supportsGate2
  {
  }

  /** The name of a companion screenshot: `<stem><tag><suffix>`. */
  function TaggedName(p: Path, tag: string): string {
    Stem(p) + tag + Suffix(p)
  }

  /** `screenshot_path.with_name(f"{stem}<tag>{suffix}")`. */
  function CompanionPath(p: Path, tag: string): Result<Path, PyException> {
    WithName(p, TaggedName(p, tag))
  }

  /**
   * For a path with a name, the before and after paths exist, sit in the same
   * directory and carry the tag between stem and suffix, so they differ from
   * each other and from the base path.  A path without a name makes
   * `with_name` raise.
   */
  lemma CompanionPaths(p: Path)
    requires WellFormed(p)
    ensures Name(p) == "" <==> CompanionPath(p, "_before").Failure?
    ensures Name(p) == "" <==> CompanionPath(p, "_after").Failure?
    ensures Name(p) != "" ==>
      var b := CompanionPath(p, "_before").value;
      var a := CompanionPath(p, "_after").value;
      Parent(b) == Parent(p) && Parent(a) == Parent(p)
      && Name(b) == Stem(p) + "_before" + Suffix(p)
      && Name(a) == Stem(p) + "_after" + Suffix(p)
      && b != a && b != p && a != p
  {
    StemSuffix(p);
    if Name(p) != "" {
      var n := Name(p);
      assert n == p.parts[|p.parts| - 1] && IsComponent(n);
      TaggedNameIsComponent(p, "_before");
      TaggedNameIsComponent(p, "_after");
      var before := TaggedName(p, "_before");
      var after := TaggedName(p, "_after");
      assert before[|Stem(p)| + 1] == 'b' && after[|Stem(p)| + 1] == 'a';
      assert |before| == |n| + 7 && |after| == |n| + 6;
    }
  }

  /** The tagged name of a named, well-formed path is a proper component. */
  lemma TaggedNameIsComponent(p: Path, tag: string)
    requires WellFormed(p) && Name(p) != "" && '/' !in tag && tag != "" && tag != "."
    ensures IsComponent(TaggedName(p, tag))
  {
    StemSuffix(p);
    var n := Name(p);
    assert IsComponent(n);
    var t := TaggedName(p, tag);
    assert Stem(p) + Suffix(p) == n;
    forall k | 0 <= k < |t|
      ensures t[k] != '/'
    {
      if k < |Stem(p)| {
        assert t[k] == n[k];
      } else if k < |Stem(p)| + |tag| {
        assert t[k] == tag[k - |Stem(p)|];
      } else {
        assert t[k] == n[k - |tag|];
      }
    }
  }

  /**
   * With an extension the tag goes before it, so `dashboard.png` gives
   * `dashboard_before.png` and `dashboard_after.png`.
   */
  lemma CompanionBeforeExtension(p: Path, stem: string, ext: string, tag: string)
    requires WellFormed(p) && Name(p) == stem + "." + ext
    requires stem != "" && ext != "" && '.' !in ext
    requires '/' !in tag && tag != "" && tag != "."
    ensures CompanionPath(p, tag).Success?
    ensures Name(CompanionPath(p, tag).value) == stem + tag + "." + ext
    ensures Parent(CompanionPath(p, tag).value) == Parent(p)
  {
    RFindAfter(stem, '.', ext);
    assert Name(p) == stem + ['.'] + ext;
    assert Stem(p) == stem && Suffix(p) == "." + ext;
    TaggedNameIsComponent(p, tag);
  }

  // The readiness loop.

  /** One turn of the loop: the clock reading taken by the loop test and the outcome of the request made if it is before the deadline. */
  datatype Poll = Poll(now: real, response: Result<int, PyException>)

  /** The `TimeoutError` raised when the deadline passes. */
  function TimedOut(url: string, lastErr: Option<PyException>): Outcome {
    match lastErr
    case None => Raised(PyException("TimeoutError", "Timed out waiting for 200 OK: " + url))
    case Some(e) => Raised(PyException("TimeoutError", "Timed out waiting for 200 OK: " + url + ". Last error: " + e.message))
  }

  /**
   * What `_wait_for_200` does from a given turn on.  The readings run out only
   * when the clock has reached the deadline.
   */
  function Polling(url: string, deadline: real, polls: seq<Poll>, lastErr: Option<PyException>): Outcome
    decreases |polls|
  {
    if polls == [] || polls[0].now >= deadline then TimedOut(url, lastErr)
    else match polls[0].response
      case Success(status) => if status == 200 then Done else Polling(url, deadline, polls[1..], lastErr)
      case Failure(e) => Polling(url, deadline, polls[1..], Some(e))
  }

  /** Turn `k` happened and made a request: it and every turn before it read the clock before the deadline. */
  predicate Requested(deadline: real, polls: seq<Poll>, k: int) {
    0 <= k < |polls| && forall j :: 0 <= j <= k ==> polls[j].now < deadline
  }

  /** After a turn made before the deadline, the later turns are numbered one lower. */
  lemma RequestedShift(deadline: real, polls: seq<Poll>, k: nat)
    requires polls != [] && polls[0].now < deadline
    ensures Requested(deadline, polls[1..], k) <==> Requested(deadline, polls, k + 1)
    ensures 0 <= k < |polls| - 1 ==> polls[1..][k] == polls[k + 1]
  {
    if Requested(deadline, polls, k + 1) {
      forall j | 0 <= j <= k
        ensures polls[1..][j].now < deadline
      {
        assert polls[1..][j] == polls[j + 1];
      }
    }
    if Requested(deadline, polls[1..], k) {
      forall j | 0 <= j <= k + 1
        ensures polls[j].now < deadline
      {
        if j > 0 {
          assert polls[1..][j - 1] == polls[j];
        }
      }
    }
  }

  /** Turn `k` made a request that answered 200, and no earlier request did. */
  predicate FirstOk(deadline: real, polls: seq<Poll>, k: int) {
    Requested(deadline, polls, k) && polls[k].response == Success(200)
    && forall j :: 0 <= j < k ==> polls[j].response != Success(200)
  }

  /**
   * `_wait_for_200`: polls until a 200 arrives or the clock reaches
   * `start + timeout_s`; `requests` counts the requests it made.
   */
  method WaitFor200(url: string, timeoutS: real, start: real, polls: seq<Poll>) returns (o: Outcome, requests: nat)
    ensures o == Polling(url, start + timeoutS, polls, None)
    ensures requests <= |polls|
    ensures polls == [] || polls[0].now >= start + timeoutS ==> requests == 0 && o == TimedOut(url, None)
    ensures o.Done? ==> FirstOk(start + timeoutS, polls, requests - 1)
  {
    var deadline := start + timeoutS;
    var lastErr: Option<PyException> := None;
    var i := 0;
    while i < |polls| && polls[i].now < deadline
      invariant 0 <= i <= |polls|
      invariant Polling(url, deadline, polls, None) == Polling(url, deadline, polls[i..], lastErr)
      invariant forall j :: 0 <= j < i ==> polls[j].now < deadline && polls[j].response != Success(200)
      decreases |polls| - i
    {
      var response := polls[i].response;
      assert polls[i..][1..] == polls[i + 1..];
      if response == Success(200) {
        assert Requested(deadline, polls, i);
        return Done, i + 1;
      }
      if response.Failure? {
        lastErr := Some(response.error);
      }
      i := i + 1;
    }
    o, requests := TimedOut(url, lastErr), i;
  }

  /** The loop ends well exactly when some request made before the deadline answered 200. */
  lemma {:induction false} PollingDoneIff(url: string, deadline: real, polls: seq<Poll>, lastErr: Option<PyException>)
    ensures Polling(url, deadline, polls, lastErr).Done? <==> exists k :: Requested(deadline, polls, k) && polls[k].response == Success(200)
  {
    if polls != [] && polls[0].now < deadline {
      PollingDoneIff(url, deadline, polls[1..], if polls[0].response.Failure? then Some(polls[0].response.error) else lastErr);
      if exists k :: Requested(deadline, polls[1..], k) && polls[1..][k].response == Success(200) {
        var k :| Requested(deadline, polls[1..], k) && polls[1..][k].response == Success(200);
        RequestedShift(deadline, polls, k);
      }
      if exists k :: Requested(deadline, polls, k) && polls[k].response == Success(200) {
        var k :| Requested(deadline, polls, k) && polls[k].response == Success(200);
        if k > 0 {
          RequestedShift(deadline, polls, k - 1);
        }
      }
    }
  }

  /**
   * A timeout names the last exception exactly when some request made before
   * the deadline raised; answers other than 200 are not errors.
   */
  lemma {:induction false} PollingTimeoutMessage(url: string, deadline: real, polls: seq<Poll>)
    requires Polling(url, deadline, polls, None).Raised?
    ensures Polling(url, deadline, polls, None) == TimedOut(url, None)
      <==> !exists k :: Requested(deadline, polls, k) && polls[k].response.Failure?
  {
    PollingErrorCarried(url, deadline, polls, None);
  }

  lemma {:induction false} PollingErrorCarried(url: string, deadline: real, polls: seq<Poll>, lastErr: Option<PyException>)
    requires Polling(url, deadline, polls, lastErr).Raised?
    ensures (Polling(url, deadline, polls, lastErr) == TimedOut(url, None))
      <==> lastErr == None && !exists k :: Requested(deadline, polls, k) && polls[k].response.Failure?
    decreases |polls|
  {
    if polls != [] && polls[0].now < deadline {
      var next := if polls[0].response.Failure? then Some(polls[0].response.error) else lastErr;
      PollingErrorCarried(url, deadline, polls[1..], next);
      if exists k :: Requested(deadline, polls[1..], k) && polls[1..][k].response.Failure? {
        var k :| Requested(deadline, polls[1..], k) && polls[1..][k].response.Failure?;
        RequestedShift(deadline, polls, k);
      }
      if exists k :: Requested(deadline, polls, k) && polls[k].response.Failure? {
        var k :| Requested(deadline, polls, k) && polls[k].response.Failure?;
        if k > 0 {
          RequestedShift(deadline, polls, k - 1);
        }
      }
    } else {
      TimedOutTexts(url, lastErr);
    }
  }

  /** The two timeout messages differ. */
  lemma TimedOutTexts(url: string, lastErr: Option<PyException>)
    ensures TimedOut(url, lastErr) == TimedOut(url, None) <==> lastErr == None
  {
    if lastErr.Some? {
      var short := "Timed out waiting for 200 OK: " + url;
      assert |TimedOut(url, lastErr).exc.message| > |short|;
    }
  }

  // Browser sessions.

  /** What each step of one browser session does: start the browser, load the page, click, capture. */
  datatype Session = Session(launch: Outcome, goto: Outcome, click: Outcome, capture: Outcome)

  /** `if button_selector:` — a selector is used only when it is a non-empty string. */
  predicate Clicks(selector: Option<string>) {
    selector.Some? && selector.value != ""
  }

  /**
   * `_take_screenshot`: a failure to start or to load the page propagates and
   * so does a failed capture; a failed click is logged and swallowed.
   */
  function TakeScreenshot(s: Session, selector: Option<string>): (o: Outcome)
    ensures o.Done? <==> s.launch.Done? && s.goto.Done? && s.capture.Done?
    ensures s.launch.Raised? ==> o == s.launch
    ensures s.launch.Done? && s.goto.Raised? ==> o == s.goto
    ensures s.launch.Done? && s.goto.Done? ==> o == s.capture
  {
    if s.launch.Raised? then s.launch
    else if s.goto.Raised? then s.goto
    else s.capture
  }

  /** Neither the selector nor the click's outcome can change what a capture returns. */
  lemma ClickNeverFails(s: Session, selector: Option<string>, click: Outcome)
    ensures TakeScreenshot(s.(click := click), selector) == TakeScreenshot(s, None)
  {
  }

  // The child process.

  datatype Signal = Term | Kill

  /** The signals the `finally` block sends: SIGTERM, then SIGKILL only when the ten-second wait times out. */
  function TeardownSignals(waitTimesOut: bool): (s: seq<Signal>)
    ensures |s| >= 1 && s[0] == Term
    ensures Kill in s <==> waitTimesOut
  {
    if waitTimesOut then [Term, Kill] else [Term]
  }

  /** The app's server process started by `Popen`, and the signals it has been sent. */
  class ChildProcess {
    const command: seq<string>
    var signals: seq<Signal>

    constructor (command: seq<string>)
      ensures this.command == command && signals == []
    {
      this.command := command;
      signals := [];
    }

    method SendSignal(s: Signal)
      modifies this
      ensures signals == old(signals) + [s]
    {
      signals := signals + [s];
    }

    /** `proc.send_signal(SIGTERM)`; `proc.wait(timeout=10)`, and `proc.kill()` if that wait expires. */
    method Teardown(waitTimesOut: bool)
      modifies this
      ensures signals == old(signals) + TeardownSignals(waitTimesOut)
    {
      SendSignal(Term);
      if waitTimesOut {
        SendSignal(Kill);
      }
    }
  }

  // Gate 2.

  /** Everything outside the model that Gate 2 depends on. */
  datatype Gate2Env = Gate2Env(
    cwd: Path,
    venvExists: bool,
    createVenv: Outcome,
    install: Outcome,
    installExtras: Outcome,
    spawn: Outcome,
    start: real,
    polls: seq<Poll>,
    before: Session,
    after: Session,
    waitTimesOut: bool)

  /** `uv venv <venv>`. */
  function VenvCommand(venvDir: Path): seq<string> {
    ["uv", "venv", ToString(venvDir)]
  }

  /** `uv pip install --python <venv>/bin/python -r <requirements>`. */
  function InstallCommand(venvDir: Path, requirements: Path): seq<string> {
    ["uv", "pip", "install", "--python", ToString(VenvBin(venvDir, "python")), "-r", ToString(requirements)]
  }

  /** `uv pip install --python <venv>/bin/python <extras...>`. */
  function ExtrasCommand(venvDir: Path, extras: seq<string>): seq<string> {
    ["uv", "pip", "install", "--python", ToString(VenvBin(venvDir, "python"))] + extras
  }

  /** The outcome of a run of external commands and the commands it tried, in order. */
  datatype Steps = Steps(outcome: Outcome, commands: seq<seq<string>>)

  /**
   * `_create_venv` then `_uv_install`: the venv is created only when it does
   * not exist, the extras are installed only when there are some, and the
   * first command that fails ends the run.
   */
  function PrepareVenv(env: Gate2Env, venvDir: Path, requirements: Path, extras: seq<string>): (s: Steps)
    ensures s.outcome.Done? <==> (env.venvExists || env.createVenv.Done?) && env.install.Done? && (extras == [] || env.installExtras.Done?)
    ensures s.outcome.Done? ==> (s.commands
      == (if env.venvExists then [] else [VenvCommand(venvDir)]) + [InstallCommand(venvDir, requirements)]
        + (if extras == [] then [] else [ExtrasCommand(venvDir, extras)]))
    ensures (VenvCommand(venvDir) in s.commands) <==> !env.venvExists
  {
    var create := if env.venvExists then [] else [VenvCommand(venvDir)];
    var install := InstallCommand(venvDir, requirements);
    var extra := ExtrasCommand(venvDir, extras);
    assert install != VenvCommand(venvDir) && extra != VenvCommand(venvDir) by {
      assert install[1] == "pip" && extra[1] == "pip" && VenvCommand(venvDir)[1] == "venv";
    }
    if !env.venvExists && env.createVenv.Raised? then Steps(env.createVenv, create)
    else if env.install.Raised? then Steps(env.install, create + [install])
    else if extras != [] then Steps(env.installExtras, create + [install, extra])
    else Steps(Done, create + [install])
  }

  /** `timeout_s or runtime.startup_timeout_s`: a missing or zero override falls back to the default. */
  function EffectiveTimeout(timeoutS: Option<real>, default: real): (t: real)
    ensures timeoutS.Some? && timeoutS.value != 0.0 ==> t == timeoutS.value
    ensures timeoutS == None || timeoutS == Some(0.0) ==> t == default
  {
    if timeoutS.Some? && timeoutS.value != 0.0 then timeoutS.value else default
  }

  /** The inner `try`: wait for the server, capture before, capture after (clicking only with a selector). */
  function Serve(env: Gate2Env, rt: FrameworkRuntime, timeout: real): (o: Outcome)
    ensures o.Done? <==> (Polling(rt.url, env.start + timeout, env.polls, None).Done?
      && TakeScreenshot(env.before, None).Done? && TakeScreenshot(env.after, rt.buttonSelector).Done?)
  {
    var ready := Polling(rt.url, env.start + timeout, env.polls, None);
    if ready.Raised? then ready
    else
      var before := TakeScreenshot(env.before, None);
      if before.Raised? then before
      else TakeScreenshot(env.after, rt.buttonSelector)
  }

  /** The result of a Gate 2 run and what it did to the outside world. */
  datatype Gate2Run = Gate2Run(result: Result<Gate2Result, PyException>, commands: seq<seq<string>>, spawned: bool, signals: seq<Signal>)

  /** The record of a run that got past the skip check and then raised. */
  function FailedRun(url: string, e: PyException, before: Path, after: Path): Gate2Result {
    Gate2Result(ok := false, url := Some(url), error := Some(Describe(e)),
      screenshotBeforePath := Some(ToString(before)), screenshotAfterPath := Some(ToString(after)))
  }

  /** The record of a run whose captures both returned. */
  function PassedRun(url: string, shot: Path, before: Path, after: Path): Gate2Result {
    Gate2Result(ok := true, url := Some(url), screenshotPath := Some(ToString(shot)),
      screenshotBeforePath := Some(ToString(before)), screenshotAfterPath := Some(ToString(after)))
  }

  /** The part of Gate 2 after the paths are known and the framework is supported. */
  function Launch(env: Gate2Env, rt: FrameworkRuntime, app: Path, shot: Path, before: Path, after: Path, extras: seq<string>, timeout: real): (run: Gate2Run)
    ensures run.result.Success?
    ensures run.spawned <==> PrepareVenv(env, Child(app, ".venv"), Child(app, "requirements.txt"), extras).outcome.Done? && env.spawn.Done?
    ensures run.spawned ==> run.signals == TeardownSignals(env.waitTimesOut)
    ensures !run.spawned ==> run.signals == []
    ensures run.result.value.ok <==> run.spawned && Serve(env, rt, timeout).Done?
    ensures run.result.value.ok ==> run.result.value == PassedRun(rt.url, shot, before, after)
    ensures !run.result.value.ok ==> (run.result.value.error.Some? && run.result.value.screenshotPath == None
      && run.result.value.url == Some(rt.url) && run.result.value.skippedReason == None
      && run.result.value.screenshotBeforePath == Some(ToString(before))
      && run.result.value.screenshotAfterPath == Some(ToString(after)))
    ensures var prep := PrepareVenv(env, Child(app, ".venv"), Child(app, "requirements.txt"), extras);
      && (prep.outcome.Raised? ==> run.result.value.error == Some(Describe(prep.outcome.exc)))
      && (prep.outcome.Done? && env.spawn.Raised? ==> run.result.value.error == Some(Describe(env.spawn.exc)))
      && (run.spawned && Serve(env, rt, timeout).Raised? ==> run.result.value.error == Some(Describe(Serve(env, rt, timeout).exc)))
  {
    var venv := Child(app, ".venv");
    var prep := PrepareVenv(env, venv, Child(app, "requirements.txt"), extras);
    if prep.outcome.Raised? then
      Gate2Run(Success(FailedRun(rt.url, prep.outcome.exc, before, after)), prep.commands, false, [])
    else if env.spawn.Raised? then
      Gate2Run(Success(FailedRun(rt.url, env.spawn.exc, before, after)), prep.commands + [rt.command], false, [])
    else
      var served := Serve(env, rt, timeout);
      var signals := TeardownSignals(env.waitTimesOut);
      if served.Done? then Gate2Run(Success(PassedRun(rt.url, shot, before, after)), prep.commands + [rt.command], true, signals)
      else Gate2Run(Success(FailedRun(rt.url, served.exc, before, after)), prep.commands + [rt.command], true, signals)
  }

  /**
   * `gate2_run_and_screenshot`, with the runtime as intended.  Exceptions
   * raised before the `try` (a screenshot path without a name) leave the
   * function; every later one becomes a failed record.
   */
  function Gate2(framework: FrameworkKey, appDir: Path, host: string, port: int, screenshotPath: Path, timeoutS: Option<real>, env: Gate2Env): (run: Gate2Run)
    requires env.cwd.absolute
    ensures run.spawned ==> run.signals == TeardownSignals(env.waitTimesOut) && framework.Listed? && run.result.Success?
    ensures !run.spawned ==> run.signals == []
    ensures run.result.Success? && run.result.value.ok ==> run.spawned
  {
    var app := Resolve(env.cwd, appDir);
    var shot := Resolve(env.cwd, screenshotPath);
    var before := CompanionPath(shot, "_before");
    var after := CompanionPath(shot, "_after");
    if before.Failure? then Gate2Run(Failure(before.error), [], false, [])
    else if after.Failure? then Gate2Run(Failure(after.error), [], false, [])
    else
      var rt := FrameworkRuntimeFor(framework, host, port, app, Child(app, ".venv"));
      if !rt.supportsGate2 then Gate2Run(Success(Gate2Result(ok := false, skippedReason := rt.skipReason)), [], false, [])
      else Launch(env, rt, app, shot, before.value, after.value, GetFrameworkConfig(framework).extraRequirements,
        EffectiveTimeout(timeoutS, rt.startupTimeoutS))
  }

  /** `gate2_run_and_screenshot` as written: the runtime lookup raises before the skip check for every listed framework. */
  function Gate2AsWritten(framework: FrameworkKey, appDir: Path, host: string, port: int, screenshotPath: Path, timeoutS: Option<real>, env: Gate2Env): Gate2Run
    requires env.cwd.absolute
  {
    var app := Resolve(env.cwd, appDir);
    var shot := Resolve(env.cwd, screenshotPath);
    var before := CompanionPath(shot, "_before");
    var after := CompanionPath(shot, "_after");
    if before.Failure? then Gate2Run(Failure(before.error), [], false, [])
    else if after.Failure? then Gate2Run(Failure(after.error), [], false, [])
    else
      var rt := FrameworkRuntimeAsWritten(framework, host, port, app, Child(app, ".venv"));
      if rt.Failure? then Gate2Run(Failure(rt.error), [], false, [])
      else Gate2(framework, appDir, host, port, screenshotPath, timeoutS, env)
  }

  /** As written, Gate 2 never runs an app: every framework of the enumeration ends in the `AttributeError`. */
  lemma Gate2AsWrittenNeverRuns(framework: Framework, appDir: Path, host: string, port: int, screenshotPath: Path, timeoutS: Option<real>, env: Gate2Env)
    requires env.cwd.absolute && Name(Resolve(env.cwd, screenshotPath)) != ""
    requires WellFormed(env.cwd) && WellFormed(screenshotPath)
    ensures Gate2AsWritten(Listed(framework), appDir, host, port, screenshotPath, timeoutS, env)
      == Gate2Run(Failure(MissingSelector), [], false, [])
  {
    CompanionPaths(Resolve(env.cwd, screenshotPath));
  }

  /**
   * For a listed framework and a screenshot path with a name, Gate 2 is the
   * launch of the framework's runtime with its extra requirements and the
   * timeout `timeout_s or runtime.startup_timeout_s`.
   */
  lemma Gate2Launches(framework: Framework, appDir: Path, host: string, port: int, screenshotPath: Path, timeoutS: Option<real>, env: Gate2Env)
    requires env.cwd.absolute && Name(Resolve(env.cwd, screenshotPath)) != ""
    requires WellFormed(env.cwd) && WellFormed(screenshotPath)
    ensures var app := Resolve(env.cwd, appDir);
      var shot := Resolve(env.cwd, screenshotPath);
      var rt := FrameworkRuntimeFor(Listed(framework), host, port, app, Child(app, ".venv"));
      && CompanionPath(shot, "_before").Success? && CompanionPath(shot, "_after").Success?
      && Gate2(Listed(framework), appDir, host, port, screenshotPath, timeoutS, env)
        == Launch(env, rt, app, shot, CompanionPath(shot, "_before").value, CompanionPath(shot, "_after").value,
             GetFrameworkConfig(Listed(framework)).extraRequirements, EffectiveTimeout(timeoutS, rt.startupTimeoutS))
  {
    CompanionPaths(Resolve(env.cwd, screenshotPath));
  }

  /** A framework Gate 2 cannot run is skipped before any command is run or process started. */
  lemma Gate2Skips(value: string, appDir: Path, host: string, port: int, screenshotPath: Path, timeoutS: Option<real>, env: Gate2Env)
    requires env.cwd.absolute && Name(Resolve(env.cwd, screenshotPath)) != ""
    requires WellFormed(env.cwd) && WellFormed(screenshotPath)
    ensures Gate2(Unlisted(value), appDir, host, port, screenshotPath, timeoutS, env)
      == Gate2Run(Success(Gate2Result(ok := false, skippedReason := Some(UnsupportedReason(value)))), [], false, [])
  {
    CompanionPaths(Resolve(env.cwd, screenshotPath));
  }

  /** A screenshot path without a name makes Gate 2 raise the `ValueError` of `with_name`, outside its `try`. */
  lemma Gate2RaisesWithoutName(framework: FrameworkKey, appDir: Path, host: string, port: int, screenshotPath: Path, timeoutS: Option<real>, env: Gate2Env)
    requires env.cwd.absolute && Name(Resolve(env.cwd, screenshotPath)) == ""
    requires WellFormed(env.cwd) && WellFormed(screenshotPath)
    ensures var run := Gate2(framework, appDir, host, port, screenshotPath, timeoutS, env);
      run.result.Failure? && run.result.error.typeName == "ValueError" && run.commands == [] && !run.spawned
  {
    CompanionPaths(Resolve(env.cwd, screenshotPath));
  }

  /** The inner `try` step by step: readiness, then the before capture, then the after capture. */
  method ServeApp(env: Gate2Env, rt: FrameworkRuntime, timeout: real) returns (o: Outcome)
    ensures o == Serve(env, rt, timeout)
  {
    var requests;
    o, requests := WaitFor200(rt.url, timeout, env.start, env.polls);
    if o.Done? {
      o := TakeScreenshot(env.before, None);
    }
    if o.Done? {
      o := TakeScreenshot(env.after, rt.buttonSelector);
    }
  }

  /**
   * `gate2_run_and_screenshot` step by step: the part after the skip check.
   * The process object is created by the spawn and torn down in the
   * `finally` block whatever the inner steps do.
   */
  method LaunchApp(env: Gate2Env, rt: FrameworkRuntime, app: Path, shot: Path, before: Path, after: Path, extras: seq<string>, timeout: real)
    returns (result: Result<Gate2Result, PyException>, commands: seq<seq<string>>, proc: ChildProcess?)
    ensures result == Launch(env, rt, app, shot, before, after, extras, timeout).result
    ensures commands == Launch(env, rt, app, shot, before, after, extras, timeout).commands
    ensures (proc != null) == Launch(env, rt, app, shot, before, after, extras, timeout).spawned
    ensures proc != null ==> (fresh(proc) && proc.command == rt.command
      && proc.signals == Launch(env, rt, app, shot, before, after, extras, timeout).signals)
  {
    proc := null;
    var prep := PrepareVenv(env, Child(app, ".venv"), Child(app, "requirements.txt"), extras);
    commands := prep.commands;
    if prep.outcome.Raised? {
      return Success(FailedRun(rt.url, prep.outcome.exc, before, after)), commands, proc;
    }
    commands := commands + [rt.command];
    if env.spawn.Raised? {
      return Success(FailedRun(rt.url, env.spawn.exc, before, after)), commands, proc;
    }
    proc := new ChildProcess(rt.command);
    var served := ServeApp(env, rt, timeout);
    proc.Teardown(env.waitTimesOut);
    if served.Done? {
      result := Success(PassedRun(rt.url, shot, before, after));
    } else {
      result := Success(FailedRun(rt.url, served.exc, before, after));
    }
  }

  /** `gate2_run_and_screenshot`: the paths, the runtime and the skip check, then the launch. */
  method Gate2RunAndScreenshot(framework: FrameworkKey, appDir: Path, host: string, port: int, screenshotPath: Path, timeoutS: Option<real>, env: Gate2Env)
    returns (result: Result<Gate2Result, PyException>, commands: seq<seq<string>>, proc: ChildProcess?)
    requires env.cwd.absolute
    ensures result == Gate2(framework, appDir, host, port, screenshotPath, timeoutS, env).result
    ensures commands == Gate2(framework, appDir, host, port, screenshotPath, timeoutS, env).commands
    ensures (proc != null) == Gate2(framework, appDir, host, port, screenshotPath, timeoutS, env).spawned
    ensures proc != null ==> fresh(proc) && proc.signals == Gate2(framework, appDir, host, port, screenshotPath, timeoutS, env).signals
  {
    var app := Resolve(env.cwd, appDir);
    var shot := Resolve(env.cwd, screenshotPath);
    var before := CompanionPath(shot, "_before");
    if before.Failure? {
      return Failure(before.error), [], null;
    }
    var after := CompanionPath(shot, "_after");
    if after.Failure? {
      return Failure(after.error), [], null;
    }
    var rt := FrameworkRuntimeFor(framework, host, port, app, Child(app, ".venv"));
    if !rt.supportsGate2 {
      return Success(Gate2Result(ok := false, skippedReason := rt.skipReason)), [], null;
    }
    result, commands, proc := LaunchApp(env, rt, app, shot, before.value, after.value,
      GetFrameworkConfig(framework).extraRequirements, EffectiveTimeout(timeoutS, rt.startupTimeoutS));
  }
}

=== FILE: generate_apps.dfy ===
/**
 * The clean-up `generate_apps.py` applies to a model's reply before saving it
 * as an app: the two `re.sub` calls that drop a Markdown code fence around the
 * code, then `strip()`.
 */
module GenerateApps {
  import opened Wrappers
  import opened Text

  /**
   * Where a greedy `\s*\n` that starts at `i` stops, given that `s[i..j]` is
   * the whole run of whitespace there: just after the run's last newline, or
   * no match when the run holds none.
   */
  function LastNewline(s: string, i: nat, j: nat): (e: Option<nat>)
    requires i <= j <= |s|
    ensures e.Some? ==> i < e.value <= j && s[e.value - 1] == '\n'
    ensures e.Some? ==> forall k :: e.value <= k < j ==> s[k] != '\n'
    ensures e.None? ==> forall k :: i <= k < j ==> s[k] != '\n'
    decreases j - i
  {
    if j == i then None
    else if s[j - 1] == '\n' then Some(j)
    else LastNewline(s, i, j - 1)
  }

  /**
   * The end of the match of `^```(?:python)?\s*\n` (no `MULTILINE`, so only at
   * index 0). The optional group is tried with `python` first; without it the
   * pattern is tried from index 3.
   */
  function OpenFenceEnd(code: string): (e: Option<nat>)
    ensures e.Some? ==> OccursAt(code, "```", 0) && 4 <= e.value <= |code| && code[e.value - 1] == '\n'
    ensures e.Some? ==>
              SpacesBetween(code, 3, e.value)
              || (OccursAt(code, "```python", 0) && 10 <= e.value && SpacesBetween(code, 9, e.value))
    ensures e.Some? ==> forall k :: e.value <= k < SkipSpace(code, e.value) ==> code[k] != '\n'
    ensures e.None? && OccursAt(code, "```", 0) ==> forall k :: 3 <= k < SkipSpace(code, 3) ==> code[k] != '\n'
    ensures e.None? && OccursAt(code, "```python", 0) ==> forall k :: 9 <= k < SkipSpace(code, 9) ==> code[k] != '\n'
  {
    if !OccursAt(code, "```", 0) then None
    else
      var long := if OccursAt(code, "```python", 0) then LastNewline(code, 9, SkipSpace(code, 9)) else None;
      if long.Some? then
        SkipSpaceRun(code, long.value, SkipSpace(code, 9));
        long
      else
        var short := LastNewline(code, 3, SkipSpace(code, 3));
        if short.Some? then
          SkipSpaceRun(code, short.value, SkipSpace(code, 3));
          short
        else
          short
  }

  /** The first `re.sub`: the reply without its opening fence, a suffix of it. */
  function DropOpenFence(code: string): (r: string)
    ensures |r| <= |code| && r == code[|code| - |r|..]
    ensures OpenFenceEnd(code).None? <==> r == code
  {
    match OpenFenceEnd(code)
    case None => code
    case Some(e) => code[e..]
  }

  /**
   * Whether `\n```\s*$` matches at index `i`. The greedy `\s*` takes the whole
   * run of whitespace; `$` holds only at the end of the text or before a final
   * newline, which the run would have taken, so the match is exactly a newline,
   * three backticks and nothing but whitespace up to the end.
   */
  predicate CloseFenceAt(s: string, i: nat) {
    OccursAt(s, "\n```", i) && SpacesBetween(s, i + 4, |s|)
  }

  /** The leftmost match of the closing fence at or after `i`, as `re.sub` scans. */
  function CloseFenceFrom(s: string, i: nat): (p: Option<nat>)
    requires i <= |s|
    ensures p.Some? ==> i <= p.value && CloseFenceAt(s, p.value)
    ensures p.Some? ==> forall q :: i <= q < p.value ==> !CloseFenceAt(s, q)
    ensures p.None? ==> forall q :: i <= q ==> !CloseFenceAt(s, q)
    decreases |s| - i
  {
    if i + 4 > |s| then None
    else if CloseFenceAt(s, i) then Some(i)
    else CloseFenceFrom(s, i + 1)
  }

  /** The closing fence, when there is one, is the only one: two matches cannot overlap or follow each other. */
  lemma CloseFenceUnique(s: string, i: nat, j: nat)
    requires CloseFenceAt(s, i) && CloseFenceAt(s, j)
    ensures i == j
  {
    if i < j {
      NoFenceAfterClose(s, i, j);
    } else if j < i {
      NoFenceAfterClose(s, j, i);
    }
  }

  lemma NoFenceAfterClose(s: string, i: nat, j: nat)
    requires i < j && CloseFenceAt(s, i)
    ensures !OccursAt(s, "\n```", j)
  {
    if j + 4 <= |s| {
      var w := s[j..j + 4];
      assert w[0] == s[j] && w[1] == s[j + 1];
      if j < i + 4 {
        assert s[j] == s[i..i + 4][j - i] == '`';
        assert w[0] != "\n```"[0];
      } else {
        assert IsSpace(s[j + 1]);
        assert w[1] != "\n```"[1];
      }
    }
  }

  /** The second `re.sub`: the text without its closing fence, a prefix of it. */
  function DropCloseFence(s: string): (r: string)
    ensures |r| <= |s| && r == s[..|r|]
    ensures r == s || (OccursAt(s, "\n```", |r|) && SpacesBetween(s, |r| + 4, |s|))
  {
    match CloseFenceFrom(s, 0)
    case None => s
    case Some(i) => s[..i]
  }

  /** `strip_markdown_fences`: both fences dropped, then surrounding whitespace. */
  function StripMarkdownFences(code: string): (r: string)
    ensures Trimmed(r)
    ensures |r| <= |code|
  {
    Strip(DropCloseFence(DropOpenFence(code)))
  }

  /** A reply with no fence to drop is only stripped. */
  lemma UnfencedOnlyStripped(code: string)
    requires !OccursAt(code, "```", 0)
    requires forall i :: 0 <= i <= |code| ==> !OccursAt(code, "\n```", i)
    ensures StripMarkdownFences(code) == Strip(code)
  {
    assert CloseFenceFrom(code, 0).None?;
  }

  /** The opening fence `opener` followed by a newline and code that starts with a non-space. */
  lemma OpenFenceOfBlock(opener: string, x: string, rest: string)
    requires opener == "```" || opener == "```python"
    requires x != [] && !IsSpace(x[0])
    ensures DropOpenFence(opener + "\n" + x + rest) == x + rest
  {
    var code := opener + "\n" + x + rest;
    var n := |opener|;
    assert code[..3] == "```";
    assert code[n] == '\n' && code[n + 1] == x[0];
    assert SkipSpace(code, n + 1) == n + 1;
    assert SkipSpace(code, n) == n + 1;
    if opener == "```python" {
      assert code[..9] == "```python";
    } else {
      assert !OccursAt(code, "```python", 0) by {
        assert code[3] != "```python"[3];
      }
      assert code[3] == '\n';
    }
    assert OpenFenceEnd(code) == Some(n + 1);
    assert code[n + 1..] == x + rest;
  }

  /** Code followed by a closing fence and trailing whitespace loses exactly the fence. */
  lemma CloseFenceOfBlock(x: string, tail: string)
    requires AllSpace(tail)
    ensures DropCloseFence(x + "\n```" + tail) == x
  {
    var s := x + "\n```" + tail;
    assert s[|x|..|x| + 4] == "\n```";
    assert CloseFenceAt(s, |x|);
    var c := CloseFenceFrom(s, 0);
    CloseFenceUnique(s, c.value, |x|);
    assert s[..|x|] == x;
  }

  /**
   * When the opening fence ends at `n` and a newline follows it, the opening
   * match ends after a newline inside the whitespace run that starts there,
   * so at or before the first non-space character `j`.
   */
  lemma OpenFenceWithin(code: string, n: nat, j: nat) returns (e: nat)
    requires n == 3 || n == 9
    requires OccursAt(code, "```", 0)
    requires n == 9 <==> OccursAt(code, "```python", 0)
    requires n < j < |code| && code[n] == '\n' && !IsSpace(code[j])
    ensures OpenFenceEnd(code) == Some(e) && n < e <= j && SpacesBetween(code, n, e)
    ensures DropOpenFence(code) == code[e..]
  {
    assert SkipSpace(code, n) > n;
    if n == 9 {
      assert code[3] == code[..9][3] == 'p';
    }
    e := OpenFenceEnd(code).value;
  }

  /**
   * Before code that holds a non-space character, the opening fence match
   * ends inside the code's leading whitespace (just after its last newline),
   * so what it leaves is the code without part of that whitespace.
   */
  lemma OpenFenceOfPaddedBlock(opener: string, x: string, rest: string) returns (m: nat)
    requires opener == "```" || opener == "```python"
    requires exists k :: 0 <= k < |x| && !IsSpace(x[k])
    ensures m <= |x| && AllSpace(x[..m])
    ensures DropOpenFence(opener + "\n" + x + rest) == x[m..] + rest
  {
    var code := opener + "\n" + x + rest;
    var n := |opener|;
    var j :| 0 <= j < |x| && !IsSpace(x[j]);
    LineParts(opener, x, rest, j);
    FenceOpener(opener, code);
    var e := OpenFenceWithin(code, n, n + 1 + j);
    m := SpacePrefixOf(code, n + 1, x, rest, e);
  }

  /** The pieces of a first line, a newline and the text after it, and where `x[j]` sits. */
  lemma LineParts(a: string, x: string, rest: string, j: nat)
    requires j < |x|
    ensures var s := a + "\n" + x + rest;
      && |s| == |a| + 1 + |x| + |rest| && s[..|a|] == a && s[|a|] == '\n' && s[|a| + 1..] == x + rest
      && s[|a| + 1 + j] == x[j]
  {
    var s := a + "\n" + x + rest;
    assert s == a + ("\n" + (x + rest));
  }

  /** A cut at `e` inside a whitespace run that starts where `x` starts drops only leading whitespace of `x`. */
  lemma SpacePrefixOf(s: string, i: nat, x: string, rest: string, e: nat) returns (m: nat)
    requires i <= e <= |s| && s[i..] == x + rest
    requires SpacesBetween(s, i, e) && e <= i + |x|
    ensures m == e - i && AllSpace(x[..m]) && s[e..] == x[m..] + rest
  {
    m := e - i;
    forall k | 0 <= k < m
      ensures IsSpace(x[..m][k])
    {
      assert x[..m][k] == s[i..][k] == s[i + k];
    }
    assert s[e..] == s[i..][m..] == (x + rest)[m..] == x[m..] + rest;
  }

  /** Text that starts with a bare or `python` opener and a newline. */
  lemma FenceOpener(opener: string, code: string)
    requires opener == "```" || opener == "```python"
    requires |code| > |opener| && code[..|opener|] == opener && code[|opener|] == '\n'
    ensures |opener| == 3 || |opener| == 9
    ensures OccursAt(code, "```", 0)
    ensures |opener| == 9 <==> OccursAt(code, "```python", 0)
  {
    assert code[..3] == opener[..3] == "```";
    if opener == "```" {
      assert code[3] != "```python"[3];
    }
  }

  /**
   * A fenced block round-trips: the code between an opening fence (bare or
   * tagged `python`) and a closing fence, trailing whitespace allowed, comes
   * back stripped, whenever it holds a non-space character.
   */
  lemma FencedBlockUnwrapped(opener: string, x: string, tail: string)
    requires opener == "```" || opener == "```python"
    requires exists k :: 0 <= k < |x| && !IsSpace(x[k])
    requires AllSpace(tail)
    ensures StripMarkdownFences(opener + "\n" + x + "\n```" + tail) == Strip(x)
  {
    var fence := "\n```";
    var m := OpenFenceOfPaddedBlock(opener, x, fence + tail);
    Regroup(opener + "\n" + x, fence, tail);
    Regroup(x[m..], fence, tail);
    CloseFenceOfBlock(x[m..], tail);
    LStripDropSpace(x, m);
    UnwrapSteps(opener + "\n" + x + fence + tail, x[m..] + fence + tail, x[m..], x);
  }

  lemma Regroup(a: string, b: string, c: string)
    ensures a + b + c == a + (b + c)
  {
  }

  /** The two substitutions and `strip()`, one step at a time. */
  lemma UnwrapSteps(code: string, mid: string, inner: string, x: string)
    requires DropOpenFence(code) == mid && DropCloseFence(mid) == inner && LStrip(inner) == LStrip(x)
    ensures StripMarkdownFences(code) == Strip(x)
  {
  }

  /** Only a bare fence or one tagged `python` is dropped: `py`, `py3` or any other tag stays. */
  lemma OtherTagKept(code: string)
    requires OccursAt(code, "```", 0) && |code| > 3 && !IsSpace(code[3])
    requires !OccursAt(code, "```python", 0)
    ensures DropOpenFence(code) == code
  {
    assert SkipSpace(code, 3) == 3;
  }

  /** An empty fenced block leaves its closing backticks: the opening match takes both newlines. */
  lemma EmptyBlockLeavesBackticks()
    ensures StripMarkdownFences("```python\n\n```") == "```"
  {
    var code := "```python\n\n```";
    assert code[..3] == "```" && code[..9] == "```python";
    assert SkipSpace(code, 11) == 11;
    assert SkipSpace(code, 9) == 11;
    assert OpenFenceEnd(code) == Some(11);
    assert DropOpenFence(code) == "```";
    assert CloseFenceFrom("```", 0) == None;
    StripTrimmed("```");
  }
}

=== FILE: paths.dfy ===
/**
 * The part of `pathlib.PurePosixPath` the pipeline uses: joining a name,
 * `name`, `stem`, `suffix`, `parent`, `with_name`, `str()` and parsing a
 * string back into a path.  A path is a flag saying whether it starts at the
 * root and its list of components.
 */
module Paths {
  import opened Wrappers
  import opened Text

  datatype Path = Path(absolute: bool, parts: seq<string>)

  /** A name that stands for exactly one path component. */
  predicate IsComponent(name: string) {
    name != "" && name != "." && '/' !in name
  }

  /** Every component is a proper name: what pathlib keeps after parsing. */
  predicate WellFormed(p: Path) {
    forall k :: 0 <= k < |p.parts| ==> IsComponent(p.parts[k])
  }

  /** `p.name`: the last component, or `""` when there is none. */
  function Name(p: Path): string {
    if p.parts == [] then "" else p.parts[|p.parts| - 1]
  }

  /** `p.parent`: drops the last component; the root and `.` are their own parent. */
  function Parent(p: Path): Path {
    if p.parts == [] then p else Path(p.absolute, p.parts[..|p.parts| - 1])
  }

  /**
   * `p / name` for a name without a slash.  pathlib drops empty and `.`
   * components, so those leave the path as it is.
   */
  function Child(p: Path, name: string): (r: Path)
    requires '/' !in name
    ensures r.absolute == p.absolute
    ensures WellFormed(p) ==> WellFormed(r)
    ensures IsComponent(name) ==> Parent(r) == p && Name(r) == name && |r.parts| == |p.parts| + 1
    ensures !IsComponent(name) ==> r == p
  {
    if IsComponent(name) then Path(p.absolute, p.parts + [name]) else p
  }

  /** `s.rfind(c)`: the last index holding `c`, or -1. */
  function RFind(s: string, c: char): (i: int)
    ensures -1 <= i < |s|
    ensures i >= 0 ==> s[i] == c
    ensures forall k :: i < k < |s| ==> s[k] != c
  {
    if s == [] then -1
    else if s[|s| - 1] == c then |s| - 1
    else RFind(s[..|s| - 1], c)
  }

  /** The last `c` of a text is the one after which no `c` follows. */
  lemma {:induction false} RFindAfter(a: string, c: char, b: string)
    requires c !in b
    ensures RFind(a + [c] + b, c) == |a|
  {
    if b != [] {
      var s := a + [c] + b;
      assert s[..|s| - 1] == a + [c] + b[..|b| - 1];
      RFindAfter(a, c, b[..|b| - 1]);
    }
  }

  /** Where `suffix` starts in a name: at its last dot, unless that dot is first or last. */
  predicate HasSuffix(name: string) {
    0 < RFind(name, '.') < |name| - 1
  }

  /** `p.suffix`. */
  function Suffix(p: Path): string {
    var n := Name(p);
    if HasSuffix(n) then n[RFind(n, '.')..] else ""
  }

  /** `p.stem`. */
  function Stem(p: Path): string {
    var n := Name(p);
    if HasSuffix(n) then n[..RFind(n, '.')] else n
  }

  /** The stem and the suffix split the name; a suffix is empty or one dot and no other. */
  lemma StemSuffix(p: Path)
    ensures Stem(p) + Suffix(p) == Name(p)
    ensures Suffix(p) == "" || (Suffix(p)[0] == '.' && |Suffix(p)| >= 2 && '.' !in Suffix(p)[1..])
    ensures Stem(p) == "" ==> Name(p) == ""
  {
    var n := Name(p);
    if HasSuffix(n) {
      var i := RFind(n, '.');
      assert n[..i] + n[i..] == n;
      assert forall k :: 0 <= k < |n[i..][1..]| ==> n[i..][1..][k] == n[i + 1 + k];
    }
  }

  /** `p.with_name(name)`, with pathlib's two `ValueError`s. */
  function WithName(p: Path, name: string): (r: Result<Path, PyException>)
    ensures r.Success? <==> Name(p) != "" && IsComponent(name)
    ensures r.Success? ==> Parent(r.value) == Parent(p) && Name(r.value) == name
    ensures r.Success? ==> r.value.absolute == p.absolute && |r.value.parts| == |p.parts|
    ensures r.Success? && WellFormed(p) ==> WellFormed(r.value)
  {
    if Name(p) == "" then Failure(PyException("ValueError", "PosixPath('" + ToString(p) + "') has an empty name"))
    else if !IsComponent(name) then Failure(PyException("ValueError", "Invalid name '" + name + "'"))
    else
      var r := Path(p.absolute, p.parts[..|p.parts| - 1] + [name]);
      assert r.parts[..|r.parts| - 1] == p.parts[..|p.parts| - 1];
      Success(r)
  }

  /** `str(p)`. */
  function ToString(p: Path): string {
    if p.absolute then "/" + Join(p.parts, "/")
    else if p.parts == [] then "."
    else Join(p.parts, "/")
  }

  /** The pieces that name a component, in order. */
  function Components(pieces: seq<string>): (r: seq<string>)
    ensures forall k :: 0 <= k < |r| ==> IsComponent(r[k])
    ensures |r| <= |pieces|
  {
    if pieces == [] then []
    else if IsComponent(pieces[0]) then [pieces[0]] + Components(pieces[1..])
    else Components(pieces[1..])
  }

  /** `pathlib.PurePosixPath(s)` for a string whose pieces contain no `..`. */
  function PathOf(s: string): (p: Path)
    ensures WellFormed(p)
    ensures p.absolute <==> (s != [] && s[0] == '/')
  {
    if s != [] && s[0] == '/' then Path(true, Components(Split(s[1..], '/')))
    else Path(false, Components(Split(s, '/')))
  }

  lemma {:induction false} ComponentsKeeps(pieces: seq<string>)
    requires forall k :: 0 <= k < |pieces| ==> IsComponent(pieces[k])
    ensures Components(pieces) == pieces
  {
    if pieces != [] {
      ComponentsKeeps(pieces[1..]);
    }
  }

  /** Parsing the text of a path gives the path back. */
  lemma PathRoundTrip(p: Path)
    requires WellFormed(p)
    ensures PathOf(ToString(p)) == p
  {
    forall k | 0 <= k < |p.parts|
      ensures '/' !in p.parts[k]
    {
      assert IsComponent(p.parts[k]);
    }
    if p.parts == [] {
      if p.absolute {
        assert ToString(p)[1..] == "";
      } else {
        assert "."[1..] == "";
        assert Split(".", '/') == [['.'] + ""];
      }
    } else {
      SplitJoin(p.parts, '/');
      ComponentsKeeps(p.parts);
      if p.absolute {
        assert ToString(p)[1..] == Join(p.parts, "/");
      } else {
        assert p.parts[0] != "" && p.parts[0][0] != '/';
        JoinStartsWith(p.parts, "/");
      }
    }
  }

  /** A join starts with its first piece. */
  lemma JoinStartsWith(parts: seq<string>, sep: string)
    requires parts != []
    ensures |Join(parts, sep)| >= |parts[0]| && Join(parts, sep)[..|parts[0]|] == parts[0]
  {
    if |parts| > 1 {
      assert Join(parts, sep) == parts[0] + (sep + Join(parts[1..], sep));
    }
  }

  /**
   * `Path.resolve()` on a path whose components hold no `..` and no
   * symbolic link: a relative path is taken from the working directory.
   */
  function Resolve(cwd: Path, p: Path): (r: Path)
    requires cwd.absolute
    ensures r.absolute
    ensures WellFormed(cwd) && WellFormed(p) ==> WellFormed(r)
    ensures p.absolute ==> r == p
  {
    if p.absolute then p else Path(true, cwd.parts + p.parts)
  }

  /** Resolving commutes with naming a child. */
  lemma ResolveChild(cwd: Path, p: Path, name: string)
    requires cwd.absolute && '/' !in name
    ensures Resolve(cwd, Child(p, name)) == Child(Resolve(cwd, p), name)
  {
    if !p.absolute && IsComponent(name) {
      assert cwd.parts + (p.parts + [name]) == (cwd.parts + p.parts) + [name];
    }
  }
}

=== FILE: prompts.dfy ===
/**
 * The generation prompt: the four challenge texts with their `[FRAMEWORK]`
 * placeholder, the per-framework run notes and the fixed list of lines
 * joined with newlines.
 */
module Prompts {
  import opened Text
  import opened Specs
  import opened Challenges

  const Placeholder: string := "[FRAMEWORK]"

  /** `CHALLENGE_PROMPTS[level]`. */
  function ChallengePrompt(level: ChallengeLevel): string {
    TaskBefore(level) + Placeholder + TaskAfter(level)
  }

  /** The placeholder opens with the only `[` it holds. */
  lemma PlaceholderShape()
    ensures Placeholder != [] && Placeholder[0] == '[' && '[' !in Placeholder[1..]
  {
    assert Placeholder[1..] == "FRAMEWORK]";
  }

  /** No framework value holds a `[`. */
  lemma FrameworkValuePlain(framework: Framework)
    ensures '[' !in FrameworkValue(framework)
  {
  }

  /** Each challenge text holds the placeholder exactly once. */
  lemma PlaceholderOnce(level: ChallengeLevel)
    ensures Occurrences(ChallengePrompt(level), Placeholder) == 1
  {
    ChallengeTextPlain(level);
    PlaceholderShape();
    ReplaceSinglePlaceholder(TaskBefore(level), Placeholder, TaskAfter(level), "");
  }

  /**
   * `CHALLENGE_PROMPTS[level].replace("[FRAMEWORK]", framework.value)`: the
   * framework's value stands where the placeholder stood, and no
   * placeholder is left.
   */
  function TaskText(level: ChallengeLevel, framework: Framework): (t: string)
    ensures t == TaskBefore(level) + FrameworkValue(framework) + TaskAfter(level)
    ensures Occurrences(t, Placeholder) == 0
  {
    ChallengeTextPlain(level);
    PlaceholderShape();
    FrameworkValuePlain(framework);
    ReplaceSinglePlaceholder(TaskBefore(level), Placeholder, TaskAfter(level), FrameworkValue(framework));
    ReplaceAll(ChallengePrompt(level), Placeholder, FrameworkValue(framework))
  }

  /** The host argument the Gradio note asks `launch` to be called with. */
  function GradioHostArg(host: string): string {
    "server_name=\"" + host + "\""
  }

  /** The port argument the Gradio note asks `launch` to be called with. */
  function GradioPortArg(port: int): string {
    "server_port=" + IntToString(port)
  }

  /** The exact call the Dash note demands. */
  function DashRunCall(host: string): string {
    "app.run(host=\"" + host + "\", port=PORT, debug=False)"
  }

  /** The constant the Dash note demands. */
  function DashPortLine(port: int): string {
    "PORT = " + IntToString(port)
  }

  // The fixed parts of the run notes.
  const StreamlitNote: string :=
    "Use Streamlit best practices. Do not use"
    + " external files. The app must be runnabl"
    + "e via Streamlit CLI."
  const GradioHead: string :=
    "Use Gradio. The app should run via `pyth"
    + "on app.py` and must call `launch("
  const GradioTail: string :=
    ", share=False)` for local hosting."
  const ShinyNote: string :=
    "Use Shiny for Python. Provide a single `"
    + "app.py` for UI + server."
  const PanelNote: string :=
    "Use Panel (HoloViz). The app should run "
    + "via `panel serve app.py`. Use `pn.extens"
    + "ion()` at the top. Make the main compone"
    + "nt servable with `.servable()`. Do NOT u"
    + "se `pn.serve()` or `pn.panel().show()` s"
    + "ince the app will be served via `panel s"
    + "erve`. Ensure there is at least one `pn."
    + "widgets.Button` with a click handler. In"
    + "clude 'panel' and 'bokeh' in requirement"
    + "s."
  const DashHead: string :=
    "Use Plotly Dash. The app must run via `p"
    + "ython app.py`. You MUST define `"
  const DashMid: string :=
    "` and then call exactly: `"
  const DashTail: string :=
    "`. Do not use `app.run_server`. Do not p"
    + "ick a different host. Do not ignore the "
    + "provided PORT."

  /** The framework-specific run notes of `build_generation_prompt`; every framework has one. */
  function RunNotes(framework: Framework, host: string, port: int): string {
    match framework
    case Streamlit => StreamlitNote
    case Gradio => GradioHead + GradioHostArg(host) + ", " + GradioPortArg(port) + GradioTail
    case Shiny => ShinyNote
    case Panel => PanelNote
    case Dash => DashHead + DashPortLine(port) + DashMid + DashRunCall(host) + DashTail
  }

  /** The first seven lines of every generation prompt. */
  const FixedHead: seq<string> := [
    "You are an expert Python UI engineer.",
    "Generate a visually polished, modern das"
    + "hboard-like app.",
    "Constraints:",
    "- Output must be valid Python.",
    "- Prefer a single file named `app.py`.",
    "- No placeholder pseudocode; everything "
    + "must run.",
    "- Keep dependencies minimal."
  ]

  /** The line that announces the answer format. */
  const FormatLead: string :=
    "IMPORTANT: You MUST respond with ONLY a "
    + "JSON object (no markdown, no extra text)"
    + ". Use this exact format:"

  /** The instruction that closes every generation prompt. */
  const JsonFormatLine: string :=
    "{\"code\": \"<full app.py contents with esc"
    + "aped newlines as \\\\n>\", \"run_command\": \""
    + "<command>\", \"requirements_txt\": \"<packag"
    + "e1\\npackage2>\", \"instructions\": \"<any ex"
    + "tra steps>\"}"

  /** The address the generated app must listen on. */
  function Address(host: string, port: int): string {
    "http://" + host + ":" + IntToString(port)
  }

  const BindLead: string := "- The app must bind to "
  const BindTail: string := " (where applicable)."
  const NotesLead: string := "Framework-specific notes: "
  const TaskLead: string := "TASK: "

  function BindLine(host: string, port: int): string {
    BindLead + Address(host, port) + BindTail
  }

  function NotesLine(framework: Framework, host: string, port: int): string {
    NotesLead + RunNotes(framework, host, port)
  }

  function TaskLine(level: ChallengeLevel, framework: Framework): string {
    TaskLead + TaskText(level, framework)
  }

  /** The lines that `build_generation_prompt` joins, in order. */
  function GenerationPromptLines(framework: Framework, level: ChallengeLevel, host: string, port: int): seq<string> {
    FixedHead + PromptBody(framework, level, host, port)
  }

  /** The lines after the fixed head. */
  function PromptBody(framework: Framework, level: ChallengeLevel, host: string, port: int): seq<string> {
    BodyLines(BindLine(host, port), NotesLine(framework, host, port), TaskLine(level, framework))
  }

  /** The lines after the fixed head, around the address, run-notes and task lines. */
  function BodyLines(bind: string, notes: string, task: string): seq<string> {
    [
      bind,
      "- Avoid downloading large assets at runtime.",
      "",
      notes,
      "",
      task,
      "",
      FormatLead,
      JsonFormatLine
    ]
  }

  /** `s` ends with a line break followed by `line`. */
  predicate EndsWithLine(s: string, line: string) {
    |s| > |line| && s[|s| - |line| - 1..] == "\n" + line
  }

  /** `build_generation_prompt`: the lines joined with `"\n"`; the JSON instruction comes last. */
  function BuildGenerationPrompt(framework: Framework, level: ChallengeLevel, host: string, port: int): (p: string)
    ensures EndsWithLine(p, JsonFormatLine)
  {
    var lines := GenerationPromptLines(framework, level, host, port);
    assert |lines| == 16 && lines[15] == JsonFormatLine;
    JoinEndsWith(lines, "\n");
    Join(lines, "\n")
  }

  /** Every line of the prompt occurs in it. */
  lemma PromptHasLine(framework: Framework, level: ChallengeLevel, host: string, port: int, k: int)
    requires 0 <= k < |GenerationPromptLines(framework, level, host, port)|
    ensures Contains(BuildGenerationPrompt(framework, level, host, port), GenerationPromptLines(framework, level, host, port)[k])
  {
    JoinContains(GenerationPromptLines(framework, level, host, port), "\n", k);
  }

  /** Where the address, the run notes and the task sit among the prompt's lines. */
  lemma PromptLineSlots(framework: Framework, level: ChallengeLevel, host: string, port: int)
    ensures |GenerationPromptLines(framework, level, host, port)| == 16
    ensures GenerationPromptLines(framework, level, host, port)[7] == BindLine(host, port)
    ensures GenerationPromptLines(framework, level, host, port)[10] == NotesLine(framework, host, port)
    ensures GenerationPromptLines(framework, level, host, port)[12] == TaskLine(level, framework)
  {
    FixedHeadLength();
    HeadBodySlots(FixedHead, BindLine(host, port), NotesLine(framework, host, port), TaskLine(level, framework));
  }

  /** Where the address, the run notes and the task sit after a head of lines. */
  lemma HeadBodySlots(head: seq<string>, bind: string, notes: string, task: string)
    ensures |head + BodyLines(bind, notes, task)| == |head| + 9
    ensures (head + BodyLines(bind, notes, task))[|head|] == bind
    ensures (head + BodyLines(bind, notes, task))[|head| + 3] == notes
    ensures (head + BodyLines(bind, notes, task))[|head| + 5] == task
  {
  }

  /** The fixed head has seven lines. */
  lemma FixedHeadLength()
    ensures |FixedHead| == 7
  {
  }

  /** A text that contains a line contains that line's ending. */
  lemma ContainsLineEnd(s: string, lead: string, rest: string)
    requires Contains(s, lead + rest)
    ensures Contains(s, rest)
  {
    ContainsEnd(lead, rest);
    ContainsTransitive(s, lead + rest, rest);
  }

  /** The prompt carries the task, with the framework's value in place of the placeholder. */
  lemma PromptMentionsTask(framework: Framework, level: ChallengeLevel, host: string, port: int)
    ensures Contains(BuildGenerationPrompt(framework, level, host, port), TaskText(level, framework))
  {
    PromptLineSlots(framework, level, host, port);
    PromptHasLine(framework, level, host, port, 12);
    ContainsLineEnd(BuildGenerationPrompt(framework, level, host, port), TaskLead, TaskText(level, framework));
  }

  /** The prompt carries the address the app must bind to. */
  lemma PromptMentionsAddress(framework: Framework, level: ChallengeLevel, host: string, port: int)
    ensures Contains(BuildGenerationPrompt(framework, level, host, port), Address(host, port))
  {
    PromptLineSlots(framework, level, host, port);
    PromptHasLine(framework, level, host, port, 7);
    ContainsMiddle(BindLead, Address(host, port), BindTail);
    ContainsTransitive(BuildGenerationPrompt(framework, level, host, port), BindLine(host, port), Address(host, port));
  }

  /** The prompt carries the framework's run notes. */
  lemma PromptMentionsNotes(framework: Framework, level: ChallengeLevel, host: string, port: int)
    ensures Contains(BuildGenerationPrompt(framework, level, host, port), RunNotes(framework, host, port))
  {
    PromptLineSlots(framework, level, host, port);
    PromptHasLine(framework, level, host, port, 10);
    ContainsLineEnd(BuildGenerationPrompt(framework, level, host, port), NotesLead, RunNotes(framework, host, port));
  }

  /** The Dash note fixes the port constant and the exact `app.run` call; the Gradio note the `launch` arguments. */
  lemma RunNotesMention(host: string, port: int)
    ensures Contains(RunNotes(Dash, host, port), DashPortLine(port))
    ensures Contains(RunNotes(Dash, host, port), DashRunCall(host))
    ensures Contains(RunNotes(Gradio, host, port), GradioHostArg(host))
    ensures Contains(RunNotes(Gradio, host, port), GradioPortArg(port))
  {
    ContainsParts(DashHead, DashPortLine(port), DashMid, DashRunCall(host), DashTail);
    ContainsParts(GradioHead, GradioHostArg(host), ", ", GradioPortArg(port), GradioTail);
  }
}

=== FILE: runner.dfy ===
/**
 * The run orchestration of `run_evaluation`: the framework-by-level job list
 * with consecutive ports, one generation pass per model, the mapping of each
 * generation outcome to an evaluation record (with Gate 1 and Gate 2 run on
 * the generated app), and the Gate 3 bookkeeping that leaves every record of
 * a model with a Gate 3 result.  The chat model, the compiler, the Gate 2
 * and Gate 3 surroundings and the files on disk are oracles held in a
 * `RunnerEnv`.
 */
module Runner {
  import opened Wrappers
  import opened Text
  import opened Paths
  import opened Specs
  import opened Config
  import opened Gates
  import opened Gate3Inspect
  import opened ChatGenerate

  // Directory names and file contents.

  /** The characters `_safe_dir_name` keeps: letters and digits (ASCII only here), `-`, `_` and `.`. */
  predicate SafeChar(c: char) {
    IsAlnum(c) || c == '-' || c == '_' || c == '.'
  }

  /** The safe characters of `s`, in order. */
  function KeepSafe(s: string): (r: string)
    ensures |r| <= |s|
    ensures forall k :: 0 <= k < |r| ==> SafeChar(r[k])
  {
    if s == [] then []
    else if SafeChar(s[0]) then [s[0]] + KeepSafe(s[1..])
    else KeepSafe(s[1..])
  }

  /**
   * `_safe_dir_name`: the safe characters of the value with the dots at
   * either end removed.  The result names one path component, unless it is
   * empty.
   */
  function SafeDirName(value: string): (r: string)
    ensures forall k :: 0 <= k < |r| ==> SafeChar(r[k])
    ensures r == [] || (r[0] != '.' && r[|r| - 1] != '.')
    ensures '/' !in r
    ensures IsComponent(r) <==> r != []
  {
    RStripChar(LStripChar(KeepSafe(value), '.'), '.')
  }

  /** Text made only of safe characters passes the filter unchanged. */
  lemma {:induction false} KeepSafeKeeps(s: string)
    requires forall k :: 0 <= k < |s| ==> SafeChar(s[k])
    ensures KeepSafe(s) == s
  {
    if s != [] {
      KeepSafeKeeps(s[1..]);
    }
  }

  /** The filter works piece by piece. */
  lemma {:induction false} KeepSafeAppend(a: string, b: string)
    ensures KeepSafe(a + b) == KeepSafe(a) + KeepSafe(b)
  {
    if a == [] {
      assert a + b == b;
    } else {
      assert (a + b)[1..] == a[1..] + b;
      KeepSafeAppend(a[1..], b);
    }
  }

  /** A name that is already safe and has no dot at either end is its own directory name. */
  lemma SafeDirNameKeeps(value: string)
    requires forall k :: 0 <= k < |value| ==> SafeChar(value[k])
    requires value == [] || (value[0] != '.' && value[|value| - 1] != '.')
    ensures SafeDirName(value) == value
  {
    KeepSafeKeeps(value);
    assert value == [] || value[0] != '.';
    assert LStripChar(value, '.') == value;
    assert RStripChar(value, '.') == value;
  }

  /** Cleaning a cleaned name changes nothing. */
  lemma SafeDirNameIdempotent(value: string)
    ensures SafeDirName(SafeDirName(value)) == SafeDirName(value)
  {
    SafeDirNameKeeps(SafeDirName(value));
  }

  /**
   * A character outside the safe set disappears wherever it stands, such as
   * the `:` of a model version or a `/`, and the text around it closes up.
   */
  lemma SafeDirNameDrops(a: string, c: char, b: string)
    requires !SafeChar(c)
    ensures SafeDirName(a + [c] + b) == SafeDirName(a + b)
  {
    KeepSafeAppend(a + [c], b);
    KeepSafeAppend(a, [c]);
    KeepSafeAppend(a, b);
    assert KeepSafe([c]) == KeepSafe([c][1..]) == [];
    assert KeepSafe(a + [c] + b) == KeepSafe(a + b);
  }

  /**
   * What `_write_text` writes for `content`: the content without its
   * trailing whitespace, then exactly one newline.
   */
  function FileText(content: string): (r: string)
    ensures |r| >= 1 && r[|r| - 1] == '\n'
    ensures |r| - 1 <= |content| && r[..|r| - 1] == content[..|r| - 1]
    ensures AllSpace(content[|r| - 1..])
    ensures |r| == 1 || !IsSpace(r[|r| - 2])
  {
    RStrip(content) + "\n"
  }

  /** Writing a file's text again writes the same text. */
  lemma FileTextIdempotent(content: string)
    ensures FileText(FileText(content)) == FileText(content)
  {
    var t := RStrip(content);
    var f := t + "\n";
    assert f[..|f| - 1] == t;
    assert RStrip(f) == RStrip(t);
  }

  // The job list.

  /** The framework, level and port of one job, as `job_meta` keeps them. */
  datatype JobMeta = JobMeta(framework: Framework, level: ChallengeLevel, port: int)

  /** The position of the job for the `i`-th framework and the `j`-th level among `width` levels. */
  function Cell(i: nat, j: nat, width: nat): nat {
    i * width + j
  }

  /** The jobs of one framework: one per level, in order, on consecutive ports from `port`. */
  function RowMetas(f: Framework, levels: seq<ChallengeLevel>, port: int): seq<JobMeta> {
    seq(|levels|, j requires 0 <= j < |levels| => JobMeta(f, levels[j], port + j))
  }

  /** The job list: framework after framework, each followed by its levels, ports counting up from `port`. */
  function JobMetas(frameworks: seq<Framework>, levels: seq<ChallengeLevel>, port: int): seq<JobMeta> {
    if frameworks == [] then []
    else
      var n := |frameworks| - 1;
      JobMetas(frameworks[..n], levels, port) + RowMetas(frameworks[n], levels, port + n * |levels|)
  }

  /** The generation jobs for a job list. */
  function JobsOf(metas: seq<JobMeta>, host: string): seq<GenerationJob> {
    seq(|metas|, k requires 0 <= k < |metas| => GenerationJob(metas[k].framework, metas[k].level, host, metas[k].port))
  }

  /**
   * The job list is the framework-major cross product: |F|·|L| jobs, the
   * `k`-th on port `port + k`, and the job at `i·|L| + j` is for the `i`-th
   * framework and the `j`-th level.
   */
  lemma {:induction false} JobMetasShape(frameworks: seq<Framework>, levels: seq<ChallengeLevel>, port: int)
    ensures |JobMetas(frameworks, levels, port)| == |frameworks| * |levels|
    ensures forall k :: 0 <= k < |JobMetas(frameworks, levels, port)| ==> JobMetas(frameworks, levels, port)[k].port == port + k
    ensures forall i, j :: 0 <= i < |frameworks| && 0 <= j < |levels| ==>
      && Cell(i, j, |levels|) < |frameworks| * |levels|
      && JobMetas(frameworks, levels, port)[Cell(i, j, |levels|)] == JobMeta(frameworks[i], levels[j], port + Cell(i, j, |levels|))
  {
    if frameworks != [] {
      var n := |frameworks| - 1;
      var w := |levels|;
      var init := frameworks[..n];
      JobMetasShape(init, levels, port);
      var front := JobMetas(init, levels, port);
      var row := RowMetas(frameworks[n], levels, port + n * w);
      var all := JobMetas(frameworks, levels, port);
      assert all == front + row;
      assert |all| == n * w + w == |frameworks| * w;
      forall i, j | 0 <= i < |frameworks| && 0 <= j < w
        ensures Cell(i, j, w) < |frameworks| * w
        ensures all[Cell(i, j, w)] == JobMeta(frameworks[i], levels[j], port + Cell(i, j, w))
      {
        if i < n {
          assert frameworks[i] == init[i];
          assert Cell(i, j, w) < n * w;
        } else {
          assert Cell(i, j, w) == n * w + j;
        }
      }
    }
  }

  /** Appending a job to the list appends its generation job. */
  lemma JobsOfAppend(metas: seq<JobMeta>, m: JobMeta, host: string)
    ensures JobsOf(metas + [m], host) == JobsOf(metas, host) + [GenerationJob(m.framework, m.level, host, m.port)]
  {
  }

  /** The inner loop of the job list: one job per level for framework `f`, from port `port` on. */
  method AddRow(jobs: seq<GenerationJob>, metas: seq<JobMeta>, f: Framework, levels: seq<ChallengeLevel>, host: string, port: int)
    returns (jobs': seq<GenerationJob>, metas': seq<JobMeta>, port': int)
    requires jobs == JobsOf(metas, host)
    ensures metas' == metas + RowMetas(f, levels, port)
    ensures jobs' == JobsOf(metas', host)
    ensures port' == port + |levels|
  {
    jobs', metas', port' := jobs, metas, port;
    for j := 0 to |levels|
      invariant metas' == metas + RowMetas(f, levels[..j], port)
      invariant jobs' == JobsOf(metas', host)
      invariant port' == port + j
    {
      JobsOfAppend(metas', JobMeta(f, levels[j], port'), host);
      jobs' := jobs' + [GenerationJob(f, levels[j], host, port')];
      metas' := metas' + [JobMeta(f, levels[j], port')];
      assert RowMetas(f, levels[..j + 1], port) == RowMetas(f, levels[..j], port) + [JobMeta(f, levels[j], port + j)];
      port' := port' + 1;
    }
    assert levels[..|levels|] == levels;
  }

  /** The two loops that build `jobs` and `job_meta`, with the `port` counter. */
  method BuildJobs(frameworks: seq<Framework>, levels: seq<ChallengeLevel>, host: string, basePort: int)
    returns (jobs: seq<GenerationJob>, metas: seq<JobMeta>)
    ensures metas == JobMetas(frameworks, levels, basePort)
    ensures jobs == JobsOf(metas, host)
  {
    jobs := [];
    metas := [];
    var port := basePort;
    for i := 0 to |frameworks|
      invariant metas == JobMetas(frameworks[..i], levels, basePort)
      invariant jobs == JobsOf(metas, host)
      invariant port == basePort + i * |levels|
    {
      jobs, metas, port := AddRow(jobs, metas, frameworks[i], levels, host, port);
      assert frameworks[..i + 1][..i] == frameworks[..i];
      assert port == basePort + (i + 1) * |levels|;
    }
    assert frameworks[..|frameworks|] == frameworks;
  }

  // One record per job.

  /** A generation outcome as `zip` hands it over: a result, the caught exception, or `None`. */
  type GenItem = Option<Result<GenerationResult, PyException>>

  /** Everything outside the model that a run depends on. */
  datatype RunnerEnv = RunnerEnv(
    cwd: Path,
    chat: string -> ((nat, GenerationJob) -> Result<string, PyException>),
    decode: string -> Option<Json>,
    compile: string -> Outcome,
    gate2: (string, nat) -> Gate2Env,
    gate3Import: Outcome,
    gate3: string -> Gate3Env)

  /** The arguments of `run_evaluation`, with its defaults. */
  datatype RunOptions = RunOptions(
    frameworks: seq<Framework>,
    levels: seq<ChallengeLevel>,
    modelIds: seq<string>,
    outDir: Path,
    host: string := "127.0.0.1",
    basePort: int := 8501,
    gate2: bool := true,
    gate3: bool := false,
    graderModel: Option<string> := None)

  /** A lower-case word names a path component. */
  lemma WordIsComponent(s: string)
    requires LowerWord(s)
    ensures IsComponent(s)
  {
    assert s[0] != '.';
  }

  /**
   * `out_dir / framework.value / level.value / model_slug`: the two values
   * are always components and the slug is one unless it is empty, in which
   * case pathlib drops it.
   */
  function JobDir(outDir: Path, meta: JobMeta, modelId: string): Path {
    var slug := SafeDirName(modelId);
    Path(outDir.absolute, outDir.parts + [FrameworkValue(meta.framework), LevelValue(meta.level)] + (if slug == [] then [] else [slug]))
  }

  /** The job directory is the output directory joined with the three names, as pathlib joins them. */
  lemma JobDirJoins(outDir: Path, meta: JobMeta, modelId: string)
    ensures JobDir(outDir, meta, modelId)
      == Child(Child(Child(outDir, FrameworkValue(meta.framework)), LevelValue(meta.level)), SafeDirName(modelId))
    ensures WellFormed(outDir) ==> WellFormed(JobDir(outDir, meta, modelId))
    ensures SafeDirName(modelId) != [] ==> Name(JobDir(outDir, meta, modelId)) == SafeDirName(modelId)
  {
    var f, l, slug := FrameworkValue(meta.framework), LevelValue(meta.level), SafeDirName(modelId);
    WordIsComponent(f);
    WordIsComponent(l);
    var p2 := Child(Child(outDir, f), l);
    assert p2 == Path(outDir.absolute, outDir.parts + [f, l]);
    if slug == [] {
      assert outDir.parts + [f, l] + [] == outDir.parts + [f, l];
    }
  }

  const GenerationFailed: string := "generation failed"
  const NotSubmitted: string := "generation was not submitted"
  const Gate2Disabled: string := "Gate 2 disabled"

  /** The Gate 2 surroundings of the `k`-th job of a model, in the run's working directory. */
  function Gate2EnvFor(env: RunnerEnv, modelId: string, k: nat): Gate2Env {
    env.gate2(modelId, k).(cwd := env.cwd)
  }

  /**
   * What launching Gate 2 for the `k`-th job of a model gives: a record, or
   * the exception that escapes `gate2_run_and_screenshot`.
   */
  type Gate2Launcher = (string, nat, JobMeta, Path) -> Result<Gate2Result, PyException>

  /**
   * The launcher of a run: `gate2_run_and_screenshot` for the job's framework
   * on the job's directory, host and port, with `dashboard.png` in that
   * directory as the screenshot path and no timeout override.
   */
  function LaunchGate2(o: RunOptions, env: RunnerEnv): Gate2Launcher
    requires env.cwd.absolute
  {
    (modelId: string, k: nat, meta: JobMeta, dir: Path) =>
      Gate2(Listed(meta.framework), dir, o.host, meta.port, Child(dir, "dashboard.png"), None, Gate2EnvFor(env, modelId, k)).result
  }

  /** Gate 2 for one generated app: a skip record when it is disabled, else the launch. */
  function Gate2For(o: RunOptions, launch: Gate2Launcher, modelId: string, k: nat, meta: JobMeta, dir: Path): Result<Gate2Result, PyException> {
    if !o.gate2 then Success(Gate2Result(ok := false, skippedReason := Some(Gate2Disabled)))
    else launch(modelId, k, meta, dir)
  }

  /**
   * The record for the `k`-th job of a model: a failed generation or one
   * never submitted is recorded without running anything; a generated app
   * is written out, compiled and passed to Gate 2, whose exception escapes.
   */
  function RecordOf(o: RunOptions, env: RunnerEnv, launch: Gate2Launcher, modelId: string, k: nat, meta: JobMeta, item: GenItem): Result<EvalResult, PyException>
  {
    var dir := ToString(JobDir(o.outDir, meta, modelId));
    match item
    case Some(Failure(e)) =>
      Success(EvalResult(meta.framework, meta.level, modelId, dir,
        Gate1Result(ok := false, error := Some(GenerationFailed + ": " + e.message)),
        Gate2Result(ok := false, error := Some(GenerationFailed))))
    case None =>
      Success(EvalResult(meta.framework, meta.level, modelId, dir,
        Gate1Result(ok := false, error := Some(NotSubmitted)),
        Gate2Result(ok := false, error := Some(NotSubmitted))))
    case Some(Success(g)) =>
      var gate1 := Gate1Compile(env.compile(FileText(g.data.code)));
      match Gate2For(o, launch, modelId, k, meta, JobDir(o.outDir, meta, modelId))
      case Failure(e) => Failure(e)
      case Success(gate2) => Success(EvalResult(meta.framework, meta.level, modelId, dir, gate1, gate2))
  }

  /**
   * Each record names its job and model and has no Gate 3 result yet; a
   * generation failure and a missing generation are recorded as such on both
   * gates; with Gate 2 disabled a generated app is compiled and never
   * launched; only Gate 2 can raise.
   */
  lemma RecordOfShape(o: RunOptions, env: RunnerEnv, launch: Gate2Launcher, modelId: string, k: nat, meta: JobMeta, item: GenItem)
    ensures var r := RecordOf(o, env, launch, modelId, k, meta, item);
      r.Success? ==> (r.value.framework == meta.framework && r.value.level == meta.level
        && r.value.modelId == modelId && r.value.outputDir == ToString(JobDir(o.outDir, meta, modelId))
        && r.value.gate3 == None)
    ensures var r := RecordOf(o, env, launch, modelId, k, meta, item);
      item.Some? && item.value.Failure? ==> (r.Success?
        && r.value.gate1 == Gate1Result(ok := false, error := Some(GenerationFailed + ": " + item.value.error.message))
        && r.value.gate2 == Gate2Result(ok := false, error := Some(GenerationFailed)))
    ensures var r := RecordOf(o, env, launch, modelId, k, meta, item);
      item.None? ==> (r.Success?
        && r.value.gate1 == Gate1Result(ok := false, error := Some(NotSubmitted))
        && r.value.gate2 == Gate2Result(ok := false, error := Some(NotSubmitted)))
    ensures var r := RecordOf(o, env, launch, modelId, k, meta, item);
      item.Some? && item.value.Success? && !o.gate2 ==> (r.Success?
        && r.value.gate1 == Gate1Compile(env.compile(FileText(item.value.value.data.code)))
        && r.value.gate2 == Gate2Result(ok := false, skippedReason := Some(Gate2Disabled)))
    ensures var r := RecordOf(o, env, launch, modelId, k, meta, item);
      r.Failure? ==> (item.Some? && item.value.Success? && o.gate2
        && Gate2For(o, launch, modelId, k, meta, JobDir(o.outDir, meta, modelId)) == Failure(r.error))
  {
  }

  /** One turn of a model's job loop: the record for the `k`-th job, or the exception it raises. */
  type JobStep = (nat, JobMeta, GenItem) -> Result<EvalResult, PyException>

  /** The job loop's turn for one model of a run. */
  function StepOf(o: RunOptions, env: RunnerEnv, launch: Gate2Launcher, modelId: string): JobStep {
    (k: nat, meta: JobMeta, item: GenItem) => RecordOf(o, env, launch, modelId, k, meta, item)
  }

  /** The job directories of one model of a run. */
  function DirOf(o: RunOptions, modelId: string): JobMeta -> Path {
    (meta: JobMeta) => JobDir(o.outDir, meta, modelId)
  }

  /** The state of a model's job loop: its records so far, the job directories whose app files were written, and an escaped exception. */
  datatype Progress = Progress(records: seq<EvalResult>, written: seq<Path>, raised: Option<PyException>)

  /**
   * The job loop of one model after its first `n` jobs: the files of every
   * generated app are written to its directory before its gates run, and an
   * exception ends the loop.
   */
  function ModelPass(step: JobStep, dirOf: JobMeta -> Path, metas: seq<JobMeta>, items: seq<GenItem>, n: nat): Progress
    requires n <= |metas| && n <= |items|
  {
    if n == 0 then Progress([], [], None)
    else
      var p := ModelPass(step, dirOf, metas, items, n - 1);
      if p.raised.Some? then p
      else
        var item := items[n - 1];
        var written := p.written + (if item.Some? && item.value.Success? then [dirOf(metas[n - 1])] else []);
        match step(n - 1, metas[n - 1], item)
        case Failure(e) => Progress(p.records, written, Some(e))
        case Success(r) => Progress(p.records + [r], written, None)
  }

  /**
   * The job loop yields the `k`-th job's record in place `k` when no job
   * raised; otherwise the exception is that of the first job that raised.
   */
  lemma {:induction false} ModelPassRecords(step: JobStep, dirOf: JobMeta -> Path, metas: seq<JobMeta>, items: seq<GenItem>, n: nat)
    requires n <= |metas| && n <= |items|
    ensures var p := ModelPass(step, dirOf, metas, items, n);
      p.raised.None? <==> forall k :: 0 <= k < n ==> step(k, metas[k], items[k]).Success?
    ensures var p := ModelPass(step, dirOf, metas, items, n);
      p.raised.None? ==> (|p.records| == n
        && forall k :: 0 <= k < n ==> p.records[k] == step(k, metas[k], items[k]).value)
    ensures var p := ModelPass(step, dirOf, metas, items, n);
      p.raised.Some? ==> exists k :: (0 <= k < n && step(k, metas[k], items[k]).Failure?
        && p.raised == Some(step(k, metas[k], items[k]).error)
        && forall m :: 0 <= m < k ==> step(m, metas[m], items[m]).Success?)
  {
    if n > 0 {
      ModelPassRecords(step, dirOf, metas, items, n - 1);
      var p := ModelPass(step, dirOf, metas, items, n - 1);
      var r := step(n - 1, metas[n - 1], items[n - 1]);
      if p.raised.None? && r.Failure? {
        assert ModelPass(step, dirOf, metas, items, n).raised == Some(r.error);
      }
    }
  }

  /** Once a job has raised, later jobs change nothing. */
  lemma {:induction false} ModelPassStops(step: JobStep, dirOf: JobMeta -> Path, metas: seq<JobMeta>, items: seq<GenItem>, k: nat, n: nat)
    requires k <= n <= |metas| && n <= |items|
    requires ModelPass(step, dirOf, metas, items, k).raised.Some?
    ensures ModelPass(step, dirOf, metas, items, n) == ModelPass(step, dirOf, metas, items, k)
    decreases n - k
  {
    if k < n {
      ModelPassStops(step, dirOf, metas, items, k, n - 1);
    }
  }

  /** `min(a, b)`: how far `zip(..., strict=False)` goes. */
  function Min(a: nat, b: nat): nat {
    if a <= b then a else b
  }

  /**
   * The job loop of one model, step by step over `zip(job_meta, gen_results)`:
   * it stops at the shorter list and leaves on the first exception.
   */
  method RecordJobs(step: JobStep, dirOf: JobMeta -> Path, metas: seq<JobMeta>, items: seq<GenItem>)
    returns (p: Progress)
    ensures p == ModelPass(step, dirOf, metas, items, Min(|metas|, |items|))
  {
    var n := Min(|metas|, |items|);
    var records: seq<EvalResult> := [];
    var written: seq<Path> := [];
    for k := 0 to n
      invariant ModelPass(step, dirOf, metas, items, k) == Progress(records, written, None)
    {
      var meta, item := metas[k], items[k];
      if item.Some? && item.value.Success? {
        written := written + [dirOf(meta)];
      }
      var r := step(k, meta, item);
      if r.Failure? {
        ModelPassStops(step, dirOf, metas, items, k + 1, n);
        return Progress(records, written, Some(r.error));
      }
      records := records + [r.value];
    }
    return Progress(records, written, None);
  }

  // Gate 3 bookkeeping.

  const GraderMissing: PyException :=
    PyException("ValueError", "gate3_grader_model is required when gate3=True (pass --gate3-grader-model ...)")
  const BeforeName: string := "dashboard_before.png"
  const AfterName: string := "dashboard_after.png"
  const NoScreenshots: string := "Gate 2 did not produce screenshots"
  const ScreenshotMissing: string := "Screenshot missing: "
  const ImportFailed: string := "Gate 3 import failed: "
  const GradingFailed: string := "Gate 3 failed: "
  const NoResult: string := "No Gate 3 result produced for this case"

  /** What `gate3_grade_screenshots` gives for a list of cases: results keyed by directory, or an exception. */
  type Grader = seq<Gate3Case> -> Result<map<string, Gate3Result>, PyException>

  /** A failed Gate 3 result carrying an error. */
  function Gate3Error(message: string): Gate3Result {
    Gate3Result(ok := false, error := Some(message))
  }

  /** The path of a file named `name` in a record's directory. */
  function InDir(r: EvalResult, name: string): Path {
    var dir := PathOf(r.outputDir);
    Path(dir.absolute, dir.parts + [name])
  }

  /** `Path(r.output_dir) / "dashboard_before.png"`. */
  function BeforeShot(r: EvalResult): Path {
    InDir(r, BeforeName)
  }

  /** `Path(r.output_dir) / "dashboard_after.png"`. */
  function AfterShot(r: EvalResult): Path {
    InDir(r, AfterName)
  }

  /** The two screenshot paths are the record's directory joined with the two file names, as pathlib joins them. */
  lemma ShotsJoin(r: EvalResult)
    ensures BeforeShot(r) == Child(PathOf(r.outputDir), BeforeName)
    ensures AfterShot(r) == Child(PathOf(r.outputDir), AfterName)
  {
    ShotNames();
    InDirIsChild(r, BeforeName);
    InDirIsChild(r, AfterName);
  }

  /** Both screenshot names are single path components. */
  lemma ShotNames()
    ensures IsComponent(BeforeName) && IsComponent(AfterName)
  {
    assert BeforeName[0] != '.' && AfterName[0] != '.';
  }

  lemma InDirIsChild(r: EvalResult, name: string)
    requires IsComponent(name)
    ensures InDir(r, name) == Child(PathOf(r.outputDir), name)
  {
  }

  /** A record that is handed to the scoring model: Gate 2 passed and both screenshots are on disk. */
  predicate Gradable(r: EvalResult, existing: set<Path>) {
    r.gate2.ok && BeforeShot(r) in existing && AfterShot(r) in existing
  }

  /** The case built for a record. */
  function CaseOf(r: EvalResult): Gate3Case {
    Gate3Case(r.framework, r.level, r.modelId, PathOf(r.outputDir), BeforeShot(r), AfterShot(r))
  }

  /**
   * The first loop over a model's records: a record whose Gate 2 failed is
   * skipped, and one with a missing screenshot gets an error naming the
   * first one missing, the before screenshot being looked at first.
   */
  function Prechecked(r: EvalResult, existing: set<Path>): EvalResult {
    if !r.gate2.ok then r.(gate3 := Some(Gate3Result(ok := false, skippedReason := Some(NoScreenshots))))
    else if BeforeShot(r) !in existing then r.(gate3 := Some(Gate3Error(ScreenshotMissing + ToString(BeforeShot(r)))))
    else if AfterShot(r) !in existing then r.(gate3 := Some(Gate3Error(ScreenshotMissing + ToString(AfterShot(r)))))
    else r
  }

  /** `[f(x) for x in xs if keep(x)]`. */
  function Select<T, U>(xs: seq<T>, keep: T -> bool, f: T -> U): (r: seq<U>)
    ensures |r| <= |xs|
    ensures r == [] <==> forall i :: 0 <= i < |xs| ==> !keep(xs[i])
    ensures forall i :: 0 <= i < |xs| && keep(xs[i]) ==> f(xs[i]) in r
    ensures forall y :: y in r ==> exists i :: 0 <= i < |xs| && keep(xs[i]) && y == f(xs[i])
  {
    if xs == [] then []
    else
      var n := |xs| - 1;
      var front := Select(xs[..n], keep, f);
      assert forall i :: 0 <= i < n ==> xs[..n][i] == xs[i];
      if keep(xs[n]) then front + [f(xs[n])] else front
  }

  /** The cases of the gradable records, in order. */
  function CasesOf(records: seq<EvalResult>, existing: set<Path>): seq<Gate3Case> {
    Select(records, (r: EvalResult) => Gradable(r, existing), CaseOf)
  }

  /** One more record adds its case exactly when it is gradable. */
  lemma CasesStep(records: seq<EvalResult>, existing: set<Path>, i: nat)
    requires i < |records|
    ensures CasesOf(records[..i + 1], existing)
              == CasesOf(records[..i], existing) + (if Gradable(records[i], existing) then [CaseOf(records[i])] else [])
  {
    assert records[..i + 1][..i] == records[..i];
  }

  /** The loop over the scoring model's results: a record graded under its directory takes that result, one still without a result gets an error. */
  function Assigned(r: EvalResult, byDir: map<string, Gate3Result>): EvalResult {
    if r.outputDir in byDir then r.(gate3 := Some(byDir[r.outputDir]))
    else if r.gate3.None? then r.(gate3 := Some(Gate3Error(NoResult)))
    else r
  }

  /** The handler of a grading exception: every record still without a result gets the exception's text. */
  function GradingFailedOn(r: EvalResult, e: PyException): EvalResult {
    if r.gate3.None? then r.(gate3 := Some(Gate3Error(GradingFailed + e.message))) else r
  }

  /** Each record transformed by `f`, in place. */
  function MapRecords(records: seq<EvalResult>, f: EvalResult -> EvalResult): seq<EvalResult> {
    seq(|records|, i requires 0 <= i < |records| => f(records[i]))
  }

  /** The per-record updates of the phase, as functions to map over the records. */
  function ImportFailedStep(msg: string): EvalResult -> EvalResult {
    (r: EvalResult) => r.(gate3 := Some(Gate3Error(ImportFailed + msg)))
  }

  function PrecheckStep(existing: set<Path>): EvalResult -> EvalResult {
    (r: EvalResult) => Prechecked(r, existing)
  }

  function AssignStep(byDir: map<string, Gate3Result>): EvalResult -> EvalResult {
    (r: EvalResult) => Assigned(r, byDir)
  }

  function GradingFailedStep(e: PyException): EvalResult -> EvalResult {
    (r: EvalResult) => GradingFailedOn(r, e)
  }

  /**
   * The Gate 3 phase of one model: nothing when Gate 3 is off; the
   * `ValueError` when no grader model is named; the import failure on every
   * record; else the screenshot checks, then grading of the gradable
   * records (unless there are none), whose exception is caught.
   */
  function Gate3Phase(o: RunOptions, imported: Outcome, existing: set<Path>, grade: Grader, records: seq<EvalResult>): Result<seq<EvalResult>, PyException> {
    if !o.gate3 then Success(records)
    else if o.graderModel.None? || o.graderModel.value == "" then Failure(GraderMissing)
    else if imported.Raised? then
      Success(MapRecords(records, ImportFailedStep(imported.exc.message)))
    else
      var checked := MapRecords(records, PrecheckStep(existing));
      var cases := CasesOf(records, existing);
      if cases == [] then Success(checked)
      else
        match grade(cases)
        case Success(byDir) => Success(MapRecords(checked, AssignStep(byDir)))
        case Failure(e) => Success(MapRecords(checked, GradingFailedStep(e)))
  }

  /**
   * The phase changes only the Gate 3 results, and with Gate 3 on it leaves
   * every record with one, whichever way the phase ends; with Gate 3 off it
   * changes nothing.
   */
  lemma EveryRecordGetsGate3(o: RunOptions, imported: Outcome, existing: set<Path>, grade: Grader, records: seq<EvalResult>)
    ensures var r := Gate3Phase(o, imported, existing, grade, records);
      r.Success? ==> (|r.value| == |records|
        && forall i :: 0 <= i < |records| ==> r.value[i] == records[i].(gate3 := r.value[i].gate3))
    ensures var r := Gate3Phase(o, imported, existing, grade, records);
      o.gate3 && r.Success? ==> forall i :: 0 <= i < |records| ==> r.value[i].gate3.Some?
    ensures !o.gate3 ==> Gate3Phase(o, imported, existing, grade, records) == Success(records)
  {
    var r := Gate3Phase(o, imported, existing, grade, records);
    if o.gate3 && o.graderModel.Some? && o.graderModel.value != "" {
      if imported.Raised? {
        ImportFailedShape(records, imported.exc.message);
        assert r == Success(MapRecords(records, ImportFailedStep(imported.exc.message)));
      } else {
        CheckedShape(records, existing);
        var checked := MapRecords(records, PrecheckStep(existing));
        var cases := CasesOf(records, existing);
        if cases == [] {
          assert r == Success(checked);
        } else {
          match grade(cases)
          case Success(byDir) =>
            AssignedShape(records, checked, byDir);
            assert r == Success(MapRecords(checked, AssignStep(byDir)));
          case Failure(e) =>
            GradingFailedShape(records, checked, e);
            assert r == Success(MapRecords(checked, GradingFailedStep(e)));
        }
      }
      assert OnlyGate3Set(records, r.value);
    }
  }

  /** `out` is `records` with only the Gate 3 results changed, and every one of them set. */
  predicate OnlyGate3Set(records: seq<EvalResult>, out: seq<EvalResult>) {
    |out| == |records| && forall i :: 0 <= i < |records| ==> out[i] == records[i].(gate3 := out[i].gate3) && out[i].gate3.Some?
  }

  lemma ImportFailedShape(records: seq<EvalResult>, msg: string)
    ensures OnlyGate3Set(records, MapRecords(records, ImportFailedStep(msg)))
  {
  }

  lemma CheckedShape(records: seq<EvalResult>, existing: set<Path>)
    ensures var checked := MapRecords(records, PrecheckStep(existing));
      |checked| == |records| && forall i :: 0 <= i < |records| ==> checked[i] == records[i].(gate3 := checked[i].gate3)
    ensures CasesOf(records, existing) == [] ==> OnlyGate3Set(records, MapRecords(records, PrecheckStep(existing)))
  {
    var checked := MapRecords(records, PrecheckStep(existing));
    forall i | 0 <= i < |records|
      ensures checked[i] == records[i].(gate3 := checked[i].gate3)
      ensures CasesOf(records, existing) == [] ==> checked[i].gate3.Some?
    {
      Precheck(records[i], existing);
    }
  }

  lemma AssignedShape(records: seq<EvalResult>, checked: seq<EvalResult>, byDir: map<string, Gate3Result>)
    requires |checked| == |records| && forall i :: 0 <= i < |records| ==> checked[i] == records[i].(gate3 := checked[i].gate3)
    ensures OnlyGate3Set(records, MapRecords(checked, AssignStep(byDir)))
  {
    var out := MapRecords(checked, AssignStep(byDir));
    forall i | 0 <= i < |records|
      ensures out[i] == records[i].(gate3 := out[i].gate3) && out[i].gate3.Some?
    {
      assert out[i] == Assigned(checked[i], byDir);
    }
  }

  lemma GradingFailedShape(records: seq<EvalResult>, checked: seq<EvalResult>, e: PyException)
    requires |checked| == |records| && forall i :: 0 <= i < |records| ==> checked[i] == records[i].(gate3 := checked[i].gate3)
    ensures OnlyGate3Set(records, MapRecords(checked, GradingFailedStep(e)))
  {
    var out := MapRecords(checked, GradingFailedStep(e));
    forall i | 0 <= i < |records|
      ensures out[i] == records[i].(gate3 := out[i].gate3) && out[i].gate3.Some?
    {
      assert out[i] == GradingFailedOn(checked[i], e);
    }
  }

  /** The screenshot checks change only the Gate 3 result, leave a gradable record as it is and give every other one a result. */
  lemma Precheck(r: EvalResult, existing: set<Path>)
    ensures Prechecked(r, existing) == r.(gate3 := Prechecked(r, existing).gate3)
    ensures Gradable(r, existing) ==> Prechecked(r, existing) == r
    ensures !Gradable(r, existing) ==> Prechecked(r, existing).gate3.Some?
  {
  }

  /** With Gate 3 on, the phase raises exactly when no grader model is named, and then raises the `ValueError`. */
  lemma GraderRequired(o: RunOptions, imported: Outcome, existing: set<Path>, grade: Grader, records: seq<EvalResult>)
    requires o.gate3
    ensures var r := Gate3Phase(o, imported, existing, grade, records);
      (r.Failure? <==> o.graderModel.None? || o.graderModel.value == "") && (r.Failure? ==> r.error == GraderMissing)
  {
  }

  /**
   * What the phase gives one record that has no Gate 3 result yet, with
   * Gate 3 on and a grader model named: the import failure; else the
   * grader's result for its directory when there is one; else the skip for a
   * failed Gate 2, the error for the first missing screenshot, or, for a
   * record that was handed to the scoring model, the grading exception or the
   * missing-result error.
   */
  lemma Gate3Outcome(o: RunOptions, imported: Outcome, existing: set<Path>, grade: Grader, records: seq<EvalResult>, i: nat)
    requires o.gate3 && o.graderModel.Some? && o.graderModel.value != ""
    requires i < |records| && records[i].gate3.None?
    ensures Gate3Phase(o, imported, existing, grade, records).Success?
    ensures imported.Raised? ==>
      Gate3Phase(o, imported, existing, grade, records).value[i].gate3 == Some(Gate3Error(ImportFailed + imported.exc.message))
    ensures var cases := CasesOf(records, existing);
      imported.Done? && cases != [] && grade(cases).Success? && records[i].outputDir in grade(cases).value ==>
        Gate3Phase(o, imported, existing, grade, records).value[i].gate3 == Some(grade(cases).value[records[i].outputDir])
    ensures var cases := CasesOf(records, existing);
      var rec := records[i];
      var g := Gate3Phase(o, imported, existing, grade, records).value[i].gate3;
      imported.Done? && !(cases != [] && grade(cases).Success? && rec.outputDir in grade(cases).value) ==> (
        && (!rec.gate2.ok ==> g == Some(Gate3Result(ok := false, skippedReason := Some(NoScreenshots))))
        && (rec.gate2.ok && BeforeShot(rec) !in existing ==> g == Some(Gate3Error(ScreenshotMissing + ToString(BeforeShot(rec)))))
        && (rec.gate2.ok && BeforeShot(rec) in existing && AfterShot(rec) !in existing ==>
              g == Some(Gate3Error(ScreenshotMissing + ToString(AfterShot(rec)))))
        && (Gradable(rec, existing) ==> (CaseOf(rec) in cases
              && g == Some(if grade(cases).Failure? then Gate3Error(GradingFailed + grade(cases).error.message) else Gate3Error(NoResult)))))
  {
    var cases := CasesOf(records, existing);
    Precheck(records[i], existing);
    if Gradable(records[i], existing) {
      assert CaseOf(records[i]) in cases;
    }
  }

  /** The loop after a failed import: every record gets the import error. */
  method MarkImportFailed(records: seq<EvalResult>, msg: string) returns (results: seq<EvalResult>)
    ensures results == MapRecords(records, ImportFailedStep(msg))
  {
    var failed := Gate3Error(ImportFailed + msg);
    results := records;
    for i := 0 to |results|
      invariant |results| == |records|
      invariant forall m :: 0 <= m < i ==> results[m] == records[m].(gate3 := Some(failed))
      invariant forall m :: i <= m < |results| ==> results[m] == records[m]
    {
      results := results[i := results[i].(gate3 := Some(failed))];
    }
    assert results == MapRecords(records, ImportFailedStep(msg));
  }

  /** The screenshot loop: each record is prechecked, and the gradable ones become the cases. */
  method CheckScreenshots(records: seq<EvalResult>, existing: set<Path>) returns (results: seq<EvalResult>, cases: seq<Gate3Case>)
    ensures results == MapRecords(records, PrecheckStep(existing))
    ensures cases == CasesOf(records, existing)
  {
    results := records;
    cases := [];
    for i := 0 to |results|
      invariant |results| == |records|
      invariant forall m :: 0 <= m < i ==> results[m] == Prechecked(records[m], existing)
      invariant forall m :: i <= m < |results| ==> results[m] == records[m]
      invariant cases == CasesOf(records[..i], existing)
    {
      var rec := results[i];
      CasesStep(records, existing, i);
      if !rec.gate2.ok {
        results := results[i := rec.(gate3 := Some(Gate3Result(ok := false, skippedReason := Some(NoScreenshots))))];
      } else if BeforeShot(rec) !in existing {
        results := results[i := rec.(gate3 := Some(Gate3Error(ScreenshotMissing + ToString(BeforeShot(rec)))))];
      } else if AfterShot(rec) !in existing {
        results := results[i := rec.(gate3 := Some(Gate3Error(ScreenshotMissing + ToString(AfterShot(rec)))))];
      } else {
        cases := cases + [CaseOf(rec)];
      }
    }
    assert records[..|records|] == records;
    assert results == MapRecords(records, PrecheckStep(existing));
  }

  /** The loop over the scoring model's results. */
  method AssignResults(checked: seq<EvalResult>, byDir: map<string, Gate3Result>) returns (results: seq<EvalResult>)
    ensures results == MapRecords(checked, AssignStep(byDir))
  {
    results := checked;
    for i := 0 to |results|
      invariant |results| == |checked|
      invariant forall m :: 0 <= m < i ==> results[m] == Assigned(checked[m], byDir)
      invariant forall m :: i <= m < |results| ==> results[m] == checked[m]
    {
      var rec := results[i];
      if rec.outputDir in byDir {
        results := results[i := rec.(gate3 := Some(byDir[rec.outputDir]))];
      } else if rec.gate3.None? {
        results := results[i := rec.(gate3 := Some(Gate3Error(NoResult)))];
      }
    }
    assert results == MapRecords(checked, AssignStep(byDir));
  }

  /** The handler's loop after a grading exception. */
  method MarkGradingFailed(checked: seq<EvalResult>, e: PyException) returns (results: seq<EvalResult>)
    ensures results == MapRecords(checked, GradingFailedStep(e))
  {
    results := checked;
    for i := 0 to |results|
      invariant |results| == |checked|
      invariant forall m :: 0 <= m < i ==> results[m] == GradingFailedOn(checked[m], e)
      invariant forall m :: i <= m < |results| ==> results[m] == checked[m]
    {
      if results[i].gate3.None? {
        results := results[i := results[i].(gate3 := Some(Gate3Error(GradingFailed + e.message)))];
      }
    }
    assert results == MapRecords(checked, GradingFailedStep(e));
  }

  /** The Gate 3 phase step by step: the screenshot loop building the cases, then the loop over the results. */
  method GradeModel(o: RunOptions, imported: Outcome, existing: set<Path>, grade: Grader, records: seq<EvalResult>)
    returns (r: Result<seq<EvalResult>, PyException>)
    ensures r == Gate3Phase(o, imported, existing, grade, records)
  {
    if !o.gate3 {
      return Success(records);
    }
    if o.graderModel.None? || o.graderModel.value == "" {
      return Failure(GraderMissing);
    }
    if imported.Raised? {
      var results := MarkImportFailed(records, imported.exc.message);
      return Success(results);
    }
    var checked, cases := CheckScreenshots(records, existing);
    if cases == [] {
      return Success(checked);
    }
    var results;
    match grade(cases) {
      case Success(byDir) =>
        results := AssignResults(checked, byDir);
      case Failure(e) =>
        results := MarkGradingFailed(checked, e);
    }
    return Success(results);
  }

  // The whole run.

  /** The generation of the `n`-th job of a model. */
  type Generator = (nat, GenerationJob) -> Result<GenerationResult, PyException>

  /** The Gate 3 phase of a model, on the records of its job loop. */
  type Phase = seq<EvalResult> -> Result<seq<EvalResult>, PyException>

  /** The state of a run: the records so far, the job directories whose app files were written, and an escaped exception. */
  datatype RunState = RunState(records: seq<EvalResult>, written: seq<Path>, raised: Option<PyException>)

  /** One model's share of a run: its job loop, then, unless that raised, its Gate 3 phase. */
  function ModelOutcome(p: Progress, phase: Phase): RunState {
    if p.raised.Some? then RunState(p.records, p.written, p.raised)
    else
      match phase(p.records)
      case Failure(e) => RunState(p.records, p.written, Some(e))
      case Success(graded) => RunState(graded, p.written, None)
  }

  /** What a run does for each model: the job loop's turn, the job directories, the generations and the Gate 3 phase. */
  datatype ModelParts = ModelParts(
    step: string -> JobStep,
    dirOf: string -> JobMeta -> Path,
    items: string -> seq<GenItem>,
    phase: string -> Phase)

  /** The job loop of one model, over `zip(job_meta, gen_results)`. */
  function PassOf(parts: ModelParts, metas: seq<JobMeta>, modelId: string): Progress {
    var items := parts.items(modelId);
    ModelPass(parts.step(modelId), parts.dirOf(modelId), metas, items, Min(|metas|, |items|))
  }

  /** Each model's share of a run. */
  function OutcomeOf(parts: ModelParts, metas: seq<JobMeta>): string -> RunState {
    (modelId: string) => ModelOutcome(PassOf(parts, metas, modelId), parts.phase(modelId))
  }

  /** The loop over the first `n` models: an exception ends the run. */
  function RunModels(outcome: string -> RunState, models: seq<string>, n: nat): RunState
    requires n <= |models|
  {
    if n == 0 then RunState([], [], None)
    else
      var s := RunModels(outcome, models, n - 1);
      if s.raised.Some? then s
      else
        var t := outcome(models[n - 1]);
        RunState(s.records + t.records, s.written + t.written, t.raised)
  }

  /** Once a model has raised, later models change nothing. */
  lemma {:induction false} RunModelsStops(outcome: string -> RunState, models: seq<string>, k: nat, n: nat)
    requires k <= n <= |models|
    requires RunModels(outcome, models, k).raised.Some?
    ensures RunModels(outcome, models, n) == RunModels(outcome, models, k)
    decreases n - k
  {
    if k < n {
      RunModelsStops(outcome, models, k, n - 1);
    }
  }

  /** A run raises nothing exactly when no model does; otherwise it raises what the first model that raised raised. */
  lemma {:induction false} RunModelsRaised(outcome: string -> RunState, models: seq<string>, n: nat)
    requires n <= |models|
    ensures RunModels(outcome, models, n).raised.None? <==> forall i :: 0 <= i < n ==> outcome(models[i]).raised.None?
    ensures RunModels(outcome, models, n).raised.Some? ==> exists i :: (0 <= i < n
      && RunModels(outcome, models, n).raised == outcome(models[i]).raised
      && forall m :: 0 <= m < i ==> outcome(models[m]).raised.None?)
  {
    if n > 0 {
      RunModelsRaised(outcome, models, n - 1);
      if RunModels(outcome, models, n - 1).raised.None? {
        assert RunModels(outcome, models, n).raised == outcome(models[n - 1]).raised;
      }
    }
  }

  /**
   * A run in which no model raised holds the models' records, model after
   * model: with `width` records each, the `k`-th record of the `i`-th model
   * sits at `i·width + k`.
   */
  lemma {:induction false} RunModelsRecords(outcome: string -> RunState, models: seq<string>, n: nat, width: nat)
    requires n <= |models|
    requires forall i :: 0 <= i < n ==> outcome(models[i]).raised.None? && |outcome(models[i]).records| == width
    ensures RunModels(outcome, models, n).raised.None?
    ensures |RunModels(outcome, models, n).records| == n * width
    ensures forall i, k :: 0 <= i < n && 0 <= k < width ==>
      Cell(i, k, width) < n * width &&
      RunModels(outcome, models, n).records[Cell(i, k, width)] == outcome(models[i]).records[k]
  {
    if n > 0 {
      RunModelsRecords(outcome, models, n - 1, width);
      var s := RunModels(outcome, models, n - 1);
      var t := outcome(models[n - 1]);
      var all := RunModels(outcome, models, n).records;
      assert all == s.records + t.records;
      forall i, k | 0 <= i < n && 0 <= k < width
        ensures Cell(i, k, width) < n * width
        ensures all[Cell(i, k, width)] == outcome(models[i]).records[k]
      {
        if i < n - 1 {
          assert Cell(i, k, width) < (n - 1) * width;
        } else {
          assert Cell(i, k, width) == (n - 1) * width + k;
        }
      }
    }
  }

  /** The jobs of a run. */
  function MetasOf(o: RunOptions): seq<JobMeta> {
    JobMetas(o.frameworks, o.levels, o.basePort)
  }

  /** A run: the job list, then every model in turn. */
  function Run(o: RunOptions, parts: ModelParts): RunState {
    RunModels(OutcomeOf(parts, MetasOf(o)), o.modelIds, |o.modelIds|)
  }

  /** The generations of one model, one per job, as the job loop sees them. */
  function ItemsOf(gen: Generator, jobs: seq<GenerationJob>): seq<GenItem> {
    seq(|jobs|, n requires 0 <= n < |jobs| => Some(gen(n, jobs[n])))
  }

  /**
   * The calls a run makes out of the runner, per model: generation, the
   * Gate 2 launch and the Gate 3 grader.
   */
  datatype Oracles = Oracles(gens: string -> Generator, launch: Gate2Launcher, graders: string -> Grader)

  /** The calls `run_evaluation` makes: `generate_apps_sync`'s single generation, Gate 2 and Gate 3 grading. */
  function OraclesOf(o: RunOptions, env: RunnerEnv): Oracles
    requires env.cwd.absolute
  {
    Oracles(
      (modelId: string) => (n: nat, job: GenerationJob) => GenerateSingleApp(env.chat(modelId), env.decode, n, job),
      LaunchGate2(o, env),
      (modelId: string) => (cases: seq<Gate3Case>) => Gate3Grade(cases, env.gate3(modelId)))
  }

  /** The Gate 3 phase of each model, with the given graders. */
  function PhaseOf(o: RunOptions, env: RunnerEnv, graders: string -> Grader): string -> Phase {
    (modelId: string) => (records: seq<EvalResult>) =>
      Gate3Phase(o, env.gate3Import, env.gate3(modelId).existing, graders(modelId), records)
  }

  /** What the runner does for each model, given the calls it makes out of itself. */
  function PartsOf(o: RunOptions, env: RunnerEnv, x: Oracles): ModelParts {
    var jobs := JobsOf(MetasOf(o), o.host);
    ModelParts(
      (modelId: string) => StepOf(o, env, x.launch, modelId),
      (modelId: string) => DirOf(o, modelId),
      (modelId: string) => ItemsOf(x.gens(modelId), jobs),
      PhaseOf(o, env, x.graders))
  }

  /** `run_evaluation`. */
  function Evaluation(o: RunOptions, env: RunnerEnv): RunState
    requires env.cwd.absolute
  {
    Run(o, PartsOf(o, env, OraclesOf(o, env)))
  }

  // What each part of a run guarantees, and what follows for the run.

  /** A record names its job, its model and its job directory. */
  predicate Names(o: RunOptions, meta: JobMeta, modelId: string, r: EvalResult) {
    && r.framework == meta.framework && r.level == meta.level && r.modelId == modelId
    && r.outputDir == ToString(JobDir(o.outDir, meta, modelId))
  }

  /** A record of a run names its job and model, and has a Gate 3 result exactly when Gate 3 is on. */
  predicate RecordFor(o: RunOptions, meta: JobMeta, modelId: string, r: EvalResult) {
    Names(o, meta, modelId, r) && (r.gate3.Some? <==> o.gate3)
  }

  /** Every record of a job loop names its job and model and has no Gate 3 result yet. */
  ghost predicate StepsName(o: RunOptions, parts: ModelParts) {
    forall modelId, k, meta, item :: parts.step(modelId)(k, meta, item).Success? ==>
      Names(o, meta, modelId, parts.step(modelId)(k, meta, item).value) && parts.step(modelId)(k, meta, item).value.gate3 == None
  }

  /**
   * The Gate 3 phase changes only Gate 3 results; with Gate 3 on it gives
   * every record one, and with Gate 3 off it changes nothing.
   */
  ghost predicate PhasesKeep(o: RunOptions, parts: ModelParts) {
    forall modelId, records :: PhaseKeeps(o, records, parts.phase(modelId)(records))
  }

  predicate PhaseKeeps(o: RunOptions, records: seq<EvalResult>, r: Result<seq<EvalResult>, PyException>) {
    && (!o.gate3 ==> r == Success(records))
    && (r.Success? ==> |r.value| == |records|)
    && (r.Success? ==> forall i :: 0 <= i < |records| ==> r.value[i] == records[i].(gate3 := r.value[i].gate3))
    && (r.Success? && o.gate3 ==> forall i :: 0 <= i < |records| ==> r.value[i].gate3.Some?)
  }

  /** Every model has a generation for every job. */
  ghost predicate ItemsCover(parts: ModelParts, metas: seq<JobMeta>) {
    forall modelId :: |parts.items(modelId)| == |metas|
  }

  /** The runner's job loop names every record it makes, whatever the oracles. */
  lemma PartsName(o: RunOptions, env: RunnerEnv, x: Oracles)
    ensures StepsName(o, PartsOf(o, env, x))
  {
    var parts := PartsOf(o, env, x);
    forall modelId, k, meta, item | parts.step(modelId)(k, meta, item).Success?
      ensures Names(o, meta, modelId, parts.step(modelId)(k, meta, item).value)
      ensures parts.step(modelId)(k, meta, item).value.gate3 == None
    {
      RecordOfShape(o, env, x.launch, modelId, k, meta, item);
    }
  }

  /** The runner's Gate 3 phase keeps the records, whatever the oracles. */
  lemma PartsKeep(o: RunOptions, env: RunnerEnv, x: Oracles)
    ensures PhasesKeep(o, PartsOf(o, env, x))
  {
    var parts := PartsOf(o, env, x);
    forall modelId, records
      ensures PhaseKeeps(o, records, parts.phase(modelId)(records))
    {
      EveryRecordGetsGate3(o, env.gate3Import, env.gate3(modelId).existing, x.graders(modelId), records);
    }
  }

  /** The runner has a generation for every job of every model. */
  lemma PartsCover(o: RunOptions, env: RunnerEnv, x: Oracles)
    ensures ItemsCover(PartsOf(o, env, x), MetasOf(o))
  {
    var jobs := JobsOf(MetasOf(o), o.host);
    forall modelId
      ensures |PartsOf(o, env, x).items(modelId)| == |MetasOf(o)|
    {
      assert PartsOf(o, env, x).items(modelId) == ItemsOf(x.gens(modelId), jobs);
    }
  }

  /** A model that raised nothing yields one record per job, in job order, each naming its job and the model. */
  predicate ModelHolds(o: RunOptions, metas: seq<JobMeta>, modelId: string, t: RunState) {
    t.raised.None? ==> (|t.records| == |metas|
      && forall c :: 0 <= c < |metas| ==> RecordFor(o, metas[c], modelId, t.records[c]))
  }

  /** One record of a model that raised nothing. */
  lemma RecordOfModel(o: RunOptions, parts: ModelParts, metas: seq<JobMeta>, modelId: string, c: nat)
    requires StepsName(o, parts) && PhasesKeep(o, parts) && ItemsCover(parts, metas)
    requires c < |metas|
    requires OutcomeOf(parts, metas)(modelId).raised.None?
    ensures |OutcomeOf(parts, metas)(modelId).records| == |metas|
    ensures RecordFor(o, metas[c], modelId, OutcomeOf(parts, metas)(modelId).records[c])
  {
    var items := parts.items(modelId);
    var step := parts.step(modelId);
    var p := PassOf(parts, metas, modelId);
    assert OutcomeOf(parts, metas)(modelId) == ModelOutcome(p, parts.phase(modelId));
    ModelPassRecords(step, parts.dirOf(modelId), metas, items, |metas|);
    assert p.records[c] == step(c, metas[c], items[c]).value;
    assert PhaseKeeps(o, p.records, parts.phase(modelId)(p.records));
  }

  /** Each model of a run with these parts contributes as `ModelHolds` says. */
  lemma ModelRecords(o: RunOptions, parts: ModelParts, metas: seq<JobMeta>, modelId: string)
    requires StepsName(o, parts) && PhasesKeep(o, parts) && ItemsCover(parts, metas)
    ensures ModelHolds(o, metas, modelId, OutcomeOf(parts, metas)(modelId))
  {
    var t := OutcomeOf(parts, metas)(modelId);
    if t.raised.None? {
      if metas == [] {
        var p := PassOf(parts, metas, modelId);
        assert PhaseKeeps(o, p.records, parts.phase(modelId)(p.records));
      } else {
        RecordOfModel(o, parts, metas, modelId, 0);
        forall c | 0 <= c < |metas|
          ensures RecordFor(o, metas[c], modelId, t.records[c])
        {
          RecordOfModel(o, parts, metas, modelId, c);
        }
      }
    }
  }

  /**
   * The layout of the records of a run that raised nothing: one record per
   * model and job, model after model and, within a model, in job order.
   * The record of the `m`-th model for the `i`-th framework and `j`-th
   * level sits at `m·|F|·|L| + i·|L| + j`, names them and its job directory,
   * and has a Gate 3 result exactly when Gate 3 is on.
   */
  predicate Laid(o: RunOptions, s: RunState) {
    var width := |o.frameworks| * |o.levels|;
    s.raised.None? ==> (|s.records| == |o.modelIds| * width
      && forall m, i, j :: 0 <= m < |o.modelIds| && 0 <= i < |o.frameworks| && 0 <= j < |o.levels| ==> (
        && Cell(m, Cell(i, j, |o.levels|), width) < |s.records|
        && RecordFor(o, JobMeta(o.frameworks[i], o.levels[j], o.basePort + Cell(i, j, |o.levels|)), o.modelIds[m],
                     s.records[Cell(m, Cell(i, j, |o.levels|), width)])))
  }

  /** The records of the models, each contributing as `ModelHolds` says, are laid out as `Laid` says. */
  lemma RunGrid(o: RunOptions, outcome: string -> RunState)
    requires forall m :: 0 <= m < |o.modelIds| ==> ModelHolds(o, MetasOf(o), o.modelIds[m], outcome(o.modelIds[m]))
    ensures Laid(o, RunModels(outcome, o.modelIds, |o.modelIds|))
  {
    var n := |o.modelIds|;
    var s := RunModels(outcome, o.modelIds, n);
    var metas := MetasOf(o);
    var width := |o.frameworks| * |o.levels|;
    JobMetasShape(o.frameworks, o.levels, o.basePort);
    if s.raised.None? {
      RunModelsRaised(outcome, o.modelIds, n);
      RunModelsRecords(outcome, o.modelIds, n, width);
      forall m, i, j | 0 <= m < n && 0 <= i < |o.frameworks| && 0 <= j < |o.levels|
        ensures Cell(m, Cell(i, j, |o.levels|), width) < |s.records|
        ensures RecordFor(o, JobMeta(o.frameworks[i], o.levels[j], o.basePort + Cell(i, j, |o.levels|)), o.modelIds[m],
                          s.records[Cell(m, Cell(i, j, |o.levels|), width)])
      {
        var c := Cell(i, j, |o.levels|);
        assert ModelHolds(o, metas, o.modelIds[m], outcome(o.modelIds[m]));
        assert metas[c] == JobMeta(o.frameworks[i], o.levels[j], o.basePort + c);
      }
    }
  }

  /** A run whose parts name their records, keep them through Gate 3 and cover every job is laid out as `Laid` says. */
  lemma RunRecords(o: RunOptions, parts: ModelParts)
    requires StepsName(o, parts) && PhasesKeep(o, parts) && ItemsCover(parts, MetasOf(o))
    ensures Laid(o, Run(o, parts))
  {
    var metas := MetasOf(o);
    var outcome := OutcomeOf(parts, metas);
    forall m | 0 <= m < |o.modelIds|
      ensures ModelHolds(o, metas, o.modelIds[m], outcome(o.modelIds[m]))
    {
      ModelRecords(o, parts, metas, o.modelIds[m]);
    }
    RunGrid(o, outcome);
  }

  /** The records of `run_evaluation`, whatever the oracles answer, are laid out as `Laid` says. */
  lemma EvaluationRecords(o: RunOptions, env: RunnerEnv, x: Oracles)
    ensures Laid(o, Run(o, PartsOf(o, env, x)))
  {
    PartsName(o, env, x);
    PartsKeep(o, env, x);
    PartsCover(o, env, x);
    RunRecords(o, PartsOf(o, env, x));
  }

  /**
   * With Gate 3 on and no grader model named, `run_evaluation` raises once
   * the first model's job loop is over: the `ValueError`, unless that loop
   * raised first. The later models are never generated, so only the first
   * model's job directories are written.
   */
  lemma GraderMissingStopsRun(o: RunOptions, env: RunnerEnv, x: Oracles)
    requires o.gate3 && (o.graderModel.None? || o.graderModel.value == "")
    requires o.modelIds != []
    ensures var p := PassOf(PartsOf(o, env, x), MetasOf(o), o.modelIds[0]);
      Run(o, PartsOf(o, env, x)).raised == (if p.raised.Some? then p.raised else Some(GraderMissing))
    ensures Run(o, PartsOf(o, env, x)).written == PassOf(PartsOf(o, env, x), MetasOf(o), o.modelIds[0]).written
  {
    var parts := PartsOf(o, env, x);
    var outcome := OutcomeOf(parts, MetasOf(o));
    var m := o.modelIds[0];
    var p := PassOf(parts, MetasOf(o), m);
    assert parts.phase(m)(p.records) == Gate3Phase(o, env.gate3Import, env.gate3(m).existing, x.graders(m), p.records);
    GraderRequired(o, env.gate3Import, env.gate3(m).existing, x.graders(m), p.records);
    assert outcome(m).raised.Some?;
    assert RunModels(outcome, o.modelIds, 1) == RunState([] + outcome(m).records, [] + outcome(m).written, outcome(m).raised);
    RunModelsStops(outcome, o.modelIds, 1, |o.modelIds|);
  }

  /**
   * `generate_apps_sync` as the runner sees it: one result per job, in job
   * order (`GenerateAppsSync` of the generation module makes the same
   * promise about each job).
   */
  method GenerateAll(gen: Generator, jobs: seq<GenerationJob>) returns (items: seq<GenItem>)
    ensures items == ItemsOf(gen, jobs)
  {
    items := [];
    for n := 0 to |jobs|
      invariant |items| == n
      invariant forall k :: 0 <= k < n ==> items[k] == Some(gen(k, jobs[k]))
    {
      items := items + [Some(gen(n, jobs[n]))];
    }
  }

  /**
   * One model of a run step by step: generation over all jobs, the job
   * loop over its results, then the Gate 3 phase.
   */
  method EvaluateModel(o: RunOptions, env: RunnerEnv, x: Oracles, parts: ModelParts, metas: seq<JobMeta>, jobs: seq<GenerationJob>, modelId: string)
    returns (t: RunState)
    requires metas == MetasOf(o) && jobs == JobsOf(metas, o.host)
    requires Fits(o, env, x, parts)
    ensures t == OutcomeOf(parts, metas)(modelId)
  {
    var items := GenerateAll(x.gens(modelId), jobs);
    var p := RecordJobs(parts.step(modelId), parts.dirOf(modelId), metas, items);
    assert p == PassOf(parts, metas, modelId);
    if p.raised.Some? {
      t := RunState(p.records, p.written, p.raised);
    } else {
      var graded := GradeModel(o, env.gate3Import, env.gate3(modelId).existing, x.graders(modelId), p.records);
      assert graded == parts.phase(modelId)(p.records);
      t := if graded.Success? then RunState(graded.value, p.written, None) else RunState(p.records, p.written, Some(graded.error));
    }
    OutcomeIs(parts, metas, modelId, p, t);
  }

  /** A model's share of a run, from its job loop and its Gate 3 phase. */
  lemma OutcomeIs(parts: ModelParts, metas: seq<JobMeta>, modelId: string, p: Progress, t: RunState)
    requires p == PassOf(parts, metas, modelId)
    requires t == ModelOutcome(p, parts.phase(modelId))
    ensures t == OutcomeOf(parts, metas)(modelId)
  {
  }

  /** The model parts a run builds from its oracles: generation by the model's generator, Gate 3 by its grader. */
  ghost predicate Fits(o: RunOptions, env: RunnerEnv, x: Oracles, parts: ModelParts) {
    (forall modelId :: parts.items(modelId) == ItemsOf(x.gens(modelId), JobsOf(MetasOf(o), o.host)))
    && (forall modelId, records :: parts.phase(modelId)(records)
          == Gate3Phase(o, env.gate3Import, env.gate3(modelId).existing, x.graders(modelId), records))
  }

  /** The parts of a run fit its oracles. */
  lemma PartsFit(o: RunOptions, env: RunnerEnv, x: Oracles)
    ensures Fits(o, env, x, PartsOf(o, env, x))
  {
  }

  /** The loop over models, from their shares of the run in order: an exception ends it. */
  function RunSeq(ts: seq<RunState>): RunState {
    if ts == [] then RunState([], [], None)
    else
      var s := RunSeq(ts[..|ts| - 1]);
      if s.raised.Some? then s
      else
        var t := ts[|ts| - 1];
        RunState(s.records + t.records, s.written + t.written, t.raised)
  }

  /** The loop over the first `n` models is the loop over their shares. */
  lemma {:induction false} RunModelsSeq(outcome: string -> RunState, models: seq<string>, ts: seq<RunState>)
    requires |ts| <= |models|
    requires forall k :: 0 <= k < |ts| ==> ts[k] == outcome(models[k])
    ensures RunModels(outcome, models, |ts|) == RunSeq(ts)
  {
    if ts != [] {
      RunModelsSeq(outcome, models, ts[..|ts| - 1]);
    }
  }

  /**
   * A run step by step: the job list, then each model in turn; it returns
   * every record, or the exception that escaped, and the job directories
   * written either way.
   */
  method RunWith(o: RunOptions, env: RunnerEnv, x: Oracles, parts: ModelParts) returns (results: Result<seq<EvalResult>, PyException>, written: seq<Path>)
    requires Fits(o, env, x, parts)
    ensures Run(o, parts).raised.None? ==> results == Success(Run(o, parts).records)
    ensures Run(o, parts).raised.Some? ==> results == Failure(Run(o, parts).raised.value)
    ensures written == Run(o, parts).written
  {
    var jobs, metas := BuildJobs(o.frameworks, o.levels, o.host, o.basePort);
    ghost var outcome := OutcomeOf(parts, metas);
    ghost var ts: seq<RunState> := [];
    var all: seq<EvalResult> := [];
    written := [];
    for i := 0 to |o.modelIds|
      invariant |ts| == i
      invariant forall k :: 0 <= k < i ==> ts[k] == outcome(o.modelIds[k])
      invariant RunSeq(ts) == RunState(all, written, None)
    {
      var t := EvaluateModel(o, env, x, parts, metas, jobs, o.modelIds[i]);
      ts := ts + [t];
      assert ts[..i] == ts[..|ts| - 1];
      all := all + t.records;
      written := written + t.written;
      if t.raised.Some? {
        RunModelsSeq(outcome, o.modelIds, ts);
        RunModelsStops(outcome, o.modelIds, i + 1, |o.modelIds|);
        return Failure(t.raised.value), written;
      }
    }
    RunModelsSeq(outcome, o.modelIds, ts);
    return Success(all), written;
  }

  /** `run_evaluation` step by step. */
  method RunEvaluation(o: RunOptions, env: RunnerEnv) returns (results: Result<seq<EvalResult>, PyException>, written: seq<Path>)
    requires env.cwd.absolute
    ensures Evaluation(o, env).raised.None? ==> results == Success(Evaluation(o, env).records)
    ensures Evaluation(o, env).raised.Some? ==> results == Failure(Evaluation(o, env).raised.value)
    ensures written == Evaluation(o, env).written
  {
    var x := OraclesOf(o, env);
    var parts := PartsOf(o, env, x);
    PartsFit(o, env, x);
    results, written := RunWith(o, env, x, parts);
  }
}

=== FILE: specs.dfy ===
/**
 * The pipeline's enumerations and result records.  Optional record fields
 * default to `None`, as in the pydantic models; only `ok` (and, for an
 * evaluation result, its identity and first two gates) must be given.
 */
module Specs {
  import opened Wrappers
  import opened Text

  datatype ChallengeLevel = Beginner | Intermediate | Advanced | Expert

  datatype Framework = Streamlit | Gradio | Shiny | Panel | Dash

  /** A non-empty word of lower-case ASCII letters, as every enumeration value is. */
  predicate LowerWord(s: string) {
    s != [] && forall k :: 0 <= k < |s| ==> 'a' <= s[k] <= 'z'
  }

  /** `level.value`. */
  function LevelValue(l: ChallengeLevel): (v: string)
    ensures LowerWord(v)
  {
    match l
    case Beginner => "beginner"
    case Intermediate => "intermediate"
    case Advanced => "advanced"
    case Expert => "expert"
  }

  /** `framework.value`. */
  function FrameworkValue(f: Framework): (v: string)
    ensures LowerWord(v)
  {
    match f
    case Streamlit => "streamlit"
    case Gradio => "gradio"
    case Shiny => "shiny"
    case Panel => "panel"
    case Dash => "dash"
  }

  /** The members in declaration order, as iterating the enum yields them. */
  const AllLevels: seq<ChallengeLevel> := [Beginner, Intermediate, Advanced, Expert]
  const AllFrameworks: seq<Framework> := [Streamlit, Gradio, Shiny, Panel, Dash]

  /** `ChallengeLevel(v)`: the member with that value, or the enum's `ValueError`, which shows `repr(v)`. */
  function ParseLevel(v: string): (r: Result<ChallengeLevel, PyException>)
    ensures r.Success? ==> LevelValue(r.value) == v
    ensures r.Failure? ==> r.error == PyException("ValueError", PyRepr(v) + " is not a valid ChallengeLevel")
  {
    if v == "beginner" then Success(Beginner)
    else if v == "intermediate" then Success(Intermediate)
    else if v == "advanced" then Success(Advanced)
    else if v == "expert" then Success(Expert)
    else Failure(PyException("ValueError", PyRepr(v) + " is not a valid ChallengeLevel"))
  }

  /** `Framework(v)`: the member with that value, or the enum's `ValueError`, which shows `repr(v)`. */
  function ParseFramework(v: string): (r: Result<Framework, PyException>)
    ensures r.Success? ==> FrameworkValue(r.value) == v
    ensures r.Failure? ==> r.error == PyException("ValueError", PyRepr(v) + " is not a valid Framework")
  {
    if v == "streamlit" then Success(Streamlit)
    else if v == "gradio" then Success(Gradio)
    else if v == "shiny" then Success(Shiny)
    else if v == "panel" then Success(Panel)
    else if v == "dash" then Success(Dash)
    else Failure(PyException("ValueError", PyRepr(v) + " is not a valid Framework"))
  }

  /** Every level parses back from its value, and the list of members is complete and repeat-free. */
  lemma LevelValues(l: ChallengeLevel)
    ensures ParseLevel(LevelValue(l)) == Success(l)
    ensures l in AllLevels
    ensures forall i, j :: 0 <= i < j < |AllLevels| ==> LevelValue(AllLevels[i]) != LevelValue(AllLevels[j])
  {
  }

  /** Every framework parses back from its value, and the list of members is complete and repeat-free. */
  lemma FrameworkValues(f: Framework)
    ensures ParseFramework(FrameworkValue(f)) == Success(f)
    ensures f in AllFrameworks
    ensures forall i, j :: 0 <= i < j < |AllFrameworks| ==> FrameworkValue(AllFrameworks[i]) != FrameworkValue(AllFrameworks[j])
  {
  }

  /** A string names a framework exactly when it is one of the five values. */
  lemma ParseFrameworkExactly(v: string)
    ensures ParseFramework(v).Success? <==> v in ["streamlit", "gradio", "shiny", "panel", "dash"]
  {
  }

  /**
   * A value such as `it's`, holding a single quote and no double quote, is
   * rejected with the value in double quotes, as `%r` writes it.
   */
  lemma QuotedValueRejected(v: string)
    requires '\'' in v && '"' !in v && ReprPlain(v)
    ensures ParseLevel(v) == Failure(PyException("ValueError", "\"" + v + "\"" + " is not a valid ChallengeLevel"))
    ensures ParseFramework(v) == Failure(PyException("ValueError", "\"" + v + "\"" + " is not a valid Framework"))
  {
    var k :| 0 <= k < |v| && v[k] == '\'';
    assert !LowerWord(v);
    assert ParseLevel(v).Success? ==> LowerWord(LevelValue(ParseLevel(v).value));
    assert ParseFramework(v).Success? ==> LowerWord(FrameworkValue(ParseFramework(v).value));
    ReprDoubleQuoted(v);
  }

  /** A string names a level exactly when it is one of the four values. */
  lemma ParseLevelExactly(v: string)
    ensures ParseLevel(v).Success? <==> v in ["beginner", "intermediate", "advanced", "expert"]
  {
  }

  /** The structured answer extracted from a model; all four fields are required strings. */
  datatype GeneratedAppSpec = GeneratedAppSpec(code: string, runCommand: string, requirementsTxt: string, instructions: string)

  datatype Gate1Result = Gate1Result(ok: bool, error: Option<string> := None)

  datatype Gate2Result = Gate2Result(
    ok: bool,
    url: Option<string> := None,
    screenshotPath: Option<string> := None,
    screenshotBeforePath: Option<string> := None,
    screenshotAfterPath: Option<string> := None,
    error: Option<string> := None,
    skippedReason: Option<string> := None)

  datatype Gate3Result = Gate3Result(
    ok: bool,
    passed: Option<bool> := None,
    solverAnswer: Option<string> := None,
    graderScore: Option<string> := None,
    graderExplanation: Option<string> := None,
    inspectLog: Option<string> := None,
    error: Option<string> := None,
    skippedReason: Option<string> := None)

  datatype EvalResult = EvalResult(
    framework: Framework,
    level: ChallengeLevel,
    modelId: string,
    outputDir: string,
    gate1: Gate1Result,
    gate2: Gate2Result,
    gate3: Option<Gate3Result> := None)
}

=== FILE: text.dfy ===
/**
 * The few Python `str` operations the pipeline relies on: whitespace
 * stripping, `split`/`join`, `replace`, substring search and the decimal
 * rendering of integers.  Whitespace is exactly the set of characters for
 * which Python's `str.isspace()` holds, which is also what `\s` matches in a
 * `str` regular expression; letters and digits are ASCII only.
 */
module Text {
  import opened Wrappers

  /** Python's `str.isspace()` on one character. */
  predicate IsSpace(c: char) {
    || ('\U{9}' <= c <= '\U{D}')
    || ('\U{1C}' <= c <= '\U{20}')
    || c == '\U{85}' || c == '\U{A0}' || c == '\U{1680}'
    || ('\U{2000}' <= c <= '\U{200A}')
    || c == '\U{2028}' || c == '\U{2029}' || c == '\U{202F}' || c == '\U{205F}' || c == '\U{3000}'
  }

  predicate IsDigit(c: char) { '0' <= c <= '9' }

  predicate IsAsciiLetter(c: char) { 'a' <= c <= 'z' || 'A' <= c <= 'Z' }

  /** `str.isalnum()` over the ASCII alphabet. */
  predicate IsAlnum(c: char) { IsDigit(c) || IsAsciiLetter(c) }

  /** Every character of `s[i..j]` is whitespace. */
  predicate SpacesBetween(s: string, i: nat, j: nat)
    requires i <= j <= |s|
  {
    forall k :: i <= k < j ==> IsSpace(s[k])
  }

  predicate AllSpace(s: string) {
    forall k :: 0 <= k < |s| ==> IsSpace(s[k])
  }

  predicate AllDigits(s: string) {
    forall k :: 0 <= k < |s| ==> IsDigit(s[k])
  }

  /** No leading and no trailing whitespace. */
  predicate Trimmed(s: string) {
    s == [] || (!IsSpace(s[0]) && !IsSpace(s[|s| - 1]))
  }

  /** The first index at or after `i` that is not whitespace (or `|s|`): how far a greedy `\s*` reaches. */
  function SkipSpace(s: string, i: nat): (j: nat)
    requires i <= |s|
    ensures i <= j <= |s|
    ensures SpacesBetween(s, i, j)
    ensures j == |s| || !IsSpace(s[j])
    decreases |s| - i
  {
    if i < |s| && IsSpace(s[i]) then SkipSpace(s, i + 1) else i
  }

  /** Skipping from the start of a run of whitespace reaches its end when a non-space follows. */
  lemma {:induction false} SkipSpaceRun(s: string, i: nat, j: nat)
    requires i <= j <= |s| && SpacesBetween(s, i, j) && SkipSpace(s, j) == j
    ensures SkipSpace(s, i) == j
    decreases j - i
  {
    if i < j {
      SkipSpaceRun(s, i + 1, j);
    }
  }

  /**
   * The start of the run of whitespace that ends at `j`, going back no further
   * than `i`: where a lazy group followed by `\s*` stops.
   */
  function BackSpace(s: string, i: nat, j: nat): (w: nat)
    requires i <= j <= |s|
    ensures i <= w <= j
    ensures SpacesBetween(s, w, j)
    ensures w == i || !IsSpace(s[w - 1])
    decreases j - i
  {
    if i < j && IsSpace(s[j - 1]) then BackSpace(s, i, j - 1) else j
  }

  /** Going back over a run of whitespace stops where a non-space precedes it. */
  lemma {:induction false} BackSpaceRun(s: string, i: nat, w: nat, j: nat)
    requires i <= w <= j <= |s| && SpacesBetween(s, w, j) && (w == i || !IsSpace(s[w - 1]))
    ensures BackSpace(s, i, j) == w
    decreases j - w
  {
    if w < j {
      BackSpaceRun(s, i, w, j - 1);
    }
  }

  /** A space in front of a run of spaces makes a longer run. */
  lemma AllSpaceCons(s: string, t: string)
    requires s != [] && IsSpace(s[0])
    requires |t| <= |s[1..]| && t == s[1..][|s[1..]| - |t|..] && AllSpace(s[1..][..|s[1..]| - |t|])
    ensures |t| <= |s| && t == s[|s| - |t|..] && AllSpace(s[..|s| - |t|])
  {
    var n := |s| - |t|;
    assert s[1..][n - 1..] == s[n..];
    forall k | 0 < k < n
      ensures IsSpace(s[..n][k])
    {
      assert s[..n][k] == s[1..][..n - 1][k - 1];
    }
  }

  /** A space after a run of spaces makes a longer run. */
  lemma AllSpaceSnoc(s: string, t: string)
    requires s != [] && IsSpace(s[|s| - 1])
    requires |t| <= |s| - 1 && t == s[..|s| - 1][..|t|] && AllSpace(s[..|s| - 1][|t|..])
    ensures |t| <= |s| && t == s[..|t|] && AllSpace(s[|t|..])
  {
    var n := |t|;
    assert s[..|s| - 1][..n] == s[..n];
    forall k | 0 <= k < |s| - 1 - n
      ensures IsSpace(s[n..][k])
    {
      assert s[n..][k] == s[..|s| - 1][n..][k];
    }
  }

  /** `str.lstrip()`. */
  function LStrip(s: string): (r: string)
    ensures |r| <= |s| && r == s[|s| - |r|..]
    ensures AllSpace(s[..|s| - |r|])
    ensures r == [] || !IsSpace(r[0])
  {
    if s != [] && IsSpace(s[0]) then
      var t := LStrip(s[1..]);
      AllSpaceCons(s, t);
      t
    else s
  }

  /** `str.rstrip()`. */
  function RStrip(s: string): (r: string)
    ensures |r| <= |s| && r == s[..|r|]
    ensures AllSpace(s[|r|..])
    ensures r == [] || !IsSpace(r[|r| - 1])
  {
    if s != [] && IsSpace(s[|s| - 1]) then
      var t := RStrip(s[..|s| - 1]);
      AllSpaceSnoc(s, t);
      t
    else s
  }

  /** Leading whitespace makes no difference to `lstrip()`. */
  lemma {:induction false} LStripSpacePrefix(p: string, s: string)
    requires AllSpace(p)
    ensures LStrip(p + s) == LStrip(s)
  {
    if p != [] {
      assert (p + s)[0] == p[0];
      assert (p + s)[1..] == p[1..] + s;
      LStripSpacePrefix(p[1..], s);
    } else {
      assert p + s == s;
    }
  }

  /** Cutting off part of the leading whitespace makes no difference to `lstrip()`. */
  lemma LStripDropSpace(s: string, m: nat)
    requires m <= |s| && AllSpace(s[..m])
    ensures LStrip(s[m..]) == LStrip(s)
  {
    assert s[..m] + s[m..] == s;
    LStripSpacePrefix(s[..m], s[m..]);
  }

  /** `str.strip()`: the text without the whitespace at either end. */
  function Strip(s: string): (r: string)
    ensures Trimmed(r)
    ensures |r| <= |s|
    ensures exists i, j :: 0 <= i <= j <= |s| && r == s[i..j] && AllSpace(s[..i]) && AllSpace(s[j..])
  {
    TrimmedSlice(s);
    RStrip(LStrip(s))
  }

  /** What `rstrip()` keeps of what `lstrip()` keeps is a slice with whitespace on either side. */
  lemma TrimmedSlice(s: string)
    ensures exists i, j :: 0 <= i <= j <= |s| && RStrip(LStrip(s)) == s[i..j] && AllSpace(s[..i]) && AllSpace(s[j..])
  {
    var l := LStrip(s);
    var t := RStrip(l);
    var i := |s| - |l|;
    PrefixOfSuffix(s, i, l, t);
    assert s[i..i + |t|] == t && AllSpace(s[..i]) && AllSpace(s[i + |t|..]);
  }

  /** `strip()` keeps a slice of its argument and cuts only whitespace from either end. */
  lemma StripSlice(s: string)
    ensures exists k :: 0 <= k <= |s| - |Strip(s)| && StrippedAt(s, Strip(s), k)
  {
    var l := LStrip(s);
    var r := RStrip(l);
    var k := |s| - |l|;
    PrefixOfSuffix(s, k, l, r);
    assert r == Strip(s) && StrippedAt(s, r, k);
  }

  /** A prefix `r` of the suffix `l` of `s` from `k`, and what follows it, as slices of `s`. */
  lemma PrefixOfSuffix(s: string, k: nat, l: string, r: string)
    requires k <= |s| && l == s[k..] && |r| <= |l| && r == l[..|r|]
    ensures k + |r| <= |s| && s[k..k + |r|] == r && s[k + |r|..] == l[|r|..]
  {
  }

  /** `s` is whitespace, then `r` from index `k`, then whitespace. */
  predicate StrippedAt(s: string, r: string, k: int) {
    0 <= k <= |s| - |r| && s[k..k + |r|] == r && AllSpace(s[..k]) && AllSpace(s[k + |r|..])
  }

  lemma StripTrimmed(s: string)
    requires Trimmed(s)
    ensures Strip(s) == s
  {
  }

  lemma {:induction false} LStripSpaces(p: string, y: string)
    requires AllSpace(p)
    requires y == [] || !IsSpace(y[0])
    ensures LStrip(p + y) == y
  {
    if p == [] {
      assert p + y == y;
    } else {
      assert (p + y)[1..] == p[1..] + y;
      LStripSpaces(p[1..], y);
    }
  }

  lemma {:induction false} RStripSpaces(y: string, q: string)
    requires AllSpace(q)
    requires y == [] || !IsSpace(y[|y| - 1])
    ensures RStrip(y + q) == y
  {
    if q == [] {
      assert y + q == y;
    } else {
      assert (y + q)[..|y + q| - 1] == y + q[..|q| - 1];
      RStripSpaces(y, q[..|q| - 1]);
    }
  }

  /** Whitespace around a trimmed text is exactly what `strip()` removes. */
  lemma StripAroundSpaces(p: string, x: string, q: string)
    requires AllSpace(p) && AllSpace(q) && Trimmed(x)
    ensures Strip(p + x + q) == x
  {
    if x == [] {
      assert p + x + q == p + q;
      LStripSpaces(p + q, []);
      assert p + q + [] == p + q;
    } else {
      assert p + x + q == p + (x + q);
      LStripSpaces(p, x + q);
      RStripSpaces(x, q);
    }
  }

  lemma StripIdempotent(s: string)
    ensures Strip(Strip(s)) == Strip(s)
  {
    StripTrimmed(Strip(s));
  }

  /** `s.lstrip(c)` for a single character `c`. */
  function LStripChar(s: string, c: char): (r: string)
    ensures |r| <= |s| && r == s[|s| - |r|..]
    ensures r == [] || r[0] != c
    ensures forall k :: 0 <= k < |s| - |r| ==> s[k] == c
  {
    if s != [] && s[0] == c then LStripChar(s[1..], c) else s
  }

  /** `s.rstrip(c)` for a single character `c`. */
  function RStripChar(s: string, c: char): (r: string)
    ensures |r| <= |s| && r == s[..|r|]
    ensures r == [] || r[|r| - 1] != c
    ensures forall k :: |r| <= k < |s| ==> s[k] == c
  {
    if s != [] && s[|s| - 1] == c then RStripChar(s[..|s| - 1], c) else s
  }

  /** `sep.join(parts)`. */
  function Join(parts: seq<string>, sep: string): string {
    if |parts| == 0 then ""
    else if |parts| == 1 then parts[0]
    else parts[0] + sep + Join(parts[1..], sep)
  }

  /** `s.split(sep)` for a one-character separator: never empty, pieces free of `sep`. */
  function Split(s: string, sep: char): (r: seq<string>)
    ensures |r| >= 1
    ensures forall k :: 0 <= k < |r| ==> sep !in r[k]
  {
    if s == [] then [""]
    else
      var rest := Split(s[1..], sep);
      if s[0] == sep then [""] + rest
      else [[s[0]] + rest[0]] + rest[1..]
  }

  lemma JoinCons(a: string, x: string, ys: seq<string>, sep: string)
    ensures Join([a + x] + ys, sep) == a + Join([x] + ys, sep)
  {
    if ys != [] {
      assert ([a + x] + ys)[1..] == ys;
      assert ([x] + ys)[1..] == ys;
    }
  }

  /** Splitting on a character and joining with it gives the text back. */
  lemma {:induction false} JoinSplit(s: string, c: char)
    ensures Join(Split(s, c), [c]) == s
  {
    if s != [] {
      var rest := Split(s[1..], c);
      JoinSplit(s[1..], c);
      if s[0] == c {
        assert ([""] + rest)[1..] == rest;
        assert Join([""] + rest, [c]) == "" + [c] + Join(rest, [c]);
        assert s == [c] + s[1..];
      } else {
        assert [rest[0]] + rest[1..] == rest;
        JoinCons([s[0]], rest[0], rest[1..], [c]);
        assert s == [s[0]] + s[1..];
      }
    }
  }

  lemma {:induction false} SplitPrefix(x: string, tail: string, c: char)
    requires c !in x
    ensures Split(x + tail, c) == [x + Split(tail, c)[0]] + Split(tail, c)[1..]
  {
    if x == [] {
      assert x + tail == tail;
      assert x + Split(tail, c)[0] == Split(tail, c)[0];
      assert [Split(tail, c)[0]] + Split(tail, c)[1..] == Split(tail, c);
    } else {
      assert (x + tail)[1..] == x[1..] + tail;
      SplitPrefix(x[1..], tail, c);
      assert [x[0]] + (x[1..] + Split(tail, c)[0]) == x + Split(tail, c)[0];
    }
  }

  /** Joining separator-free pieces and splitting again gives the pieces back. */
  lemma {:induction false} SplitJoin(parts: seq<string>, c: char)
    requires |parts| >= 1
    requires forall k :: 0 <= k < |parts| ==> c !in parts[k]
    ensures Split(Join(parts, [c]), c) == parts
  {
    if |parts| == 1 {
      SplitPrefix(parts[0], "", c);
      assert parts[0] + "" == parts[0];
    } else {
      var rest := Join(parts[1..], [c]);
      SplitJoin(parts[1..], c);
      assert Join(parts, [c]) == parts[0] + ([c] + rest);
      SplitPrefix(parts[0], [c] + rest, c);
      assert ([c] + rest)[1..] == rest;
      assert Split([c] + rest, c) == [""] + parts[1..];
      assert parts[0] + "" == parts[0];
      assert parts == [parts[0]] + parts[1..];
    }
  }

  /** `t in s` for strings. */
  predicate Contains(s: string, t: string) {
    exists i :: 0 <= i <= |s| - |t| && OccursAt(s, t, i)
  }

  /** `t` occurs in `s` starting at index `i`. */
  predicate OccursAt(s: string, t: string, i: int) {
    0 <= i <= |s| - |t| && s[i..i + |t|] == t
  }

  lemma ContainsMiddle(p: string, t: string, q: string)
    ensures Contains(p + t + q, t)
  {
    assert OccursAt(p + t + q, t, |p|);
  }

  /** A text occurs at the end of any text it ends. */
  lemma ContainsEnd(a: string, b: string)
    ensures Contains(a + b, b)
  {
    assert OccursAt(a + b, b, |a|) by {
      assert (a + b)[|a|..|a| + |b|] == b;
    }
  }

  /** Each of the second and fourth of five concatenated texts occurs in the whole. */
  lemma ContainsParts(a: string, b: string, c: string, d: string, e: string)
    ensures Contains(a + b + c + d + e, b) && Contains(a + b + c + d + e, d)
  {
    assert OccursAt(a + b + c + d + e, b, |a|) by {
      assert (a + b + c + d + e)[|a|..|a| + |b|] == b;
    }
    assert OccursAt(a + b + c + d + e, d, |a| + |b| + |c|) by {
      assert (a + b + c + d + e)[|a| + |b| + |c|..|a| + |b| + |c| + |d|] == d;
    }
  }

  lemma ContainsTransitive(a: string, b: string, c: string)
    requires Contains(a, b) && Contains(b, c)
    ensures Contains(a, c)
  {
    var i :| 0 <= i <= |a| - |b| && OccursAt(a, b, i);
    var j :| 0 <= j <= |b| - |c| && OccursAt(b, c, j);
    assert a[i..i + |b|] == b && b[j..j + |c|] == c;
    forall k | 0 <= k < |c|
      ensures a[i + j + k] == c[k]
    {
      assert a[i..i + |b|][j + k] == b[j + k];
      assert b[j..j + |c|][k] == c[k];
    }
    assert a[i + j..i + j + |c|] == c;
    assert OccursAt(a, c, i + j);
  }

  /** Every piece of a join occurs in it. */
  lemma {:induction false} JoinContains(parts: seq<string>, sep: string, k: nat)
    requires k < |parts|
    ensures Contains(Join(parts, sep), parts[k])
  {
    if |parts| == 1 {
      ContainsEnds(parts[0], []);
      assert parts[0] + [] == parts[0];
    } else if k == 0 {
      ContainsEnds(parts[0], sep + Join(parts[1..], sep));
      assert parts[0] + (sep + Join(parts[1..], sep)) == Join(parts, sep);
    } else {
      JoinContains(parts[1..], sep, k - 1);
      ContainsEnds(parts[0] + sep, Join(parts[1..], sep));
      ContainsTransitive(Join(parts, sep), Join(parts[1..], sep), parts[k]);
    }
  }

  /** Both halves of a concatenation occur in it. */
  lemma ContainsEnds(p: string, q: string)
    ensures Contains(p + q, p) && Contains(p + q, q)
  {
    assert OccursAt(p + q, p, 0);
    assert OccursAt(p + q, q, |p|);
  }

  /** A join of two or more pieces ends with the separator and the last piece. */
  lemma {:induction false} JoinEndsWith(parts: seq<string>, sep: string)
    requires |parts| >= 2
    ensures var j := Join(parts, sep); var t := sep + parts[|parts| - 1];
      |j| >= |t| && j[|j| - |t|..] == t
  {
    if |parts| > 2 {
      JoinEndsWith(parts[1..], sep);
    }
  }

  /** How many (possibly overlapping) positions of `s` start an occurrence of `pat`. */
  function Occurrences(s: string, pat: string): nat
    requires pat != []
    decreases |s|
  {
    if |s| < |pat| then 0
    else (if s[..|pat|] == pat then 1 else 0) + Occurrences(s[1..], pat)
  }

  lemma {:induction false} OccurrencesSkipsPrefix(a: string, t: string, pat: string)
    requires pat != [] && pat[0] !in a
    ensures Occurrences(a + t, pat) == Occurrences(t, pat)
  {
    if a == [] {
      assert a + t == t;
    } else {
      assert (a + t)[1..] == a[1..] + t;
      OccurrencesSkipsPrefix(a[1..], t, pat);
      if |a + t| >= |pat| {
        assert (a + t)[..|pat|][0] == a[0];
      }
    }
  }

  lemma OccurrencesAbsent(s: string, pat: string)
    requires pat != [] && pat[0] !in s
    ensures Occurrences(s, pat) == 0
  {
    OccurrencesSkipsPrefix(s, "", pat);
    assert s + "" == s;
  }

  /** `s.replace(pat, sub)`: occurrences are replaced left to right, without overlap. */
  function ReplaceAll(s: string, pat: string, sub: string): string
    requires pat != []
    decreases |s|
  {
    if |s| < |pat| then s
    else if s[..|pat|] == pat then sub + ReplaceAll(s[|pat|..], pat, sub)
    else [s[0]] + ReplaceAll(s[1..], pat, sub)
  }

  lemma {:induction false} ReplaceSkipsPrefix(a: string, t: string, pat: string, sub: string)
    requires pat != [] && pat[0] !in a
    ensures ReplaceAll(a + t, pat, sub) == a + ReplaceAll(t, pat, sub)
  {
    if a == [] {
      assert a + t == t;
    } else {
      assert (a + t)[1..] == a[1..] + t;
      ReplaceSkipsPrefix(a[1..], t, pat, sub);
      if |a + t| >= |pat| {
        assert (a + t)[..|pat|][0] == a[0];
      }
      assert [a[0]] + (a[1..] + ReplaceAll(t, pat, sub)) == a + ReplaceAll(t, pat, sub);
    }
  }

  /**
   * A text with one placeholder whose first character occurs nowhere else:
   * replacing the placeholder substitutes exactly that spot, and the result
   * holds the placeholder nowhere when the substitute cannot start one.
   */
  lemma ReplaceSinglePlaceholder(a: string, pat: string, b: string, sub: string)
    requires pat != [] && pat[0] !in a && pat[0] !in b && pat[0] !in pat[1..]
    requires pat[0] !in sub
    ensures Occurrences(a + pat + b, pat) == 1
    ensures ReplaceAll(a + pat + b, pat, sub) == a + sub + b
    ensures Occurrences(a + sub + b, pat) == 0
  {
    var t := pat + b;
    assert a + pat + b == a + t;
    PlaceholderFirst(pat, b, sub);
    OccurrencesSkipsPrefix(a, t, pat);
    ReplaceSkipsPrefix(a, t, pat, sub);
    assert a + (sub + b) == a + sub + b;
    assert pat[0] !in a + sub + b;
    OccurrencesAbsent(a + sub + b, pat);
  }

  /** The placeholder at the front of a text that holds its first character nowhere else. */
  lemma PlaceholderFirst(pat: string, b: string, sub: string)
    requires pat != [] && pat[0] !in b && pat[0] !in pat[1..]
    ensures Occurrences(pat + b, pat) == 1
    ensures ReplaceAll(pat + b, pat, sub) == sub + b
  {
    var t := pat + b;
    assert t[..|pat|] == pat;
    assert t[1..] == pat[1..] + b;
    OccurrencesAbsent(pat[1..] + b, pat);
    assert t[|pat|..] == b;
    ReplaceSkipsPrefix(b, "", pat, sub);
    assert b + "" == b;
  }

  function DigitValue(c: char): nat
    requires IsDigit(c)
  {
    c as int - '0' as int
  }

  function DigitChar(d: nat): (c: char)
    requires d < 10
    ensures IsDigit(c) && DigitValue(c) == d
  {
    ('0' as int + d) as char
  }

  /** The value of a run of decimal digits (the empty run is 0). */
  function DecimalValue(s: string): nat
    requires AllDigits(s)
  {
    if s == [] then 0 else DecimalValue(s[..|s| - 1]) * 10 + DigitValue(s[|s| - 1])
  }

  /** `str(n)` for a natural number. */
  function NatToString(n: nat): (r: string)
    ensures |r| >= 1 && AllDigits(r)
    ensures DecimalValue(r) == n
    decreases n
  {
    if n < 10 then [DigitChar(n)]
    else
      var r := NatToString(n / 10) + [DigitChar(n % 10)];
      assert r[..|r| - 1] == NatToString(n / 10);
      r
  }

  /** `str(i)` for any integer. */
  function IntToString(i: int): (r: string)
    ensures r != []
    ensures i >= 0 ==> AllDigits(r) && DecimalValue(r) == i
    ensures i < 0 ==> r[0] == '-' && AllDigits(r[1..]) && DecimalValue(r[1..]) == -i
  {
    if i < 0 then "-" + NatToString(-i) else NatToString(i)
  }

  /** Two integers are rendered alike only if they are equal. */
  lemma IntToStringInjective(i: int, j: int)
    requires IntToString(i) == IntToString(j)
    ensures i == j
  {
  }

  /** The middle piece of a concatenation, read back by its position. */
  lemma Middle(a: string, x: string, c: string)
    ensures (a + x + c)[|a|..|a| + |x|] == x
  {
    assert (a + x + c)[|a|..|a| + |x|] == (a + x)[|a|..];
  }

  /** A slice of a suffix is the slice of the whole, shifted. */
  lemma Shifted(s: string, p: nat, r: string, x: nat, y: nat)
    requires p <= |s| && s[p..] == r && x <= y <= |r|
    ensures s[p + x..p + y] == r[x..y]
  {
    assert |s[p + x..p + y]| == |s[p..][x..y]| == y - x;
    forall k | 0 <= k < y - x
      ensures s[p + x..p + y][k] == s[p..][x..y][k]
    {
    }
  }

  /** The characters of a slice, read back in the whole text. */
  lemma SliceChars(s: string, i: nat, j: nat, x: string)
    requires i <= j <= |s| && s[i..j] == x
    ensures forall k :: i <= k < j ==> s[k] == x[k - i]
  {
    forall k | i <= k < j
      ensures s[k] == x[k - i]
    {
      assert s[i..j][k - i] == s[k];
    }
  }

  // `repr` of a `str`, as the enum's `ValueError` shows the rejected value.

  /** A lower-case hexadecimal digit, as `repr` writes escapes. */
  function HexDigit(d: nat): (c: char)
    requires d < 16
    ensures HexValue(c) == Some(d)
  {
    if d < 10 then ('0' as int + d) as char else ('a' as int + d - 10) as char
  }

  /** The value of a lower-case hexadecimal digit. */
  function HexValue(c: char): (d: Option<nat>)
    ensures d.Some? ==> d.value < 16
  {
    if '0' <= c <= '9' then Some(c as int - '0' as int)
    else if 'a' <= c <= 'f' then Some(c as int - 'a' as int + 10)
    else None
  }

  /**
   * A character `repr` writes as a `\xhh` escape: the characters below U+0100
   * that are not printable (the C0 controls other than tab, newline and
   * carriage return, DEL, the C1 controls, the no-break space U+00A0 and the
   * soft hyphen U+00AD).
   */
  predicate HexEscaped(c: char) {
    && (c as int < 0x20 || 0x7F <= c as int <= 0xA0 || c as int == 0xAD)
    && c != '\t' && c != '\n' && c != '\r'
  }

  /**
   * How `repr` writes one character inside the quote `q`: the quote and the
   * backslash behind a backslash, tab, newline and carriage return as
   * `\t`, `\n`, `\r`, the other characters below U+0100 that are not
   * printable as `\xhh`, everything else as itself.
   */
  function ReprChar(c: char, q: char): (r: string)
    ensures r == [c] || (|r| >= 2 && r[0] == '\\')
    ensures r == [c] <==> c != q && c != '\\' && c != '\t' && c != '\n' && c != '\r' && !HexEscaped(c)
  {
    if c == q || c == '\\' then ['\\', c]
    else if c == '\t' then "\\t"
    else if c == '\n' then "\\n"
    else if c == '\r' then "\\r"
    else if HexEscaped(c) then ['\\', 'x', HexDigit(c as int / 16), HexDigit(c as int % 16)]
    else [c]
  }

  /** Every character of `s` as `repr` writes it inside the quote `q`. */
  function ReprBody(s: string, q: char): (r: string)
    ensures |r| >= |s|
  {
    if s == [] then [] else ReprChar(s[0], q) + ReprBody(s[1..], q)
  }

  /** The quote `repr` picks: a double quote for text holding a single quote and no double quote, else a single quote. */
  function ReprQuote(s: string): (q: char)
    ensures q == '"' <==> '\'' in s && '"' !in s
    ensures q == '\'' || q == '"'
  {
    if '\'' in s && '"' !in s then '"' else '\''
  }

  /** `repr(s)` for a `str`: the text between the chosen quotes. */
  function PyRepr(s: string): (r: string)
    ensures |r| >= |s| + 2 && r[0] == r[|r| - 1] == ReprQuote(s)
    ensures r[1..|r| - 1] == ReprBody(s, ReprQuote(s))
  {
    [ReprQuote(s)] + ReprBody(s, ReprQuote(s)) + [ReprQuote(s)]
  }

  /** Reading an escaped body back, as Python's parser reads a string literal. */
  function Unescape(b: string): (r: Option<string>)
    decreases |b|
  {
    if b == [] then Some([])
    else if b[0] != '\\' then
      match Unescape(b[1..]) case None => None case Some(t) => Some([b[0]] + t)
    else if |b| < 2 then None
    else
      var e := b[1];
      if e == 'x' then
        if |b| < 4 || HexValue(b[2]).None? || HexValue(b[3]).None? then None
        else match Unescape(b[4..]) case None => None case Some(t) => Some([(HexValue(b[2]).value * 16 + HexValue(b[3]).value) as char] + t)
      else
        var c := if e == 't' then '\t' else if e == 'n' then '\n' else if e == 'r' then '\r' else e;
        match Unescape(b[2..]) case None => None case Some(t) => Some([c] + t)
  }

  /** One escaped character, then the rest, reads back as that character and the rest. */
  lemma UnescapeChar(c: char, q: char, rest: string, t: string)
    requires q == '\'' || q == '"'
    requires Unescape(rest) == Some(t)
    ensures Unescape(ReprChar(c, q) + rest) == Some([c] + t)
  {
    var b := ReprChar(c, q) + rest;
    if c == q || c == '\\' {
      assert b[0] == '\\' && b[1] == c && b[2..] == rest;
    } else if c == '\t' || c == '\n' || c == '\r' {
      assert b[0] == '\\' && b[2..] == rest;
    } else if HexEscaped(c) {
      var hi, lo := c as int / 16, c as int % 16;
      assert b[0] == '\\' && b[1] == 'x' && b[2] == HexDigit(hi) && b[3] == HexDigit(lo) && b[4..] == rest;
      assert (hi * 16 + lo) as char == c;
    } else {
      assert b[0] == c && b[1..] == rest;
    }
  }

  /** `repr` loses nothing: its body reads back as the text, whichever quote was chosen. */
  lemma {:induction false} ReprRoundTrip(s: string, q: char)
    requires q == '\'' || q == '"'
    ensures Unescape(ReprBody(s, q)) == Some(s)
  {
    if s != [] {
      ReprRoundTrip(s[1..], q);
      UnescapeChar(s[0], q, ReprBody(s[1..], q), s[1..]);
      assert [s[0]] + s[1..] == s;
    }
  }

  /** Two texts with the same `repr` are equal. */
  lemma ReprInjective(s: string, t: string)
    requires PyRepr(s) == PyRepr(t)
    ensures s == t
  {
    ReprRoundTrip(s, ReprQuote(s));
    ReprRoundTrip(t, ReprQuote(t));
  }

  /** The no-break space is escaped, as `repr('\xa0')` is `'\xa0'`. */
  lemma NoBreakSpaceEscaped()
    ensures PyRepr("\U{A0}") == "'\\xa0'"
  {
    assert ReprBody("\U{A0}", '\'') == ReprChar('\U{A0}', '\'') + ReprBody([], '\'');
  }

  /** Printable ASCII without a backslash: the characters `repr` writes as themselves, bar the quote. */
  predicate ReprPlain(s: string) {
    forall k :: 0 <= k < |s| ==> 0x20 <= s[k] as int < 0x7F && s[k] != '\\'
  }

  /** Plain text free of the quote is its own body. */
  lemma {:induction false} ReprBodyPlain(s: string, q: char)
    requires q !in s && ReprPlain(s)
    ensures ReprBody(s, q) == s
  {
    if s != [] {
      ReprBodyPlain(s[1..], q);
      assert [s[0]] + s[1..] == s;
    }
  }

  /** Plain text without a single quote is shown between single quotes. */
  lemma ReprSingleQuoted(s: string)
    requires '\'' !in s && ReprPlain(s)
    ensures PyRepr(s) == "'" + s + "'"
  {
    ReprBodyPlain(s, '\'');
  }

  /** Plain text with a single quote and no double quote is shown between double quotes, as `repr("it's")` is `"it's"`. */
  lemma ReprDoubleQuoted(s: string)
    requires '\'' in s && '"' !in s && ReprPlain(s)
    ensures PyRepr(s) == "\"" + s + "\""
  {
    ReprBodyPlain(s, '"');
  }
}

=== FILE: wrappers.dfy ===
/** Optional values, results and the Python exceptions the pipeline catches and reports. */
module Wrappers {

  /** Python's `X | None`. */
  datatype Option<+T> = None | Some(value: T) {
    function GetOr(default: T): T {
      match this
      case Some(v) => v
      case None => default
    }
  }

  /** A call that either returns a value or raises. */
  datatype Result<+T, +E> = Success(value: T) | Failure(error: E)

  /** A raised Python exception: the name of its class and `str(e)`. */
  datatype PyException = PyException(typeName: string, message: string)

  /** A call whose only interesting outcome is whether it raised. */
  datatype Outcome = Done | Raised(exc: PyException)

  /** The text `f"{type(e).__name__}: {e}"` that the gates store as an error. */
  function Describe(e: PyException): (d: string)
    ensures |d| == |e.typeName| + 2 + |e.message|
    ensures d[..|e.typeName|] == e.typeName && d[|e.typeName|..|e.typeName| + 2] == ": "
    ensures d[|e.typeName| + 2..] == e.message
  {
    e.typeName + ": " + e.message
  }
}
